=== FILE: README.md ===
# Wave Function Collapse solver, modelled in Dafny

This project models the core of `wfc`, a Rust library that fills an
N-dimensional grid with tile variants. Each tile variant has a **rule**: one
**socket** per direction. A cell starts with every variant as a
**possibility**. The solver repeats two steps:

- an **arbiter** collapses a lowest-entropy cell to one variant;
- **propagation** narrows the neighbours' possibilities to those whose
  sockets a **constraint** accepts.

It stops when every cell is collapsed or a contradiction arises. A cell
whose last possibility a limit adjuster removes also reads as collapsed,
with no variant. The
library can also infer rules from a sample grid: a **rule finder**
combines answers from a **socket provider**.

Identifiers are `nat` ids:

- variants;
- sockets;
- directions `0 .. 2*DIM` (the position in `D::iter()`).

Direction `d` moves along axis `d / 2`, downwards when `d` is even. A grid
size is a `seq<nat>` of extents. Cells are numbered with the first axis
running fastest.

The seeded ChaCha20 generator is a `Stream`: a function from (seed, draw
number) to a value. The thread-local generator behind an absent seed is
a parameter. A constraint is a function parameter `Check`. A Rust panic
becomes a precondition, unless a Findings row lists it.

Modules:

- `Geometry`: `Size`, `IPos`/`UPos`, flattening, wrapping, `Add<D>` (util.rs).
- `Ordered`: `BTreeSet` iteration order.
- `Rules`: `Rule`, `Rules` (rules.rs).
- `Constraints`: the prebuilt constraints.
- `Shapes`: weighted and multi shapes.
- `Dims`, `Bevy`: the direction enumerations. Bevy's `Dim3d` has the same variants, order and `opposite` as the prebuilt `Dim3d`, so it is that type.
- `Errors`: the error enums (err.rs, auto.rs).
- `CellStore`: cells, `OrderSet`, `EntropyCache`, `Cells` (cells.rs).
- `Selection`: arbiters, the limit adjuster, chaining (arbiters.rs, and the
  same algorithms under newer names in processing.rs).
- `Solver`: the socket cache, `constrain`, `propagate`, `State::new`,
  `collapse`, the builder and the readings (state.rs, lib.rs).
- `Finder`: `GenericFinder` (prebuilt/auto.rs).
- `Maze`, `Chaos`: the two end-to-end providers.

Terms used in the table:

- The **cache invariant** (`CellStore.Valid`): the entropy cache lists
  exactly the uncollapsed cells, each at the level of its entropy, and an
  uncollapsed cell's entropy counts its possibilities.
- An **arc** from cell `u` to an uncollapsed neighbour `n` holds when every
  possibility of `n` is admitted by the constraint against the sockets that
  `u`'s possibilities offer toward `n`.
- A store is **consistent** (`Solver.Consistent`) when every arc holds.
- A **side holds** (`Solver.SideHolds`) when every open cell on the face
  toward an external side keeps only variants whose socket toward the
  outside the constraint accepts against the external variant beyond it.

## Model

| member | source | states |
|---|---|---|
| Geometry.IsEmptyIffZeroAxis | src/util.rs:41-47 | a size is empty exactly when some axis has extent 0 |
| Geometry.PositiveLenAllAxes | src/util.rs:41-43 | a non-empty grid has only positive extents |
| Geometry.SizeFrom | src/util.rs:57-61 | the size contains the position, and raising any one coordinate by 1 leaves it: the tightest size holding it |
| Geometry.IndexInRange | src/util.rs:113-123 | an in-bounds position flattens into `[0, len)` |
| Geometry.FromIndexOfIndex | src/util.rs:97-123 | unflattening the index of an in-bounds position gives it back |
| Geometry.IndexOfFromIndex | src/util.rs:97-123 | every index below the length unflattens to an in-bounds position with that index |
| Geometry.IndexInjective | src/util.rs:113-123 | distinct in-bounds positions have distinct indexes |
| Geometry.IndexExample | src/util.rs:254-262 | `[2, 3, 4]` in a 5x5x5 grid is index 117, and back |
| Geometry.Wrap | src/util.rs:242-252 | the wrapped value lies in `[0, s)` and is congruent to `i` modulo `s` |
| Geometry.WrapIsEuclidean | src/util.rs:242-252 | the truncating `((i % s) + s) % s` equals the Euclidean remainder |
| Geometry.WrapPos | src/util.rs:125-132 | the wrapped position is in bounds, and each coordinate is congruent to the original |
| Geometry.IndexIn | src/util.rs:134-136 | the index of a wrapped position is below the length |
| Geometry.WrapPosInBounds | src/util.rs:125-132 | wrapping leaves an in-bounds position unchanged |
| Geometry.WrapExamples | src/util.rs:274-290 | the documented wrap examples |
| Geometry.ToUPos | src/util.rs:202-212 | conversion to `UPos` succeeds exactly when no coordinate is negative, and keeps every value |
| Geometry.Add | src/util.rs:214-232 | a step changes exactly the direction's axis, by -1 for an even direction and +1 for an odd one |
| Geometry.OppositeIndexFacts | src/lib.rs:76-89 | the paired opposite is an involution with no fixed point, on the same axis, with the other sign |
| Geometry.AddThenOpposite | src/util.rs:214-232 | stepping in a direction and then in its opposite comes back |
| Geometry.AddMoves | src/util.rs:214-232 | a step never stays in place |
| Ordered.SetMin | src/cells.rs:179-184 | the first element of a `BTreeSet` is in the set and below every other element |
| Ordered.Sorted | src/state.rs:330 | the iteration order of a set: each element exactly once, strictly increasing |
| Rules.FromFn | src/rules.rs:137-146 | every one of the `count` directions gets exactly the socket `f` gives it, and no other key is present |
| Rules.Splat | src/rules.rs:133-135 | every direction gets the same socket |
| Rules.FromIter | src/rules.rs:156-165 | the keys are those of the pairs, and each maps to the socket of the last pair with that key |
| Rules.Sockets | src/rules.rs:60-67 | a socket is in the set exactly when some rule has it in some direction |
| Rules.FromMap | src/rules.rs:70-84 | every variant keeps its entry, converted |
| Rules.SocketsOfSplats | src/rules.rs:60-67 | a table of splatted rules offers exactly the splatted sockets |
| Constraints.SetCheckElementwise | src/prebuilt/constraints.rs:30-35 | the set check accepts exactly when one element lies both in an offered set and in the variant's set |
| Constraints.EmptyRejects | src/prebuilt/constraints.rs:17-35 | no socket is accepted when nothing is offered |
| Constraints.SetCheckMonotone | src/prebuilt/constraints.rs:30-35 | enlarging the offers or the variant's set never revokes acceptance |
| Constraints.UnaryMonotone | src/prebuilt/constraints.rs:17-20 | the unary check is monotone in the offers |
| Constraints.SequentialLaws | src/prebuilt/constraints.rs:56-60 | the order of a sequential pair does not matter, and a constraint paired with itself is unchanged |
| Constraints.SetCheckSingleton | src/prebuilt/constraints.rs:17-35 | a singleton-set socket behaves like the unary check against the union of the offers |
| Shapes.NewWeighted | src/prebuilt/shapes.rs:12-23 | the map's keys are the listed variants, each with the weight of its last pair |
| Shapes.WeightLaws | src/prebuilt/shapes.rs:33-45 | a listed variant weighs its weight and an unlisted one 0; a multi-shape weighs 0 exactly when both parts do |
| Shapes.MultiDominates | src/prebuilt/shapes.rs:184-191 | a multi-shape weighs at least as much as each part |
| Shapes.EstimatedNeighbors | src/prebuilt/shapes.rs:74 | the estimate is at least `range` |
| Shapes.EstimatedNeighborsClosedForm | src/prebuilt/shapes.rs:74 | the estimate equals `range(range+1)(2range+1)/6` |
| Dims.Ordinal1d | src/prebuilt/dims.rs:15-31 | each 1d direction has a position below the count |
| Dims.Opposite1d | src/prebuilt/dims.rs:20-31 | the opposite is the pair partner in enumeration order |
| Dims.Ordinal2d | src/prebuilt/dims.rs:34-50 | each 2d direction has a position below the count |
| Dims.Opposite2d | src/prebuilt/dims.rs:41-50 | the opposite is the pair partner in enumeration order |
| Dims.Ordinal3d | src/prebuilt/dims.rs:57-77 | each 3d direction has a position below the count |
| Dims.Opposite3d | src/prebuilt/dims.rs:66-77 | the opposite is the pair partner in enumeration order |
| Dims.OppositeInvolutive | src/prebuilt/dims.rs:20-77 | `opposite` is an involution for every enumeration |
| Dims.FromOrdinal1d | src/prebuilt/dims.rs:15-19 | every position below the count names a direction, and that direction's position is the same |
| Dims.FromOrdinal2d | src/prebuilt/dims.rs:34-40 | every position below the count names a direction, and that direction's position is the same |
| Dims.FromOrdinal3d | src/prebuilt/dims.rs:57-65 | every position below the count names a direction, and that direction's position is the same |
| Dims.StepAndBack2d | src/prebuilt/dims.rs:34-50 | a 2d step undone by its opposite returns to the start |
| Dims.StepAndBack3d | src/prebuilt/dims.rs:57-77 | a 3d step undone by its opposite returns to the start |
| Bevy.Ordinal2d | src/prebuilt/dims/bevy.rs:10-15 | each Bevy 2d direction has a position below the count, on one of the two axes |
| Bevy.Opposite2d | src/prebuilt/dims/bevy.rs:17-26 | the opposite is the pair partner |
| Bevy.Ordinal3dYUp | src/prebuilt/dims/bevy.rs:28-41 | each direction of the corrected 3d enumeration has a position below the count, on one of the three axes |
| Bevy.Opposite3dYUp | src/prebuilt/dims/bevy.rs:43-54 | the opposite is the pair partner in the corrected order |
| Bevy.OppositeInvolutive | src/prebuilt/dims/bevy.rs:17-54 | `opposite` is an involution for Bevy 2d and the corrected 3d enumeration |
| Bevy.Dim2dUpIsYPlus | src/prebuilt/dims/bevy.rs:4-26 | Bevy 2d Up steps towards Y+, Down towards Y-, and each step is undone by its opposite |
| Bevy.Dim3dUpIsYMinus | src/prebuilt/dims/bevy.rs:28-41 | as written, Bevy 3d Up steps towards Y-, against its documentation |
| Bevy.Dim3dYUpIsYPlus | src/prebuilt/dims/bevy.rs:28-54 | with Down listed first, Bevy 3d Up is Y+ and each step is undone by its opposite |
| CellStore.Step | src/cells.rs:200-208 | there is a neighbour exactly when the stepped position is inside the grid, and it is that position's index |
| CellStore.ListsDirCons | src/cells.rs:200-208 | prepending an entry lists its direction and keeps the earlier ones |
| CellStore.NeighborsFrom | src/cells.rs:200-208 | over the per-direction steps, the list holds exactly the directions from `d` on whose step lands inside, each with the index it lands on, in increasing direction order |
| CellStore.Neighbors | src/cells.rs:200-208 | every listed neighbour is reached by its direction, every direction whose step stays inside the grid is listed, and directions increase |
| CellStore.Position | src/cells.rs:28-52 | the position of an index is in bounds, and its index is the index |
| CellStore.NeighborsOf | src/cells.rs:200-208 | each listed neighbour is another cell of the grid, reached by the listed direction |
| CellStore.SelectedVariant | src/cells.rs:179-184 | a collapsed cell with possibilities selects its least one; an uncollapsed cell selects nothing |
| CellStore.CollapseCell | src/cells.rs:186-189 | the cell is collapsed and selects the chosen variant |
| CellStore.RemoveVariant | src/cells.rs:191-194 | the variant is gone, everything else stays, and the entropy counts what is left |
| CellStore.SwapRemove | src/cells.rs:222-229 | the element leaves, every other one stays, the order set shrinks by one exactly when the element was present |
| CellStore.SwapRemoveFacts | src/cells.rs:222-229 | swap-removal keeps the set free of duplicates |
| CellStore.InsertLast | src/cells.rs:222-225 | the element is present afterwards and earlier entries keep their order |
| CellStore.NewCache | src/cells.rs:213-216 | there are `maxEntropy` empty levels |
| CellStore.CacheSet | src/cells.rs:222-225 | the index leaves the old level and joins the new one; no other entry moves |
| CellStore.ClearEntry | src/cells.rs:227-230 | the index leaves its level; nothing else moves |
| CellStore.LowestFrom | src/cells.rs:218-220 | the result is the first non-empty level at or after the start, or nothing when there is none |
| CellStore.Lowest | src/cells.rs:218-220 | the lowest level is non-empty, and every level below it is empty |
| CellStore.Pending | src/cells.rs:28-52 | exactly the open slots of the input, in increasing order |
| CellStore.New | src/cells.rs:28-52 | decided slots become collapsed cells outside the cache; open slots hold every variant and sit in the top level |
| CellStore.NewIsValid | src/cells.rs:28-52 | the cache invariant holds for a new store |
| CellStore.LowestEntropyIndexes | src/cells.rs:119-122 | the result is the first non-empty cache level |
| CellStore.LowestIsMinimal | src/cells.rs:119-122 | when the cache invariant holds the lowest level holds exactly the uncollapsed cells of least entropy, and there is none exactly when every cell is collapsed |
| CellStore.Collapse | src/cells.rs:101-117 | an error leaves the store unchanged; otherwise only the chosen cell changes: it holds the choice, is collapsed, and leaves its level |
| CellStore.CollapsePreservesValid | src/cells.rs:101-117 | collapsing keeps the cache invariant and takes the cell out of the cache |
| CellStore.ShrinkPreservesValid | src/state.rs:221-238 | narrowing a cell to a non-empty subset and moving it to its new level keeps the cache invariant |
| CellStore.FaceCoordinate | src/cells.rs:72-99 | the face coordinate is 0 for a negative direction and the last slot otherwise |
| CellStore.FaceStart | src/cells.rs:72-99 | the start position is in bounds and on the face |
| CellStore.WrapOtherAxis | src/cells.rs:137-138 | `wrap(a + k, n)` for `0 < k < n` is another axis |
| CellStore.FindCells | src/cells.rs:124-143 | every index recorded is an uncollapsed cell on the face |
| CellStore.FindLoop | src/cells.rs:137-141 | every index recorded is an uncollapsed cell on the face |
| CellStore.UncollapsedAlongDirAsWritten | src/cells.rs:72-99 | as written, every index returned is an uncollapsed cell on the face |
| CellStore.FaceUpTo | src/cells.rs:72-99 | the face indexes below `n`, strictly increasing |
| CellStore.UncollapsedAlongDir | src/cells.rs:72-99 | corrected: exactly the uncollapsed cells on the face, each once, in index order |
| CellStore.FindLoopCovers | src/cells.rs:137-145 | on two axes the loop reaches every later slot of the other axis |
| CellStore.OneAxisFaceCovered | src/cells.rs:124-143 | on one axis the face cell is the start position |
| CellStore.TwoAxesFaceCovered | src/cells.rs:124-143 | on two axes every face cell is reached |
| CellStore.AlongDirAgreesUpToTwoAxes | src/cells.rs:72-147 | on one or two axes the as-written and corrected enumerations are the same sequence |
| CellStore.AsWrittenIncreasingUpToTwoAxes | src/cells.rs:124-143 | on one or two axes `find_cells` lists the face cells in increasing index order |
| CellStore.FindLoopIncreasing | src/cells.rs:135-142 | on two axes the loop of `find_cells` lists increasing indexes, all above the cell one step before its start |
| CellStore.AlongDirMissesOnThreeAxes | src/cells.rs:124-143 | on a 2x2x2 grid the as-written enumeration misses a face cell |
| Selection.Draws | src/prebuilt/arbiters.rs:64-72 | `k` draws read the seeded stream at positions `drawn` to `drawn + k - 1`, in order, and leave the generator `k` draws on |
| Selection.Pick | src/prebuilt/arbiters.rs:162-171 | the item picked has a positive weight, and its interval holds the target |
| Selection.ChooseWeighted | src/prebuilt/arbiters.rs:162-171 | fails exactly when every weight is 0; otherwise returns a positively weighted index |
| Selection.SumSnoc | src/prebuilt/arbiters.rs:162-171 | extending a prefix adds that item's weight |
| Selection.SumPrefixMono | src/prebuilt/arbiters.rs:162-171 | prefix sums never decrease |
| Selection.PickUnique | src/prebuilt/arbiters.rs:162-171 | the item whose interval holds the target is the one picked |
| Selection.NewRandom | src/prebuilt/arbiters.rs:38-47 | the seed is the given one, or else the drawn one; no draws made yet |
| Selection.NewWeighted | src/prebuilt/arbiters.rs:131-140 | as `NewRandom`, and the shape is kept |
| Selection.Designate | src/prebuilt/arbiters.rs:56-79 | with every cell collapsed, nothing happens; otherwise the chosen index is in the lowest level, and on success it is collapsed to one of its own possibilities |
| Selection.DesignatePreservesValid | src/prebuilt/arbiters.rs:56-79 | designating keeps the cache invariant |
| Selection.RandomNeverFails | src/prebuilt/arbiters.rs:56-79 | a uniform arbiter never fails |
| Selection.WeightedPicksPositive | src/prebuilt/arbiters.rs:149-176 | a weighted arbiter collapses only to a variant of positive weight |
| Selection.PruneStep | src/prebuilt/arbiters.rs:231-238 | corrected step: only cell `i` changes, it is pruned of `v`, and the cache invariant still holds |
| Selection.PruneToEmptyValid | src/prebuilt/arbiters.rs:231-238 | emptying a cell and clearing its entry keeps the cache invariant |
| Selection.PruneUpTo | src/prebuilt/arbiters.rs:231-238 | the first `k` cells are pruned of `v`, the rest are untouched, and the cache invariant still holds |
| Selection.Prune | src/prebuilt/arbiters.rs:231-238 | corrected: `v` leaves every uncollapsed cell, nothing else leaves, collapsed cells are untouched, and the cache invariant still holds |
| Selection.PruneStepAsWritten | src/prebuilt/arbiters.rs:231-238 | as written: panics exactly when the cell is left with nothing |
| Selection.PruneUpToAsWritten | src/prebuilt/arbiters.rs:231-238 | as written: panics exactly when a scanned uncollapsed cell holds nothing but `v`; otherwise agrees with the corrected loop |
| Selection.PruneAsWritten | src/prebuilt/arbiters.rs:218-239 | as written: panics exactly when some uncollapsed cell holds only `v`; otherwise agrees with `Prune` |
| Selection.PruneLastPossibility | src/prebuilt/arbiters.rs:231-238 | a one-cell store holding only 7: the as-written pruning panics, the corrected one empties the cell |
| Selection.Revise | src/prebuilt/arbiters.rs:84-330 | revision keeps the cache invariant and the size, only shrinks cells, removes nothing but `v`, leaves collapsed cells alone, and never changes an arbiter |
| Selection.LimitRevise | src/prebuilt/arbiters.rs:218-239 | untracked: nothing changes; tracked: the count drops, saturating, and pruning happens exactly when it reaches 0 |
| Selection.ChainRunsInOrder | src/prebuilt/arbiters.rs:86-92 | a chained selector designates as the original and revises as the original followed by the appended adjuster |
| Solver.SocketsToward | src/state.rs:377-390 | a socket is offered exactly when some possibility's rule has it toward the direction |
| Solver.Lookup | src/state.rs:369-375 | nothing exactly for an unknown set; an entry exactly when the direction is cached; a coherent cache returns the socket union |
| Solver.OrInsert | src/state.rs:377-406 | an existing entry is kept; otherwise the computed one is added |
| Solver.FullCreate | src/state.rs:377-390 | the entry is present afterwards, every old entry stays, and coherence is kept |
| Solver.PartialCreate | src/state.rs:392-406 | the entry is present afterwards, every old entry stays, and coherence is kept |
| Solver.NeighborSockets | src/state.rs:302-310 | through a coherent cache the result is the socket union, and the cache stays coherent |
| Solver.Constrain | src/state.rs:294-338 | the cell keeps exactly the possibilities whose socket toward the neighbour is accepted; it fails with the documented contradiction exactly when none is |
| Solver.ConsistentExceptWeaken | src/state.rs:203-243 | listing more pending cells never breaks the invariant |
| Solver.NarrowedOne | src/state.rs:221-236 | narrowing one cell to an uncollapsed subset extends a narrowing |
| Solver.NarrowKeepsOtherArcs | src/state.rs:203-243 | narrowing keeps every arc that does not leave a narrowed cell |
| Solver.TotalPossibilitiesUpdate | src/state.rs:203-243 | replacing one cell changes the total by its difference |
| Solver.UncollapsedOnly | src/state.rs:210-215 | exactly the neighbours whose cell is uncollapsed, in order |
| Solver.FinishPop | src/state.rs:207-239 | once every uncollapsed neighbour is narrowed, every arc leaving the popped cell holds |
| Solver.NarrowAt | src/state.rs:217-238 | the neighbour is narrowed against the popped cell; reports exactly whether it lost a possibility |
| Solver.ArcsUpToStep | src/state.rs:217-239 | narrowing neighbour `k` extends the arcs that hold by one |
| Solver.VisitedStep | src/state.rs:217-239 | one more neighbour keeps the pop's invariant |
| Solver.VisitNeighbor | src/state.rs:217-238 | the neighbour is narrowed, and listed exactly when it lost a possibility |
| Solver.NarrowNeighbors | src/state.rs:207-239 | after a pop every arc leaving the cell holds; the neighbours that shrank are listed |
| Solver.Propagate | src/state.rs:203-243 | success keeps the cache invariant and only narrows; through a coherent cache every arc leaving the start cell holds afterwards, every arc that held still holds, and a store consistent except at the start cell becomes consistent; an error is a contradiction, and through a coherent cache it names a cell of a narrowed store none of whose possibilities is admitted against a neighbour, with that cell's position, the direction back, the neighbour's variants and the sockets they offer |
| Solver.PopOnce | src/state.rs:207-241 | one pop only narrows the store, keeps the tracked arcs in order except for the cells now pending, lowers possibilities plus stack height, and fails only with a genuine contradiction |
| Solver.PopKeepsHeld | src/state.rs:207-241 | after a pop whose arcs hold, only the rest of the stack and the pushed neighbours can have arcs out of order |
| Solver.HeldAll | src/state.rs:203-243 | once nothing is pending the start cell's arcs and every arc that held before hold, and a store consistent except at the start cell is consistent |
| Solver.RefutedTrans | src/state.rs:203-243 | a contradiction reached from a narrowing of the store is reached from the store |
| Solver.ShrunkLaws | src/state.rs:126-185 | shrinking is transitive, and a narrowing is a shrinking |
| Solver.ApplySide | src/state.rs:142-169 | a side only narrows the store and keeps the cache invariant; through a coherent cache the side holds afterwards; it fails only with a contradiction |
| Solver.FaceStep | src/state.rs:145-168 | one face cell is narrowed against its external variant and propagated from; the store only narrows and the side holds for one more cell |
| Solver.SideFromUpTo | src/state.rs:144-145 | a side that holds for every listed face cell holds for the face |
| Solver.SideHoldsShrunk | src/state.rs:142-182 | a side that holds keeps holding while the store only shrinks |
| Solver.SidesStep | src/state.rs:142-169 | applying one more side keeps the earlier sides and adds it, since narrowing keeps the faces |
| Solver.Decided | src/state.rs:171-177 | exactly the collapsed cells with a variant, paired with it, in increasing index order |
| Solver.PropagateDecided | src/state.rs:171-182 | revising and propagating each decided cell only shrinks the store and keeps the cache invariant; through a coherent cache every arc leaving a cell that had a variant holds afterwards |
| Solver.DecidedArcsStep | src/state.rs:179-182 | revising and propagating one more decided cell keeps the arcs of the earlier ones and adds its own |
| Solver.DecidedArcsAll | src/state.rs:171-182 | once every listed decided cell has its arcs in order, so does every cell with a variant |
| Solver.New | src/state.rs:126-185 | the cache invariant holds and the cache is coherent; decided slots are collapsed on their variant and every arc leaving them holds; open slots hold only rule variants; every external side holds for the face of the initial store; errors are contradictions |
| Solver.NewBuilder | src/state.rs:35-50 | every slot open and no external side |
| Solver.WithExt | src/state.rs:52-55 | the side for the direction is replaced; others stay |
| Solver.Insert | src/state.rs:57-61 | only the slot of the position changes, to the variant |
| Solver.InsertLaws | src/state.rs:57-61 | a later insert at the same position wins; inserts at distinct cells commute |
| Solver.Build | src/state.rs:67-86 | a dimension mismatch exactly when the axis count is not half the direction count; otherwise errors are contradictions, and on success the cache invariant holds for a store of the builder's size, decided slots are collapsed on their variant and every arc leaving them holds, open slots hold only rule variants, every external side of the builder holds, the rules are the builder's, and an arbiter stays an arbiter |
| Solver.LastObservation | src/lib.rs:97-107 | an index exactly for an incomplete observation, and it is that observation's index |
| Solver.Collapse | src/state.rs:188-200 | complete exactly when every cell was collapsed, with the store untouched; otherwise an open cell collapses to one of its possibilities and collapsed cells stay; an arbiter that never revises keeps its kind and seed, keeps a consistent store consistent, and empties no cell |
| Solver.CollapseAt | src/state.rs:192-199 | against the store before the arbiter's collapse: possibilities only shrink, the cell stays collapsed on one of its possibilities, collapsed cells stay, and an arbiter that never revises keeps consistency and empties no cell |
| Solver.CollapsedKeepsNonEmpty | src/cells.rs:101-117 | collapsing a cell onto one of its possibilities empties no cell |
| Solver.ReviseAndPropagate | src/state.rs:196-197 | revision then propagation only shrinks the store and keeps the state ready; an arbiter that never revises is kept as it was, empties no cell, and restores consistency after the arcs of the collapsed cell went out of order |
| Solver.ReviseThenPropagate | src/state.rs:196-197 | revision then propagation only shrinks the store, keeps an arbiter and a coherent cache, and with an arbiter that never revises restores consistency after the arcs of `index` went out of order and empties no cell; through a coherent cache every arc leaving `index` holds afterwards, and so does every arc leaving a collapsed cell that held before |
| Solver.ShrunkKeepsCollapsedArcs | src/state.rs:179-182 | the arcs leaving a collapsed cell survive any shrinking of the store |
| Solver.NarrowedKeepsNonEmpty | src/state.rs:203-243 | propagation never empties a cell |
| Solver.CollapseKeepsOtherArcs | src/state.rs:188-200 | collapsing a cell leaves only its outgoing arcs to check |
| Solver.Run | src/lib.rs:42-51 | on success every cell is collapsed, reading a variant or holding nothing, possibilities only shrank, and decided cells are unchanged; with an arbiter that never revises every cell that had a possibility reads a variant |
| Solver.DataRaw | src/state.rs:262-273 | a cell reads a variant exactly when it is collapsed and not empty; when the cache invariant holds that variant is its only possibility |
| Solver.IntoVariants | src/state.rs:341-360 | each cell reads its least possibility |
| Solver.ReadingsAgree | src/state.rs:245-360 | on a finished store all three readings agree |
| Finder.Neighbor | src/prebuilt/auto.rs:68-79 | there is a neighbour exactly when the step stays inside the grid, and it is the cell one step away |
| Finder.NeighborGrid | src/prebuilt/auto.rs:67-79 | one row per cell and one entry per direction; an entry is present exactly when the step stays inside, and names the cell one step away |
| Finder.NeighborGridFits | src/prebuilt/auto.rs:67-79 | the grid of a well-formed sample fits it |
| Finder.Targets | src/prebuilt/auto.rs:67-89 | each scanned cell contributes at most one neighbour variant |
| Finder.FoldSnoc | src/prebuilt/auto.rs:82-87 | folding one more neighbour applies the provider once more to the previous answer |
| Finder.GetSocket | src/prebuilt/auto.rs:35-52 | the provider's answer; a failure appends (direction, variant, neighbour) and success leaves the failures alone |
| Finder.FinalizeSocket | src/prebuilt/auto.rs:100-106 | no socket stays none; a socket goes through `finalize` |
| Finder.Finalize | src/prebuilt/auto.rs:91-111 | the same variants and directions, each socket finalized |
| Finder.FindMeetsReference | src/prebuilt/auto.rs:63-115 | find succeeds exactly when every fold succeeds; its table has exactly the sample's variants, each direction where the variant has a neighbour, and the finalized fold there; a failure is the first in scan order: it names a cell, a direction with a neighbour and the neighbour's variant, every earlier cell folds successfully, and so do the earlier directions of that cell |
| Finder.FirstFailureIsFirst | src/prebuilt/auto.rs:67-88 | every (cell, direction) pair before the reported failure in scan order folds successfully |
| Finder.ScanDirsRule | src/prebuilt/auto.rs:72-88 | a successful inner loop stores one answer per direction with a neighbour |
| Finder.ScanDirsOk | src/prebuilt/auto.rs:72-88 | the inner loop succeeds exactly when every direction with a neighbour gets an answer |
| Finder.ScanDirsErr | src/prebuilt/auto.rs:72-88 | a failing inner loop names the first direction whose answer fails, one with a neighbour, and that neighbour's variant; every earlier direction with a neighbour was answered |
| Finder.FoldErrSticks | src/prebuilt/auto.rs:82-87 | a failed fold stays failed |
| Finder.TargetsOccur | src/prebuilt/auto.rs:67-89 | a variant has neighbours listed only when it occurs in the sample |
| Finder.ScanFacts | src/prebuilt/auto.rs:64-89 | the scan of the first `n` cells matches the reference fold, and a failure is the first in scan order |
| Maze.Id | src/prebuilt/e2e/maze2d.rs:6-21 | each piece has an id below 14 |
| Maze.PieceOf | src/prebuilt/e2e/maze2d.rs:6-21 | an id names a piece exactly when it is below 14, and that piece's id is the id |
| Maze.IdRoundTrip | src/prebuilt/e2e/maze2d.rs:6-21 | ids round-trip, so each piece has its own id |
| Maze.BreakOf | src/prebuilt/e2e/maze2d.rs:111-116 | the break socket lies on the direction's axis |
| Maze.TableAsWrittenCrossesAxes | src/prebuilt/e2e/maze2d.rs:49-57 | as written, a vertical path shows a vertical break sideways, and only another vertical path fits to its right |
| Maze.TableWellShaped | src/prebuilt/e2e/maze2d.rs:33-103 | the corrected table keeps every socket on its axis and agrees with the source elsewhere |
| Maze.TableRows | src/prebuilt/e2e/maze2d.rs:33-103 | Entrance, Exit and FourWay share a row; Empty shows a break every way |
| Maze.BesideVerticalPath | src/prebuilt/e2e/maze2d.rs:33-103 | with the corrected table, a vertical path takes to its right exactly the pieces closed on their left |
| Maze.FindSocket | src/prebuilt/e2e/maze2d.rs:125-138 | succeeds exactly for a known direction and piece, with the table's socket |
| Maze.FindIgnoresCurrentAndTarget | src/prebuilt/e2e/maze2d.rs:125-138 | the answer depends only on the direction and the source piece |
| Maze.FoldIsLookup | src/prebuilt/e2e/maze2d.rs:125-138 | folding over any non-empty neighbour list gives the table entry |
| Maze.FinderUsesTable | src/prebuilt/e2e/maze2d.rs:118-143 | inference from a sample of pieces succeeds, and every rule entry is the table's socket |
| Maze.TargetsBounded | src/prebuilt/e2e/maze2d.rs:125-138 | a variant with neighbours listed is a piece, and the direction is one of the four |
| Chaos.FindSocket | src/prebuilt/e2e/chaos.rs:41-58 | always a socket: exactly the current set joined with both variants |
| Chaos.CheckCases | src/prebuilt/e2e/chaos.rs:72-87 | a missing socket is accepted exactly when a missing one is offered; a present one exactly when some offered set shares a variant; nothing against no offer |
| Chaos.CheckMonotone | src/prebuilt/e2e/chaos.rs:72-87 | more offers never revoke acceptance |
| Chaos.CheckMonotoneInSocket | src/prebuilt/e2e/chaos.rs:72-87 | a larger socket never loses acceptance |
| Chaos.CheckIsSetCheckOnPresent | src/prebuilt/e2e/chaos.rs:72-87 | on present sockets the chaos check is the set check |
| Chaos.FoldGathers | src/prebuilt/e2e/chaos.rs:41-58 | folding gathers the variant and every neighbour |
| Chaos.FinderGathersNeighbors | src/prebuilt/e2e/chaos.rs:41-62 | inference never fails, and each socket holds the variant and exactly its neighbours in that direction |

## Left out

- Directions: `Dimension::opposite` is taken to be the partner of a direction's pair in `D::iter()` order (`Geometry.OppositeIndex`), and a finder's enumeration is taken to have exactly 2*DIM directions, numbered `0 .. 2*DIM`. The source calls the trait's own `opposite` (src/state.rs:157, 312, 328), and `GenericFinder` walks `D::iter()` (src/prebuilt/auto.rs:72-88) with no count check; only `StateBuilder::build` checks `D::COUNT` (src/state.rs:67-86). `Dims.Opposite1d`, `Dims.Opposite2d`, `Dims.Opposite3d`, `Bevy.Opposite2d` and `Bevy.Opposite3dYUp` prove both for the prebuilt enumerations; a user enumeration that breaks them is not modelled.
- Random number generation: ChaCha20 and `thread_rng` are not modelled. The generator is a `Stream` parameter, and an absent seed is a drawn-seed parameter.
- `rand`'s `choose`: modelled as `draw % count` over the iteration order. The real algorithm draws a different number of values, so concrete outputs differ.
- `InformedShape` (src/prebuilt/shapes.rs:47-154): its weights are `f64` distances. Floating point is not modelled; only the integer `estimated_neighbors` sum is.
- src/prebuilt/weights.rs: weight conversions between numeric types are not modelled.
- `unsafe` aliasing in `index_twice_mut`, profiling, `Clone`, serde and Bevy reflection are not modelled. The `here!` macro, perf.rs and ext.rs are not part of this model.
- `HashMap` iteration order: the order of external sides in `State::new` is a parameter, so the results hold for every order.
- Machine integers: `usize` overflow and `u64` seeds are not modelled; integers are unbounded.
- Mutation on failure: a failed `State::new` or `collapse` leaves the Rust state half-updated. The model returns only the error.
- Positions: cells do not store a position; it is computed from the index.
- `Rule::from_default` is modelled as `Rules.Splat` of the default socket.
- The legend and `abstract_rules`: modelled by identifying variants, directions and sockets with their ids.
- Determinism (src/lib.rs:201-256): two runs from the same seed give the same grid. Every step is deterministic given the stream, but methods are not compared across two calls.
- The 32x32 literal maze output test (src/prebuilt/e2e/maze2d.rs:160-297) and the examples are not part of this model.
- Finder.Find: requires the sample to have exactly one variant per cell. The source indexes the source vector without checking.
- Solver.New: requires every external side to cover the whole grid. The source indexes it and would panic otherwise.
- Solver.Build: requires the direction count to be even, which holds for every direction enumeration.
- Solver.ApplySide: a side narrows every uncollapsed cell on the face, as `CellStore.UncollapsedAlongDir` lists it. On three or more axes `find_cells` skips part of the face (see Findings), so there the model narrows cells the source leaves open. On one or two axes both lists are the same sequence (`CellStore.AlongDirAgreesUpToTwoAxes`).
- Solver.New: applies the external sides through `Solver.ApplySide`, so on three or more axes it narrows the whole face where the source narrows part of it.
- Solver.Build: goes through `Solver.New`, with the same difference on three or more axes.
- Solver.Collapse: consistency after collapse is stated only for selectors that do not revise. A limit adjuster prunes cells without propagating afterwards.
- Maze.Id: pieces get ids in declaration order. The source's variant type is whatever `Maze2dTechnique` chooses.
- Selection.Revise: for a multi-phase selector the ensures state only what every adjuster keeps (consistency, shrinking, nothing but `v` removed), not the exact result.
- Selection.Revise: when limit pruning takes a cell's last possibility the source panics (see Findings). The model uses the corrected `Selection.Prune` instead: the emptied cell leaves the entropy cache with entropy 0, so it reads as collapsed with no variant. Propagation skips it and reports nothing. `Solver.Collapse` and `Solver.Run` inherit this.
- Solver.Run: with a limit adjuster a run can succeed with a cell that pruning emptied; that cell reads no variant, and `data` gives the default for it. That every cell reads a variant is proved only for arbiters that never revise. The model does not turn an emptied cell into a contradiction, because the source has no error for it.
- `processing.rs` (`RandomObserver`, `WeightedObserver`, `LimitMod`, `Chain`) is the same algorithm as arbiters.rs under new names. It shares the `Selection` model, and its rows cite arbiters.rs.

## Findings

| source | as written | input that shows it | evidently intended | confidence | as-written member | corrected member |
|---|---|---|---|---|---|---|
| src/prebuilt/e2e/maze2d.rs:49-57 | VERTICAL shows `VerticalBreak` left and right; HORIZONTAL shows `HorizontalBreak` up and down | a vertical path and an empty cell to its right: `VerticalBreak` against `HorizontalBreak` never fits, so only another vertical path may sit beside it | each piece shows its sideways socket on the axis of that direction, as the Empty and corner rows do | not executed | Maze.TableAsWrittenCrossesAxes | Maze.TableWellShaped |
| src/prebuilt/dims/bevy.rs:34-41 | Bevy `Dim3d` lists Up before Down, so `Add` moves Up towards Y- | Up from `[0, 5, 0]` gives `[0, 4, 0]` | Up is Y+, as the doc comment and Bevy `Dim2d` say | not executed | Bevy.Dim3dUpIsYMinus | Bevy.Dim3dYUpIsYPlus |
| src/prebuilt/arbiters.rs:231-238 | limit pruning calls `entropy_cache.set` with new entropy 0 when a cell loses its last possibility; the slot `0 - 1` underflows and panics | a one-cell store whose only cell holds just variant 7, limit 1 for 7 | the emptied cell leaves the cache without a panic, reading as collapsed with no variant | not executed | Selection.PruneLastPossibility | Selection.Prune |
| src/cells.rs:124-143 | `find_cells` starts each loop at 1 and never resets `pos`, so on three or more axes part of the face is never visited | a 2x2x2 grid of open cells, direction 0: cell `[0, 0, 1]` (index 4) is missing | every uncollapsed cell on the face is returned | not executed | CellStore.AlongDirMissesOnThreeAxes | CellStore.UncollapsedAlongDir |

=== FILE: cells.dfy ===
/**
  The cell store (`src/cells.rs`): one cell per grid position, each with its
  remaining possibilities, its in-bounds neighbours and its entropy, plus the
  entropy cache that buckets uncollapsed cells by entropy.

  Entropy is a possibility count, and 0 marks a collapsed cell. The cache is a
  sequence of levels in which level `e` (1-based, as `EntropyCache`'s `Index`
  implementation has it) sits at slot `e - 1`; a level is an `OrderSet`, a
  sequence without repetitions whose order the selection step observes.
*/
module CellStore {
  import opened Wrappers
  import opened Geometry
  import opened Ordered
  import opened Errors

  /** A neighbour entry: the neighbour's flat index and the direction that leads to it. */
  datatype Neighbor = Neighbor(index: nat, dir: nat)

  /**
    `Cell`: the remaining possibilities and the entropy. The source also
    caches the cell's position and neighbour list in it; both are functions of
    the cell's index and the grid size (`Position`, `NeighborsOf`), so the
    model computes them where they are used.
  */
  datatype Cell = Cell(possibilities: set<nat>, entropy: nat)

  /** `ordermap::OrderSet<usize>`: insertion-ordered, no repetitions. */
  type OrderSet = s: seq<nat> | NoDup(s) witness []

  /** `Cells`: the grid size, the cells in flat-index order and the entropy cache's levels. */
  datatype Cells = Cells(size: Size, list: seq<Cell>, levels: seq<OrderSet>)

  // ---------------------------------------------------------------------------
  // Neighbour lists

  /** The cell one step from `position` in direction `d`, if that step stays inside the grid. */
  function Step(position: IPos, size: Size, d: nat): (r: Option<nat>)
    requires |position| == |size| && d < 2 * |size|
    ensures r.Some? <==> Contains(size, Add(position, d))
    ensures r.Some? ==> r.value == Index(Add(position, d), size) && r.value < Len(size)
  {
    var np := Add(position, d);
    if Contains(size, np) then
      IndexInRange(np, size);
      Some(Index(np, size))
    else
      None
  }

  /** Direction `e` has an entry in the neighbour list. */
  predicate ListsDir(r: seq<Neighbor>, e: nat)
  {
    exists k :: 0 <= k < |r| && r[k].dir == e
  }

  /** Prepending an entry lists its direction and keeps every direction listed before. */
  lemma ListsDirCons(n: Neighbor, rest: seq<Neighbor>)
    ensures ListsDir([n] + rest, n.dir)
    ensures forall e: nat :: ListsDir(rest, e) ==> ListsDir([n] + rest, e)
  {
    var r := [n] + rest;
    assert r[0].dir == n.dir;
    forall e: nat | ListsDir(rest, e) ensures ListsDir(r, e) {
      var k :| 0 <= k < |rest| && rest[k].dir == e;
      assert r[k + 1].dir == e;
    }
  }

  /** The step in every direction, in the order of `D::iter()`. */
  function Steps(position: IPos, size: Size): (st: seq<Option<nat>>)
    requires |position| == |size|
    ensures |st| == 2 * |size|
    ensures forall e :: 0 <= e < |st| ==> st[e] == Step(position, size, e)
  {
    seq(2 * |size|, e requires 0 <= e < 2 * |size| => Step(position, size, e))
  }

  /**
    The tail of `Cell::neighbors` from direction `d` on, given the step
    `st[e]` in each direction `e`: every direction whose step stays inside
    the grid, with the index of the cell it reaches.
  */
  function NeighborsFrom(st: seq<Option<nat>>, d: nat): (r: seq<Neighbor>)
    requires d <= |st|
    ensures forall k :: 0 <= k < |r| ==> d <= r[k].dir < |st| && st[r[k].dir] == Some(r[k].index)
    ensures forall e: nat :: d <= e < |st| && st[e].Some? ==> ListsDir(r, e)
    ensures forall k, l :: 0 <= k < l < |r| ==> r[k].dir < r[l].dir
    decreases |st| - d
  {
    if d == |st| then []
    else
      var rest := NeighborsFrom(st, d + 1);
      match st[d]
      case None => rest
      case Some(n) =>
        ConsNeighbor(st, d, n, rest);
        [Neighbor(n, d)] + rest
  }

  /**
    Prepending the entry for direction `d` to the list from `d + 1` on gives
    the list from `d` on.
  */
  lemma ConsNeighbor(st: seq<Option<nat>>, d: nat, n: nat, rest: seq<Neighbor>)
    requires d < |st| && st[d] == Some(n)
    requires forall k :: 0 <= k < |rest| ==> d + 1 <= rest[k].dir < |st| && st[rest[k].dir] == Some(rest[k].index)
    requires forall e: nat :: d + 1 <= e < |st| && st[e].Some? ==> ListsDir(rest, e)
    requires forall k, l :: 0 <= k < l < |rest| ==> rest[k].dir < rest[l].dir
    ensures var r := [Neighbor(n, d)] + rest;
      && (forall k :: 0 <= k < |r| ==> d <= r[k].dir < |st| && st[r[k].dir] == Some(r[k].index))
      && (forall e: nat :: d <= e < |st| && st[e].Some? ==> ListsDir(r, e))
      && (forall k, l :: 0 <= k < l < |r| ==> r[k].dir < r[l].dir)
  {
    var r := [Neighbor(n, d)] + rest;
    ListsDirCons(Neighbor(n, d), rest);
    forall k | 0 <= k < |r|
      ensures d <= r[k].dir < |st| && st[r[k].dir] == Some(r[k].index)
    {
      if k > 0 {
        assert r[k] == rest[k - 1];
      }
    }
    forall k, l | 0 <= k < l < |r| ensures r[k].dir < r[l].dir {
      assert r[l] == rest[l - 1];
      if k > 0 {
        assert r[k] == rest[k - 1];
      }
    }
  }

  /** `Cell::neighbors`: every in-bounds neighbour, in the order of `D::iter()`. */
  function Neighbors(position: IPos, size: Size): (r: seq<Neighbor>)
    requires |position| == |size|
    ensures forall k :: 0 <= k < |r| ==>
              r[k].dir < 2 * |size| && Step(position, size, r[k].dir) == Some(r[k].index)
    ensures forall e: nat :: e < 2 * |size| && Step(position, size, e).Some? ==> ListsDir(r, e)
    ensures forall k, l :: 0 <= k < l < |r| ==> r[k].dir < r[l].dir
  {
    NeighborsFrom(Steps(position, size), 0)
  }

  /** `IPos::from_index`: the position `Cells::new` gives the cell with index `i`. */
  function Position(size: Size, i: nat): (p: UPos)
    requires i < Len(size)
    ensures Contains(size, p) && Index(p, size) == i
  {
    IndexOfFromIndex(i, size);
    FromIndex(i, size)
  }

  /**
    The neighbour list of the cell with index `i`: every entry names another
    cell of the grid, one step away. The cell itself is never among them, the
    reason the source may borrow a cell and a neighbour mutably at once.
  */
  function NeighborsOf(size: Size, i: nat): (r: seq<Neighbor>)
    requires i < Len(size)
    ensures forall k :: 0 <= k < |r| ==>
              r[k].dir < 2 * |size| && r[k].index < Len(size) && r[k].index != i
              && Index(Add(Position(size, i), r[k].dir), size) == r[k].index
    ensures forall e: nat :: e < 2 * |size| && Contains(size, Add(Position(size, i), e)) ==> ListsDir(r, e)
  {
    var p := Position(size, i);
    var r := Neighbors(p, size);
    forall k | 0 <= k < |r| ensures r[k].index != i {
      var np := Add(p, r[k].dir);
      assert Index(np, size) == Index(p, size) ==> np == p by {
        if Index(np, size) == Index(p, size) {
          IndexInjective(np, p, size);
        }
      }
      AddMoves(p, r[k].dir);
    }
    r
  }

  // ---------------------------------------------------------------------------
  // Cell

  /** `Cell::collapsed`. */
  predicate IsCollapsed(c: Cell)
  {
    c.entropy == 0
  }

  /** `Cell::new`: an uncollapsed cell whose entropy counts its possibilities. */
  function NewCell(possibilities: set<nat>): Cell
  {
    Cell(possibilities, |possibilities|)
  }

  /** `Cell::new_collapsed`: a cell already decided on `v`. */
  function NewCollapsed(v: nat): Cell
  {
    Cell({v}, 0)
  }

  /**
    `Cell::selected_variant`: for a collapsed cell the first possibility in
    increasing order, and nothing for an uncollapsed one.
  */
  function SelectedVariant(c: Cell): (r: Option<nat>)
    ensures r.Some? <==> IsCollapsed(c) && c.possibilities != {}
    ensures r.Some? ==> r.value in c.possibilities && forall x :: x in c.possibilities ==> r.value <= x
  {
    if IsCollapsed(c) && c.possibilities != {} then Some(SetMin(c.possibilities)) else None
  }

  /** `Cell::collapse`: only `v` remains, and the cell is marked collapsed. */
  function CollapseCell(c: Cell, v: nat): (r: Cell)
    ensures IsCollapsed(r) && SelectedVariant(r) == Some(v)
  {
    c.(possibilities := {v}, entropy := 0)
  }

  /**
    `Cell::remove_variant`: drops `v` and recounts. Applied to an uncollapsed
    cell holding more than `v`, the result is still uncollapsed and its entropy
    still counts its possibilities; if `v` was the last one, the cell reads as
    collapsed with nothing selected.
  */
  function RemoveVariant(c: Cell, v: nat): (r: Cell)
    ensures r.possibilities == c.possibilities - {v}
    ensures r.entropy == |r.possibilities|
    ensures IsCollapsed(r) <==> c.possibilities <= {v}
    ensures IsCollapsed(r) ==> SelectedVariant(r).None?
  {
    var rest := c.possibilities - {v};
    assert rest == {} <==> c.possibilities <= {v};
    c.(possibilities := rest, entropy := |rest|)
  }

  // ---------------------------------------------------------------------------
  // OrderSet operations

  /**
    `OrderSet::swap_remove`: the removed element's slot receives the last
    element. Every other element stays, and the set shrinks by one exactly
    when `x` was present.
  */
  function SwapRemove(level: OrderSet, x: nat): (r: OrderSet)
    ensures forall y :: y in r <==> y in level && y != x
    ensures |r| == if x in level then |level| - 1 else |level|
  {
    if x !in level then level
    else
      var i := IndexOf(level, x);
      var last := |level| - 1;
      var r := level[i := level[last]][..last];
      SwapRemoveFacts(level, x, i, r);
      r
  }

  lemma SwapRemoveFacts(level: seq<nat>, x: nat, i: nat, r: seq<nat>)
    requires NoDup(level) && i < |level| && level[i] == x
    requires r == level[i := level[|level| - 1]][..|level| - 1]
    ensures NoDup(r)
    ensures forall y :: y in r <==> y in level && y != x
  {
    var last := |level| - 1;
    assert forall k :: 0 <= k < |r| ==> r[k] == (if k == i then level[last] else level[k]);
    forall y | y in level && y != x ensures y in r {
      var k :| 0 <= k < |level| && level[k] == y;
      if k == last {
        assert r[i] == y;
      } else {
        assert r[k] == y;
      }
    }
  }

  /** `OrderSet::insert`: appends `x` unless it is already present; earlier entries keep their order. */
  function InsertLast(level: OrderSet, x: nat): (r: OrderSet)
    ensures forall y :: y in r <==> y in level || y == x
    ensures |r| >= |level| && r[..|level|] == level
  {
    if x in level then level else level + [x]
  }

  // ---------------------------------------------------------------------------
  // EntropyCache

  /** `EntropyCache::new`: `maxEntropy` empty levels. */
  function NewCache(maxEntropy: nat): (r: seq<OrderSet>)
    ensures |r| == maxEntropy && forall e :: 0 <= e < |r| ==> r[e] == []
  {
    seq(maxEntropy, _ => [])
  }

  /**
    `EntropyCache::set`: `index` leaves level `start` and joins level `new`
    (both 1-based; 0 would underflow the slot computation). No other entry
    of the cache moves in or out of any level.
  */
  function CacheSet(levels: seq<OrderSet>, start: nat, index: nat, newEntropy: nat): (r: seq<OrderSet>)
    requires 1 <= start <= |levels| && 1 <= newEntropy <= |levels|
    ensures |r| == |levels|
    ensures forall e, y :: 0 <= e < |levels| && y != index ==> (y in r[e] <==> y in levels[e])
    ensures forall e :: 0 <= e < |levels| ==>
              (index in r[e] <==> e == newEntropy - 1 || (index in levels[e] && e != start - 1))
  {
    var removed := levels[start - 1 := SwapRemove(levels[start - 1], index)];
    removed[newEntropy - 1 := InsertLast(removed[newEntropy - 1], index)]
  }

  /** `EntropyCache::clear_entry`: `index` leaves level `entropy` (1-based); nothing else moves. */
  function ClearEntry(levels: seq<OrderSet>, entropy: nat, index: nat): (r: seq<OrderSet>)
    requires 1 <= entropy <= |levels|
    ensures |r| == |levels|
    ensures forall e, y :: 0 <= e < |levels| ==>
              (y in r[e] <==> y in levels[e] && !(y == index && e == entropy - 1))
  {
    levels[entropy - 1 := SwapRemove(levels[entropy - 1], index)]
  }

  /** The first non-empty level at slot `from` or later, as a 1-based entropy. */
  function LowestFrom(levels: seq<OrderSet>, from: nat): (r: Option<nat>)
    requires from <= |levels|
    ensures r.None? <==> forall e :: from <= e < |levels| ==> levels[e] == []
    ensures r.Some? ==> from < r.value <= |levels| && levels[r.value - 1] != []
                        && forall e :: from <= e < r.value - 1 ==> levels[e] == []
    decreases |levels| - from
  {
    if from == |levels| then None
    else if levels[from] != [] then Some(from + 1)
    else LowestFrom(levels, from + 1)
  }

  /** `EntropyCache::lowest`: the entropy of the first non-empty level, if any. */
  function Lowest(levels: seq<OrderSet>): (r: Option<nat>)
    ensures r.None? <==> forall e :: 0 <= e < |levels| ==> levels[e] == []
    ensures r.Some? ==> 1 <= r.value <= |levels| && levels[r.value - 1] != []
                        && forall e :: 0 <= e < r.value - 1 ==> levels[e] == []
  {
    LowestFrom(levels, 0)
  }

  // ---------------------------------------------------------------------------
  // The store's invariant

  /**
    What every cell of a consistent store satisfies: a collapsed cell holds at
    most its selected variant, and an uncollapsed cell's entropy counts its
    possibilities and names a cache level.
  */
  predicate CellValid(cell: Cell, maxEntropy: nat)
  {
    (cell.entropy == 0 ==> |cell.possibilities| <= 1)
    && (cell.entropy != 0 ==> cell.entropy == |cell.possibilities| && cell.entropy <= maxEntropy)
  }

  /** The cache lists exactly the uncollapsed cells, each in the level of its entropy. */
  predicate CacheCoherent(c: Cells)
  {
    (forall e: nat, x: nat {:trigger x in c.levels[e]} :: e < |c.levels| && x in c.levels[e] ==>
       x < |c.list| && c.list[x].entropy == e + 1)
    && (forall i :: 0 <= i < |c.list| && 0 < c.list[i].entropy <= |c.levels| ==>
          i in c.levels[c.list[i].entropy - 1])
  }

  /** A consistent store: one cell per grid position, every cell valid, the cache coherent. */
  predicate Valid(c: Cells)
  {
    |c.list| == Len(c.size)
    && (forall i :: 0 <= i < |c.list| ==> CellValid(c.list[i], |c.levels|))
    && CacheCoherent(c)
  }

  // ---------------------------------------------------------------------------
  // Cells::new

  /** Indexes of the first `n` input slots left open, in increasing order. */
  function PendingUpTo(input: seq<Option<nat>>, n: nat): (r: seq<nat>)
    requires n <= |input|
    ensures Increasing(r)
    ensures forall k :: 0 <= k < |r| ==> r[k] < n
    ensures forall x: nat :: x in r <==> x < n && input[x].None?
    decreases n
  {
    if n == 0 then []
    else
      var prev := PendingUpTo(input, n - 1);
      if input[n - 1].None? then prev + [n - 1] else prev
  }

  /** Indexes of the input slots left open, in increasing order: the top cache level of a new store. */
  function Pending(input: seq<Option<nat>>): (r: seq<nat>)
    ensures Increasing(r)
    ensures forall x: nat :: x in r <==> x < |input| && input[x].None?
  {
    PendingUpTo(input, |input|)
  }

  /** The cell `Cells::new` builds for slot `i`. */
  function InitCell(slot: Option<nat>, variants: set<nat>): Cell
  {
    match slot
    case Some(v) => NewCollapsed(v)
    case None => NewCell(variants)
  }

  /**
    `Cells::new`: a decided slot becomes a collapsed cell outside the cache;
    an open slot becomes a cell holding every variant, listed in the top
    level. Some variant must exist when a slot is open, or the top level's
    slot computation underflows.
  */
  function New(size: Size, input: seq<Option<nat>>, variants: set<nat>): (r: Cells)
    requires |input| == Len(size)
    requires |variants| > 0 || forall i :: 0 <= i < |input| ==> input[i].Some?
    ensures Valid(r)
    ensures r.size == size && |r.list| == |input| && |r.levels| == |variants|
    ensures forall i :: 0 <= i < |input| && input[i].Some? ==>
              r.list[i].possibilities == {input[i].value} && IsCollapsed(r.list[i])
    ensures forall i :: 0 <= i < |input| && input[i].None? ==>
              r.list[i].possibilities == variants && r.list[i].entropy == |variants|
    ensures forall e :: 0 <= e < |r.levels| - 1 ==> r.levels[e] == []
    ensures |variants| > 0 ==> forall x: nat :: x in r.levels[|variants| - 1] <==> x < |input| && input[x].None?
  {
    var list := seq(|input|, i requires 0 <= i < |input| => InitCell(input[i], variants));
    var top := Pending(input);
    IncreasingNoDup(top);
    var levels: seq<OrderSet> := seq(|variants|, e => if e == |variants| - 1 then top else []);
    var r := Cells(size, list, levels);
    NewIsValid(size, input, variants, r);
    r
  }

  lemma NewIsValid(size: Size, input: seq<Option<nat>>, variants: set<nat>, r: Cells)
    requires |input| == Len(size)
    requires |variants| > 0 || forall i :: 0 <= i < |input| ==> input[i].Some?
    requires r.size == size && |r.list| == |input| && |r.levels| == |variants|
    requires forall i :: 0 <= i < |input| ==> r.list[i] == InitCell(input[i], variants)
    requires forall e :: 0 <= e < |r.levels| - 1 ==> r.levels[e] == []
    requires |variants| > 0 ==> r.levels[|variants| - 1] == Pending(input)
    ensures Valid(r)
  {
    forall i | 0 <= i < |r.list|
      ensures CellValid(r.list[i], |r.levels|)
    {
      assert r.list[i] == InitCell(input[i], variants);
    }
    forall e, x | 0 <= e < |r.levels| && x in r.levels[e]
      ensures x < |r.list| && r.list[x].entropy == e + 1
    {
      assert e == |variants| - 1;
    }
    forall i | 0 <= i < |r.list| && 0 < r.list[i].entropy <= |r.levels|
      ensures i in r.levels[r.list[i].entropy - 1]
    {
      assert input[i].None?;
    }
  }

  // ---------------------------------------------------------------------------
  // Cells operations

  /** `Cells::set_entropy`: the cache update after a cell's entropy changed. */
  function SetEntropy(c: Cells, start: nat, index: nat, newEntropy: nat): (r: Cells)
    requires 1 <= start <= |c.levels| && 1 <= newEntropy <= |c.levels|
    ensures r.size == c.size && r.list == c.list
  {
    c.(levels := CacheSet(c.levels, start, index, newEntropy))
  }

  /** `Cells::lowest_entropy_indexes`: the first non-empty cache level. */
  function LowestEntropyIndexes(c: Cells): (r: Option<OrderSet>)
    ensures r.Some? ==> r.value != []
    ensures r.None? <==> forall e :: 0 <= e < |c.levels| ==> c.levels[e] == []
  {
    match Lowest(c.levels)
    case None => None
    case Some(e) => Some(c.levels[e - 1])
  }

  /**
    In a consistent store the lowest level holds exactly the uncollapsed cells
    of least entropy, and there is none exactly when every cell is collapsed.
  */
  lemma LowestIsMinimal(c: Cells)
    requires Valid(c)
    ensures LowestEntropyIndexes(c).None? <==> forall i :: 0 <= i < |c.list| ==> IsCollapsed(c.list[i])
    ensures LowestEntropyIndexes(c).Some? ==>
              var e := Lowest(c.levels).value;
              (forall x: nat :: x in LowestEntropyIndexes(c).value <==> x < |c.list| && c.list[x].entropy == e)
              && forall i :: 0 <= i < |c.list| && !IsCollapsed(c.list[i]) ==> c.list[i].entropy >= e
  {
    if LowestEntropyIndexes(c).None? {
      forall i | 0 <= i < |c.list| ensures IsCollapsed(c.list[i]) {
        assert CellValid(c.list[i], |c.levels|);
      }
    } else {
      var e := Lowest(c.levels).value;
      var x := c.levels[e - 1][0];
      assert CacheCoherent(c);
      assert x in c.levels[e - 1];
      assert 0 <= e - 1 < |c.levels|;
      assert x < |c.list|;
      assert !IsCollapsed(c.list[x]);
      forall i | 0 <= i < |c.list| && !IsCollapsed(c.list[i]) ensures c.list[i].entropy >= e {
        assert CellValid(c.list[i], |c.levels|);
        assert i in c.levels[c.list[i].entropy - 1];
      }
      forall y: nat | y < |c.list| && c.list[y].entropy == e ensures y in c.levels[e - 1] {
        assert CellValid(c.list[y], |c.levels|);
      }
    }
  }

  /**
    `Cells::collapse`: the selection's outcome is given; an error leaves the
    store as it was. Otherwise the cell leaves its entropy level and keeps
    only the chosen variant, and every other cell is unchanged. The cell
    must be uncollapsed, or clearing its level underflows.
  */
  function Collapse(c: Cells, index: nat, chosen: Result<nat, Error>): (r: Result<Cells, Error>)
    requires index < |c.list|
    requires 1 <= c.list[index].entropy <= |c.levels|
    ensures chosen.Err? ==> r == Err(chosen.error)
    ensures chosen.Ok? ==> r.Ok? && r.value.size == c.size && |r.value.list| == |c.list|
    ensures chosen.Ok? ==> r.value.list[index] == CollapseCell(c.list[index], chosen.value)
    ensures chosen.Ok? ==> forall j :: 0 <= j < |c.list| && j != index ==> r.value.list[j] == c.list[j]
    ensures chosen.Ok? ==> r.value.levels == ClearEntry(c.levels, c.list[index].entropy, index)
  {
    match chosen
    case Err(e) => Err(e)
    case Ok(v) =>
      var cell := c.list[index];
      Ok(Cells(c.size, c.list[index := CollapseCell(cell, v)], ClearEntry(c.levels, cell.entropy, index)))
  }

  /** Collapsing a cell of a consistent store keeps it consistent and takes the cell out of the cache. */
  lemma CollapsePreservesValid(c: Cells, index: nat, v: nat)
    requires Valid(c) && index < |c.list| && !IsCollapsed(c.list[index])
    ensures 1 <= c.list[index].entropy <= |c.levels|
    ensures Valid(Collapse(c, index, Ok(v)).value)
    ensures forall e :: 0 <= e < |c.levels| ==> index !in Collapse(c, index, Ok(v)).value.levels[e]
  {
    assert CellValid(c.list[index], |c.levels|);
    var entropy := c.list[index].entropy;
    var r := Collapse(c, index, Ok(v)).value;
    forall e | 0 <= e < |c.levels| ensures index !in r.levels[e] {
      if index in c.levels[e] {
        assert c.list[index].entropy == e + 1;
      }
    }
    forall e, x | 0 <= e < |r.levels| && x in r.levels[e]
      ensures x < |r.list| && r.list[x].entropy == e + 1
    {
      assert x in c.levels[e] && x != index;
    }
    forall i | 0 <= i < |r.list| && 0 < r.list[i].entropy <= |r.levels|
      ensures i in r.levels[r.list[i].entropy - 1]
    {
      assert i != index;
      assert i in c.levels[c.list[i].entropy - 1];
    }
  }

  /**
    Narrowing an uncollapsed cell to a non-empty subset and moving it to the
    level of its new entropy keeps the store consistent.
  */
  lemma ShrinkPreservesValid(c: Cells, i: nat, pruned: Cell, r: Cells)
    requires Valid(c) && i < |c.list| && 1 <= c.list[i].entropy <= |c.levels|
    requires 1 <= pruned.entropy <= c.list[i].entropy && pruned.entropy == |pruned.possibilities|
    requires r == Cells(c.size, c.list[i := pruned], CacheSet(c.levels, c.list[i].entropy, i, pruned.entropy))
    ensures Valid(r)
  {
    forall j | 0 <= j < |r.list| ensures CellValid(r.list[j], |r.levels|) {
      if j != i {
        assert CellValid(c.list[j], |c.levels|);
      }
    }
    forall e: nat, x: nat | e < |r.levels| && x in r.levels[e]
      ensures x < |r.list| && r.list[x].entropy == e + 1
    {
      if x != i {
        assert x in c.levels[e];
      }
    }
    forall j | 0 <= j < |r.list| && 0 < r.list[j].entropy <= |r.levels|
      ensures j in r.levels[r.list[j].entropy - 1]
    {
      if j != i {
        assert j in c.levels[c.list[j].entropy - 1];
      }
    }
  }

  // ---------------------------------------------------------------------------
  // Faces of the grid

  /** The fixed coordinate of the face a direction points at: 0 for a negative direction, the last slot otherwise. */
  function FaceCoordinate(size: Size, dir: nat): (r: nat)
    requires Axis(dir) < |size| && size[Axis(dir)] > 0
    ensures r < size[Axis(dir)]
  {
    if dir % 2 == 0 then 0 else size[Axis(dir)] - 1
  }

  /** The starting position `uncollapsed_indexes_along_dir` builds: all zero except the face coordinate. */
  function FaceStart(size: Size, dir: nat): (p: UPos)
    requires Axis(dir) < |size| && forall k :: 0 <= k < |size| ==> size[k] > 0
    ensures Contains(size, p) && p[Axis(dir)] == FaceCoordinate(size, dir)
  {
    seq(|size|, k requires 0 <= k < |size| => if k == Axis(dir) then FaceCoordinate(size, dir) else 0)
  }

  /** Wrapping `a + k` for `0 < k < n` never lands back on axis `a`. */
  lemma WrapOtherAxis(a: nat, k: nat, n: nat)
    requires a < n && 0 < k < n
    ensures Wrap(a + k, n) != a
  {
    if a + k < n {
      DivModUnique(a + k, n, 0, a + k);
    } else {
      DivModUnique(a + k, n, 1, a + k - n);
    }
  }

  /** The face predicate: cell `k` is uncollapsed and lies on the face `dir` points at. */
  predicate OnFace(c: Cells, dir: nat, k: nat)
    requires |c.list| == Len(c.size) && Len(c.size) > 0 && dir < 2 * |c.size|
  {
    PositiveLenAllAxes(c.size);
    LenOfPositive(c.size);
    k < |c.list| && !IsCollapsed(c.list[k])
    && (IndexOfFromIndex(k, c.size); FromIndex(k, c.size)[Axis(dir)] == FaceCoordinate(c.size, dir))
  }

  /** Cell `k` is uncollapsed and lies at coordinate `x` of axis `dimNum`. */
  ghost predicate Found(c: Cells, dimNum: nat, x: nat, k: nat)
    requires |c.list| == Len(c.size) && dimNum < |c.size|
  {
    k < |c.list| && !IsCollapsed(c.list[k])
    && exists q: UPos :: Contains(c.size, q) && Index(q, c.size) == k && q[dimNum] == x
  }

  /**
    `find_cells` as written: records the cell at `pos`, then for every later
    axis position `i >= 1` of the next axis writes `i` into the shared `pos`
    and recurses one dimension deeper. `pos` is threaded through and never
    reset, which is what the model's result pair carries.
  */
  function FindCells(c: Cells, dimension: nat, dimNum: nat, pos: UPos): (r: (UPos, seq<nat>))
    requires |c.list| == Len(c.size) && Contains(c.size, pos)
    requires 1 <= dimension <= |c.size| && dimNum < |c.size|
    ensures Contains(c.size, r.0) && r.0[dimNum] == pos[dimNum]
    ensures forall k :: k in r.1 ==> Found(c, dimNum, pos[dimNum], k)
    decreases |c.size| - dimension, 1, 0
  {
    IndexInRange(pos, c.size);
    var idx := Index(pos, c.size);
    var here := if !IsCollapsed(c.list[idx]) then [idx] else [];
    if dimension < |c.size| then
      var d := Wrap(dimNum + dimension, |c.size|);
      WrapOtherAxis(dimNum, dimension, |c.size|);
      var rest := FindLoop(c, dimension, dimNum, d, 1, pos);
      (rest.0, here + rest.1)
    else
      (pos, here)
  }

  /** The `for i in 1..size[d]` loop of `find_cells`, from `i` on. */
  function FindLoop(c: Cells, dimension: nat, dimNum: nat, d: nat, i: nat, pos: UPos): (r: (UPos, seq<nat>))
    requires |c.list| == Len(c.size) && Contains(c.size, pos)
    requires 1 <= dimension < |c.size| && dimNum < |c.size| && d < |c.size| && d != dimNum
    ensures Contains(c.size, r.0) && r.0[dimNum] == pos[dimNum]
    ensures forall k :: k in r.1 ==> Found(c, dimNum, pos[dimNum], k)
    decreases |c.size| - dimension, 0, c.size[d] - i
  {
    if i >= c.size[d] then (pos, [])
    else
      var first := FindCells(c, dimension + 1, dimNum, pos[d := i]);
      var rest := FindLoop(c, dimension, dimNum, d, i + 1, first.0);
      (rest.0, first.1 + rest.1)
  }

  /**
    `uncollapsed_indexes_along_dir` as written: every index it returns is an
    uncollapsed cell on the face `dir` points at.
  */
  function UncollapsedAlongDirAsWritten(c: Cells, dir: nat): (r: seq<nat>)
    requires |c.list| == Len(c.size) && Len(c.size) > 0 && dir < 2 * |c.size|
    ensures forall k :: k in r ==> OnFace(c, dir, k)
  {
    PositiveLenAllAxes(c.size);
    var start := FaceStart(c.size, dir);
    var r := FindCells(c, 1, Axis(dir), start).1;
    forall k | k in r ensures OnFace(c, dir, k) {
      var q: UPos :| Contains(c.size, q) && Index(q, c.size) == k && q[Axis(dir)] == start[Axis(dir)];
      FromIndexOfIndex(q, c.size);
    }
    r
  }

  /** Face indexes below `n`, increasing. */
  function FaceUpTo(c: Cells, dir: nat, n: nat): (r: seq<nat>)
    requires |c.list| == Len(c.size) && Len(c.size) > 0 && dir < 2 * |c.size|
    requires n <= |c.list|
    ensures Increasing(r)
    ensures forall k :: 0 <= k < |r| ==> r[k] < n
    ensures forall k: nat :: k in r <==> k < n && OnFace(c, dir, k)
    decreases n
  {
    if n == 0 then []
    else
      var prev := FaceUpTo(c, dir, n - 1);
      if OnFace(c, dir, n - 1) then prev + [n - 1] else prev
  }

  /**
    `uncollapsed_indexes_along_dir` with the face enumerated in full: exactly
    the uncollapsed cells on the face `dir` points at, each once, in index
    order.
  */
  function UncollapsedAlongDir(c: Cells, dir: nat): (r: seq<nat>)
    requires |c.list| == Len(c.size) && Len(c.size) > 0 && dir < 2 * |c.size|
    ensures Increasing(r)
    ensures forall k: nat :: k in r <==> OnFace(c, dir, k)
  {
    FaceUpTo(c, dir, |c.list|)
  }

  /** The `for` loop of `find_cells` on a two-axis grid reaches every later slot of the other axis. */
  lemma {:induction false} FindLoopCovers(c: Cells, dimNum: nat, d: nat, i: nat, pos: UPos, j: nat, k: nat)
    requires |c.size| == 2 && |c.list| == Len(c.size) && Contains(c.size, pos)
    requires dimNum < 2 && d < 2 && d != dimNum && 1 <= i <= j < c.size[d]
    requires Contains(c.size, pos[d := j]) && Index(pos[d := j], c.size) == k
    requires k < |c.list| && !IsCollapsed(c.list[k])
    ensures k in FindLoop(c, 1, dimNum, d, i, pos).1
    decreases j - i
  {
    var p, here := FindLoopStep(c, dimNum, d, i, pos);
    var rest := FindLoop(c, 1, dimNum, d, i + 1, p).1;
    if i < j {
      UpdateTwice(pos, d, i, j);
      FindLoopCovers(c, dimNum, d, i + 1, p, j, k);
      assert k in rest;
    } else {
      assert k in here;
    }
    assert k in here + rest;
  }

  /** Moving an in-bounds position to another in-range coordinate on one axis keeps it in bounds. */
  lemma ContainsUpdate(size: Size, p: UPos, d: nat, x: nat)
    requires Contains(size, p) && d < |size| && x < size[d]
    ensures Contains(size, p[d := x])
  {
    forall a | 0 <= a < |p| ensures 0 <= p[d := x][a] < size[a] {
      if a != d {
        assert p[d := x][a] == p[a];
      }
    }
  }

  /** Writing a coordinate twice keeps the second value. */
  lemma UpdateTwice(p: UPos, d: nat, a: nat, b: nat)
    requires d < |p|
    ensures p[d := a][d := b] == p[d := b]
  {
  }

  /** On the last axis `find_cells` records the cell at `pos` if it is uncollapsed, and moves nowhere. */
  lemma FindCellsLeaf(c: Cells, dimNum: nat, pos: UPos)
    requires |c.list| == Len(c.size) && Contains(c.size, pos) && 0 < |c.size| && dimNum < |c.size|
    ensures 0 <= Index(pos, c.size) < |c.list|
    ensures var k := Index(pos, c.size);
      FindCells(c, |c.size|, dimNum, pos) == (pos, if !IsCollapsed(c.list[k]) then [k] else [])
  {
    IndexInRange(pos, c.size);
  }

  /** A face cell of a one-axis grid is the start position itself. */
  lemma OneAxisFaceCovered(c: Cells, dir: nat, k: nat)
    requires |c.list| == Len(c.size) && Len(c.size) > 0 && dir < 2 * |c.size| && |c.size| == 1
    requires OnFace(c, dir, k)
    ensures k in UncollapsedAlongDirAsWritten(c, dir)
  {
    PositiveLenAllAxes(c.size);
    var start := FaceStart(c.size, dir);
    IndexOfFromIndex(k, c.size);
    var q := FromIndex(k, c.size);
    assert q == start;
    IndexInRange(start, c.size);
  }

  /** A face cell of a two-axis grid is the start position or one the loop over the other axis reaches. */
  lemma TwoAxesFaceCovered(c: Cells, dir: nat, k: nat)
    requires |c.list| == Len(c.size) && Len(c.size) > 0 && dir < 2 * |c.size| && |c.size| == 2
    requires OnFace(c, dir, k)
    ensures k in UncollapsedAlongDirAsWritten(c, dir)
  {
    PositiveLenAllAxes(c.size);
    var a := Axis(dir);
    var start := FaceStart(c.size, dir);
    IndexOfFromIndex(k, c.size);
    var q := FromIndex(k, c.size);
    IndexInRange(start, c.size);
    var d := Wrap(a + 1, 2);
    DivModUnique(a + 1, 2, (a + 1) / 2, (a + 1) % 2);
    assert d == 1 - a;
    assert q == start[d := q[d]];
    if q[d] == 0 {
      assert q == start;
    } else {
      FindLoopCovers(c, a, d, 1, start, q[d], k);
    }
  }

  /** Flat index on a two-axis grid, written out. */
  lemma TwoAxes(p: IPos, size: Size)
    requires |p| == 2 && |size| == 2
    ensures Index(p, size) == p[0] + p[1] * size[0]
  {
    assert size[..1] == [size[0]] && [size[0]][..0] == [];
    assert p[..1] == [p[0]] && [p[0]][..0] == [];
    assert Len([size[0]]) == size[0];
    assert Index([p[0]], [size[0]]) == p[0];
  }

  /** On a two-axis grid, one step up along an axis raises the flat index. */
  lemma IndexStepUp(size: Size, p: UPos, d: nat, j: nat)
    requires |size| == 2 && |p| == 2 && d < 2 && size[0] > 0
    ensures Index(p[d := j], size) < Index(p[d := j + 1], size)
  {
    TwoAxes(p[d := j], size);
    TwoAxes(p[d := j + 1], size);
    if d == 1 {
      assert (j + 1) * size[0] == j * size[0] + size[0];
    }
  }

  /**
    On two axes the loop of `find_cells` lists increasing indexes, all above
    the cell one step before where it starts.
  */
  lemma {:induction false} FindLoopIncreasing(c: Cells, dimNum: nat, d: nat, i: nat, pos: UPos)
    requires |c.size| == 2 && |c.list| == Len(c.size) && Contains(c.size, pos)
    requires dimNum < 2 && d < 2 && d != dimNum && 1 <= i
    ensures Increasing(FindLoop(c, 1, dimNum, d, i, pos).1)
    ensures Above(FindLoop(c, 1, dimNum, d, i, pos).1, Index(pos[d := i - 1], c.size))
    decreases c.size[d] - i
  {
    if i < c.size[d] {
      var p, here := FindLoopStep(c, dimNum, d, i, pos);
      FindLoopIncreasing(c, dimNum, d, i + 1, p);
      var x := Index(p, c.size);
      assert Index(p[d := i + 1 - 1], c.size) == x by {
        UpdateTwice(pos, d, i, i);
      }
      var b := Index(pos[d := i - 1], c.size);
      assert b < x by {
        IndexStepUp(c.size, pos, d, i - 1);
      }
      LeastThenIncreasing(b, x, here, FindLoop(c, 1, dimNum, d, i + 1, p).1);
    }
  }


  /** One pass of the loop on two axes, unfolded: the cell at `pos[d := i]` if uncollapsed, then the loop from `i + 1`. */
  lemma FindLoopStep(c: Cells, dimNum: nat, d: nat, i: nat, pos: UPos) returns (p: UPos, here: seq<nat>)
    requires |c.size| == 2 && |c.list| == Len(c.size) && Contains(c.size, pos)
    requires dimNum < 2 && d < 2 && d != dimNum && 1 <= i < c.size[d]
    ensures p == pos[d := i] && Contains(c.size, p) && 0 <= Index(p, c.size) < |c.list|
    ensures here == if IsCollapsed(c.list[Index(p, c.size)]) then [] else [Index(p, c.size)]
    ensures FindLoop(c, 1, dimNum, d, i, pos).1 == here + FindLoop(c, 1, dimNum, d, i + 1, p).1
  {
    ContainsUpdate(c.size, pos, d, i);
    p := pos[d := i];
    FindCellsLeaf(c, dimNum, p);
    here := FindCells(c, 2, dimNum, p).1;
  }

  /** On grids of one or two axes `find_cells` lists the face in increasing index order. */
  lemma AsWrittenIncreasingUpToTwoAxes(c: Cells, dir: nat)
    requires |c.list| == Len(c.size) && Len(c.size) > 0 && dir < 2 * |c.size|
    requires |c.size| <= 2
    ensures Increasing(UncollapsedAlongDirAsWritten(c, dir))
  {
    PositiveLenAllAxes(c.size);
    var a := Axis(dir);
    var start := FaceStart(c.size, dir);
    if |c.size| == 1 {
      FindCellsLeaf(c, a, start);
    } else {
      var d := Wrap(a + 1, 2);
      DivModUnique(a + 1, 2, (a + 1) / 2, (a + 1) % 2);
      assert d == 1 - a;
      IndexInRange(start, c.size);
      FindLoopIncreasing(c, a, d, 1, start);
      assert start[d := 0] == start;
      var idx := Index(start, c.size);
      var rest := FindLoop(c, 1, a, d, 1, start).1;
      LeastThenIncreasing(idx - 1, idx, if !IsCollapsed(c.list[idx]) then [idx] else [], rest);
    }
  }

  /**
    On grids of one or two axes `find_cells` enumerates the whole face in
    index order: the as-written and the corrected enumeration coincide.
  */
  lemma AlongDirAgreesUpToTwoAxes(c: Cells, dir: nat)
    requires |c.list| == Len(c.size) && Len(c.size) > 0 && dir < 2 * |c.size|
    requires |c.size| <= 2
    ensures UncollapsedAlongDirAsWritten(c, dir) == UncollapsedAlongDir(c, dir)
  {
    forall k: nat | OnFace(c, dir, k) ensures k in UncollapsedAlongDirAsWritten(c, dir) {
      if |c.size| == 1 {
        OneAxisFaceCovered(c, dir, k);
      } else {
        TwoAxesFaceCovered(c, dir, k);
      }
    }
    AsWrittenIncreasingUpToTwoAxes(c, dir);
    IncreasingUnique(UncollapsedAlongDirAsWritten(c, dir), UncollapsedAlongDir(c, dir));
  }

  /** Extent and flat index on a three-axis grid, written out. */
  lemma ThreeAxes(x: int, y: int, z: int, a: nat, b: nat, e: nat)
    ensures Len([a, b, e]) == a * b * e
    ensures Index([x, y, z], [a, b, e]) == x + y * a + z * (a * b)
  {
    assert [a, b, e][..2] == [a, b] && [a, b][..1] == [a] && [a][..0] == [];
    assert [x, y, z][..2] == [x, y] && [x, y][..1] == [x] && [x][..0] == [];
    assert Len([a]) == a;
    assert Len([a, b]) == a * b;
    assert Index([x], [a]) == x;
    assert Index([x, y], [a, b]) == x + y * a;
  }

  /**
    On three axes the enumeration misses part of the face: for a 2x2x2 grid
    of uncollapsed cells and the face of direction 0 (`x = 0`), `find_cells`
    yields cells 0, 2 and 6, never cell 4 at position (0, 0, 1), which lies
    on that face.
  */
  lemma AlongDirMissesOnThreeAxes(c: Cells)
    requires c == Cells([2, 2, 2], seq(8, _ => Cell({0, 1}, 2)), [[], [0, 1, 2, 3, 4, 5, 6, 7]])
    ensures Len(c.size) == 8
            && UncollapsedAlongDirAsWritten(c, 0) == [0, 2, 6]
            && 4 in UncollapsedAlongDir(c, 0)
  {
    ThreeAxes(0, 0, 0, 2, 2, 2);
    CubeInnerLoops(c);
    assert FaceStart(c.size, 0) == [0, 0, 0];
    assert [0, 0, 0][1 := 1] == [0, 1, 0];
    assert [0] + [2, 6] == [0, 2, 6] && [2, 6] + [] == [2, 6];
    assert FindLoop(c, 1, 0, 1, 2, [0, 1, 1]) == ([0, 1, 1], []);
    assert FindLoop(c, 1, 0, 1, 1, [0, 0, 0]) == ([0, 1, 1], [2, 6]);
    assert FindCells(c, 1, 0, [0, 0, 0]) == ([0, 1, 1], [0, 2, 6]);
    CubeFaceHasFour(c);
  }

  /** The two inner levels of the 2x2x2 enumeration above, started from `(0, 1, 0)`. */
  lemma CubeInnerLoops(c: Cells)
    requires c == Cells([2, 2, 2], seq(8, _ => Cell({0, 1}, 2)), [[], [0, 1, 2, 3, 4, 5, 6, 7]])
    ensures Len(c.size) == 8
    ensures FindCells(c, 2, 0, [0, 1, 0]) == ([0, 1, 1], [2, 6])
  {
    ThreeAxes(0, 0, 0, 2, 2, 2);
    ThreeAxes(0, 1, 0, 2, 2, 2);
    ThreeAxes(0, 1, 1, 2, 2, 2);
    assert Wrap(2, 3) == 2;
    assert [0, 1, 0][2 := 1] == [0, 1, 1];
    assert FindCells(c, 3, 0, [0, 1, 1]) == ([0, 1, 1], [6]);
    assert FindLoop(c, 2, 0, 2, 2, [0, 1, 1]) == ([0, 1, 1], []);
    assert [6] + [] == [6] && [2] + [6] == [2, 6];
    assert FindLoop(c, 2, 0, 2, 1, [0, 1, 0]) == ([0, 1, 1], [6]);
  }

  /** Cell 4, at `(0, 0, 1)`, is an uncollapsed cell on the face of direction 0 of the 2x2x2 grid. */
  lemma CubeFaceHasFour(c: Cells)
    requires c == Cells([2, 2, 2], seq(8, _ => Cell({0, 1}, 2)), [[], [0, 1, 2, 3, 4, 5, 6, 7]])
    ensures Len(c.size) == 8
    ensures 4 in UncollapsedAlongDir(c, 0)
  {
    ThreeAxes(0, 0, 1, 2, 2, 2);
    FromIndexOfIndex([0, 0, 1], c.size);
    assert OnFace(c, 0, 4);
  }
}

=== FILE: chaos.dfy ===
/**
  The "chaos" socket provider and constraint (`src/prebuilt/e2e/chaos.rs`).

  Its working socket is a set of variants: every neighbour seen in a
  direction is added, together with the variant itself. The final socket is
  the same set, and a final socket is `Option<set>` because the rule finder
  may leave a direction without one.
*/
module Chaos {
  import opened Wrappers
  import opened Errors
  import Constraints
  import Finder

  /** `ChaosMode::find`: the current set, or nothing, joined with the two variants. */
  function FindSocket(current: Option<set<nat>>, d: nat, source: nat, target: nat): (r: Result<Option<set<nat>>, NoSocket>)
    ensures r.Ok? && r.value.Some?
    ensures source in r.value.value && target in r.value.value
    ensures current.Some? ==> current.value <= r.value.value
    ensures forall x :: x in r.value.value <==> x == source || x == target || (current.Some? && x in current.value)
  {
    Ok(Some(if current.Some? then current.value + {source, target} else {source, target}))
  }

  /** The provider handed to the generic finder; `ChaosMode::finalize` keeps the set. */
  function Provider(): Finder.Provider<set<nat>, set<nat>>
  {
    Finder.Provider(FindSocket, Finder.KeepSocket)
  }

  /** Two final sockets match: both missing, or both present and sharing a variant. */
  predicate Matches(offered: Option<set<nat>>, possible: Option<set<nat>>)
  {
    match (offered, possible)
    case (None, None) => true
    case (None, Some(_)) => false
    case (Some(_), None) => false
    case (Some(a), Some(b)) => a * b != {}
  }

  /** `ChaosMode::check`: some offered socket matches the variant's socket. */
  predicate Check(possible: Option<set<nat>>, sockets: set<Option<set<nat>>>)
  {
    exists s :: s in sockets && Matches(s, possible)
  }

  /**
    A missing socket is accepted exactly when a missing socket is offered; a
    present one exactly when some offered present socket shares a variant
    with it. Nothing is accepted against no offer at all.
  */
  lemma CheckCases(possible: Option<set<nat>>, sockets: set<Option<set<nat>>>)
    ensures possible.None? ==> (Check(possible, sockets) <==> None in sockets)
    ensures possible.Some? ==> (Check(possible, sockets) <==>
      exists a, x :: Some(a) in sockets && x in a && x in possible.value)
    ensures !Check(possible, {})
  {
    if possible.Some? && Check(possible, sockets) {
      var s :| s in sockets && Matches(s, possible);
      var x :| x in s.value * possible.value;
      assert Some(s.value) in sockets && x in s.value && x in possible.value;
    }
    if possible.Some? && exists a, x :: Some(a) in sockets && x in a && x in possible.value {
      var a, x :| Some(a) in sockets && x in a && x in possible.value;
      assert x in a * possible.value;
      assert Matches(Some(a), possible);
    }
  }

  /** Offering more sockets never revokes acceptance. */
  lemma CheckMonotone(possible: Option<set<nat>>, a: set<Option<set<nat>>>, b: set<Option<set<nat>>>)
    requires a <= b && Check(possible, a)
    ensures Check(possible, b)
  {
  }

  /** Growing a present socket never revokes acceptance either. */
  lemma CheckMonotoneInSocket(p: set<nat>, q: set<nat>, sockets: set<Option<set<nat>>>)
    requires p <= q && Check(Some(p), sockets)
    ensures Check(Some(q), sockets)
  {
    CheckCases(Some(p), sockets);
    CheckCases(Some(q), sockets);
  }

  /** The chaos check is the set check lifted to optional sockets: on present sockets it is `SetCheck`. */
  lemma CheckIsSetCheckOnPresent(p: set<nat>, sockets: set<set<nat>>)
    ensures Check(Some(p), set s | s in sockets :: Some(s)) <==> Constraints.SetCheck(p, sockets)
  {
    var lifted := set s | s in sockets :: Some(s);
    if Check(Some(p), lifted) {
      var o :| o in lifted && Matches(o, Some(p));
      assert o.value in sockets;
    }
    if Constraints.SetCheck(p, sockets) {
      var s :| s in sockets && s * p != {};
      assert Some(s) in lifted;
    }
  }

  /** Folding the chaos provider over a list of neighbours gathers the variant and all of them. */
  lemma {:induction false} FoldGathers(d: nat, v: nat, targets: seq<nat>)
    ensures var r := Finder.Fold(Provider(), d, v, targets);
      r.Ok? && (r.value.Some? <==> |targets| > 0)
    ensures var r := Finder.Fold(Provider(), d, v, targets);
      |targets| > 0 ==> forall x :: x in r.value.value <==> x == v || x in targets
  {
    if |targets| > 0 {
      var init := targets[..|targets| - 1];
      FoldGathers(d, v, init);
      assert targets == init + [targets[|targets| - 1]];
    }
  }

  /**
    Rules inferred with the chaos provider: inference never fails, and the
    socket toward a direction holds the variant itself and exactly the
    variants found next to it that way in the sample.
  */
  lemma FinderGathersNeighbors(source: seq<nat>, size: seq<nat>)
    requires Finder.WellFormed(Finder.GenericFinder(Provider(), source, size))
    ensures Finder.Find(Finder.GenericFinder(Provider(), source, size)).Ok?
    ensures var f := Finder.GenericFinder(Provider(), source, size);
      var r := Finder.Find(f).value;
      forall v, d :: v in r && d in r[v] ==> (
        && r[v][d].Some?
        && forall x :: x in r[v][d].value <==> x == v || x in Finder.Targets(f, Finder.NeighborGrid(size), v, d, |source|))
  {
    var f := Finder.GenericFinder(Provider(), source, size);
    var g := Finder.NeighborGrid(size);
    Finder.FindMeetsReference(f, g);
    forall v, d ensures Finder.Fold(f.provider, d, v, Finder.Targets(f, g, v, d, |source|)).Ok? {
      FoldGathers(d, v, Finder.Targets(f, g, v, d, |source|));
    }
    var r: map<nat, map<nat, Option<set<nat>>>> := Finder.Find(f).value;
    forall v, d | v in r && d in r[v]
      ensures r[v][d].Some? && forall x :: x in r[v][d].value <==> x == v || x in Finder.Targets(f, g, v, d, |source|)
    {
      FoldGathers(d, v, Finder.Targets(f, g, v, d, |source|));
    }
  }
}

=== FILE: constraints.dfy ===
/**
  Socket compatibility predicates (`src/prebuilt/constraints.rs`). A
  constraint decides whether a variant's socket may face a neighbour whose
  remaining variants offer the given set of sockets.
*/
module Constraints {

  /** The shape of `Constraint::check`: a socket against the neighbour's socket set. */
  type Check<!S> = (S, set<S>) -> bool

  /** `UnaryConstraint::check`: the socket must be one the neighbour offers. */
  function Unary<S(==)>(socket: S, sockets: set<S>): bool
  {
    socket in sockets
  }

  /**
    `SetConstraint::check`: some offered socket set shares an element with
    the variant's socket set.
  */
  function SetCheck<S(==)>(possible: set<S>, sockets: set<set<S>>): bool
  {
    exists s :: s in sockets && s * possible != {}
  }

  /** `SetCheck` accepts exactly when one element lies both in an offered set and in the variant's set. */
  lemma SetCheckElementwise<S>(possible: set<S>, sockets: set<set<S>>)
    ensures SetCheck(possible, sockets) <==> exists s, x :: s in sockets && x in s && x in possible
  {
    if SetCheck(possible, sockets) {
      var s :| s in sockets && s * possible != {};
      var x :| x in s * possible;
      assert x in s && x in possible;
    } else {
      forall s, x | s in sockets && x in s ensures x !in possible {
        assert x !in s * possible;
      }
    }
  }

  /** `SequentialConstraints::check`: both constraints must accept. */
  function Sequential<S>(c1: Check<S>, c2: Check<S>, socket: S, sockets: set<S>): bool
  {
    c1(socket, sockets) && c2(socket, sockets)
  }

  /** No socket is accepted by a neighbour that offers none. */
  lemma EmptyRejects<S>(socket: S, possible: set<S>)
    ensures !Unary(socket, {})
    ensures !SetCheck(possible, {})
  {
  }

  /** Enlarging either the offered sockets or the variant's socket set never revokes acceptance. */
  lemma SetCheckMonotone<S>(p: set<S>, q: set<S>, a: set<set<S>>, b: set<set<S>>)
    requires p <= q && a <= b
    requires SetCheck(p, a)
    ensures SetCheck(q, b)
  {
    var s :| s in a && s * p != {};
    assert s in b && s * q != {};
  }

  /** `Unary` is monotone in the offered sockets. */
  lemma UnaryMonotone<S>(socket: S, a: set<S>, b: set<S>)
    requires a <= b && Unary(socket, a)
    ensures Unary(socket, b)
  {
  }

  /** The order of a sequential pair does not matter, and a constraint paired with itself is unchanged. */
  lemma SequentialLaws<S>(c1: Check<S>, c2: Check<S>, socket: S, sockets: set<S>)
    ensures Sequential(c1, c2, socket, sockets) == Sequential(c2, c1, socket, sockets)
    ensures Sequential(c1, c1, socket, sockets) == c1(socket, sockets)
  {
  }

  /** A singleton-set socket behaves like the unary check of its element against the union of the offers. */
  lemma SetCheckSingleton<S>(x: S, sockets: set<set<S>>)
    ensures SetCheck({x}, sockets) <==> exists s :: s in sockets && x in s
  {
    if SetCheck({x}, sockets) {
      var s :| s in sockets && s * {x} != {};
      assert x in s;
    } else {
      forall s | s in sockets ensures x !in s {
        assert x in s ==> x in s * {x};
      }
    }
  }
}

=== FILE: dims.dfy ===
/**
  The prebuilt direction enumerations (`src/prebuilt/dims.rs`). Directions
  come in pairs per axis, listed from the negative to the positive side, so
  the position of a direction in its enumeration is what `Add<D> for IPos`
  turns into an axis step.
*/
module Dims {
  import opened Geometry

  datatype Dim1d = Left | Right
  datatype Dim2d = Left | Right | Up | Down
  datatype Dim3d = Left | Right | Up | Down | Forward | Backward

  // ---------------------------------------------------------------------------
  // Dim1d

  /** `Dim1d::COUNT`; the enumeration serves one axis. */
  const Count1d: nat := 2

  /** Position of the direction in `Dim1d::iter()`. */
  function Ordinal1d(d: Dim1d): (k: nat)
    ensures k < Count1d
    ensures Axis(k) < 1
  {
    match d
    case Left => 0
    case Right => 1
  }

  /** `Dim1d::opposite`: the other direction of the pair. */
  function Opposite1d(d: Dim1d): (r: Dim1d)
    ensures r != d
    ensures Ordinal1d(r) == OppositeIndex(Ordinal1d(d))
  {
    match d
    case Left => Dim1d.Right
    case Right => Dim1d.Left
  }

  // ---------------------------------------------------------------------------
  // Dim2d

  /** `Dim2d::COUNT`; the enumeration serves two axes. */
  const Count2d: nat := 4

  /** Position of the direction in `Dim2d::iter()`: Left, Right, Up, Down. */
  function Ordinal2d(d: Dim2d): (k: nat)
    ensures k < Count2d
    ensures Axis(k) < 2
  {
    match d
    case Left => 0
    case Right => 1
    case Up => 2
    case Down => 3
  }

  /** `Dim2d::opposite`. */
  function Opposite2d(d: Dim2d): (r: Dim2d)
    ensures r != d
    ensures Ordinal2d(r) == OppositeIndex(Ordinal2d(d))
  {
    match d
    case Left => Dim2d.Right
    case Right => Dim2d.Left
    case Up => Dim2d.Down
    case Down => Dim2d.Up
  }

  // ---------------------------------------------------------------------------
  // Dim3d

  /** `Dim3d::COUNT`; the enumeration serves three axes. */
  const Count3d: nat := 6

  /** Position of the direction in `Dim3d::iter()`: Left, Right, Up, Down, Forward, Backward. */
  function Ordinal3d(d: Dim3d): (k: nat)
    ensures k < Count3d
    ensures Axis(k) < 3
  {
    match d
    case Left => 0
    case Right => 1
    case Up => 2
    case Down => 3
    case Forward => 4
    case Backward => 5
  }

  /** `Dim3d::opposite`. */
  function Opposite3d(d: Dim3d): (r: Dim3d)
    ensures r != d
    ensures Ordinal3d(r) == OppositeIndex(Ordinal3d(d))
  {
    match d
    case Left => Dim3d.Right
    case Right => Dim3d.Left
    case Up => Dim3d.Down
    case Down => Dim3d.Up
    case Forward => Dim3d.Backward
    case Backward => Dim3d.Forward
  }

  // ---------------------------------------------------------------------------
  // Facts shared by the three enumerations

  /** `opposite` is an involution for every prebuilt enumeration. */
  lemma OppositeInvolutive(d1: Dim1d, d2: Dim2d, d3: Dim3d)
    ensures Opposite1d(Opposite1d(d1)) == d1
    ensures Opposite2d(Opposite2d(d2)) == d2
    ensures Opposite3d(Opposite3d(d3)) == d3
  {
  }

  /** The 1d direction at a position of `Dim1d::iter()`; every position below the count names one. */
  function FromOrdinal1d(k: nat): (d: Dim1d)
    requires k < Count1d
    ensures Ordinal1d(d) == k
  {
    if k == 0 then Dim1d.Left else Dim1d.Right
  }

  /** The 2d direction at a position of `Dim2d::iter()`. */
  function FromOrdinal2d(k: nat): (d: Dim2d)
    requires k < Count2d
    ensures Ordinal2d(d) == k
  {
    [Dim2d.Left, Dim2d.Right, Dim2d.Up, Dim2d.Down][k]
  }

  /** The 3d direction at a position of `Dim3d::iter()`. */
  function FromOrdinal3d(k: nat): (d: Dim3d)
    requires k < Count3d
    ensures Ordinal3d(d) == k
  {
    [Dim3d.Left, Dim3d.Right, Dim3d.Up, Dim3d.Down, Dim3d.Forward, Dim3d.Backward][k]
  }

  /** Stepping in a 3d direction and back through its opposite returns to the start. */
  lemma StepAndBack3d(p: IPos, d: Dim3d)
    requires |p| == 3
    ensures Add(Add(p, Ordinal3d(d)), Ordinal3d(Opposite3d(d))) == p
  {
    AddThenOpposite(p, Ordinal3d(d));
  }

  /** Stepping in a 2d direction and back through its opposite returns to the start. */
  lemma StepAndBack2d(p: IPos, d: Dim2d)
    requires |p| == 2
    ensures Add(Add(p, Ordinal2d(d)), Ordinal2d(Opposite2d(d))) == p
  {
    AddThenOpposite(p, Ordinal2d(d));
  }
}

/**
  The Bevy-specific enumerations (`src/prebuilt/dims/bevy.rs`), documented
  as "to be used where Up is Y+".
*/
module Bevy {
  import opened Geometry
  import Dims

  datatype Dim2d = Left | Right | Down | Up

  /**
    As written, Bevy `Dim3d` lists the same variants in the same order as the
    prebuilt `Dim3d`, `Up` before `Down`, with the same `opposite`; it is that
    enumeration.
  */
  type Dim3d = Dims.Dim3d

  /** The 3d enumeration with the 2d one's axis order: `Down` before `Up`. */
  datatype Dim3dYUp = Left | Right | Down | Up | Forward | Backward

  /** Position in `Dim2d::iter()`: Down precedes Up. */
  function Ordinal2d(d: Dim2d): (k: nat)
    ensures k < 4 && Axis(k) < 2
  {
    match d
    case Left => 0
    case Right => 1
    case Down => 2
    case Up => 3
  }

  /** Bevy `Dim2d::opposite`. */
  function Opposite2d(d: Dim2d): (r: Dim2d)
    ensures r != d
    ensures Ordinal2d(r) == OppositeIndex(Ordinal2d(d))
  {
    match d
    case Left => Dim2d.Right
    case Right => Dim2d.Left
    case Down => Dim2d.Up
    case Up => Dim2d.Down
  }

  /** Position in the corrected enumeration: Down precedes Up, as in `Dim2d`. */
  function Ordinal3dYUp(d: Dim3dYUp): (k: nat)
    ensures k < 6 && Axis(k) < 3
  {
    match d
    case Left => 0
    case Right => 1
    case Down => 2
    case Up => 3
    case Forward => 4
    case Backward => 5
  }

  /** `opposite` of the corrected enumeration. */
  function Opposite3dYUp(d: Dim3dYUp): (r: Dim3dYUp)
    ensures r != d
    ensures Ordinal3dYUp(r) == OppositeIndex(Ordinal3dYUp(d))
  {
    match d
    case Left => Dim3dYUp.Right
    case Right => Dim3dYUp.Left
    case Down => Dim3dYUp.Up
    case Up => Dim3dYUp.Down
    case Forward => Dim3dYUp.Backward
    case Backward => Dim3dYUp.Forward
  }

  /** `opposite` is an involution for the Bevy enumerations of their own. */
  lemma OppositeInvolutive(d2: Dim2d, d3: Dim3dYUp)
    ensures Opposite2d(Opposite2d(d2)) == d2
    ensures Opposite3dYUp(Opposite3dYUp(d3)) == d3
  {
  }

  /** In Bevy 2d, Up is Y+ and Down is Y-, and every step is undone by its opposite. */
  lemma Dim2dUpIsYPlus(p: IPos, d: Dim2d)
    requires |p| == 2
    ensures Add(p, Ordinal2d(Dim2d.Up))[1] == p[1] + 1
    ensures Add(p, Ordinal2d(Dim2d.Down))[1] == p[1] - 1
    ensures Add(Add(p, Ordinal2d(d)), Ordinal2d(Opposite2d(d))) == p
  {
    AddThenOpposite(p, Ordinal2d(d));
  }

  /** As written, Bevy 3d `Up` is a step towards Y-, the reverse of its documentation. */
  lemma Dim3dUpIsYMinus(p: IPos)
    requires |p| == 3
    ensures Add(p, Dims.Ordinal3d(Dims.Dim3d.Up))[1] == p[1] - 1
    ensures Add(p, Dims.Ordinal3d(Dims.Dim3d.Down))[1] == p[1] + 1
  {
  }

  /** With Down listed before Up, Bevy 3d `Up` is Y+ and every step is undone by its opposite. */
  lemma Dim3dYUpIsYPlus(p: IPos, d: Dim3dYUp)
    requires |p| == 3
    ensures Add(p, Ordinal3dYUp(Dim3dYUp.Up))[1] == p[1] + 1
    ensures Add(p, Ordinal3dYUp(Dim3dYUp.Down))[1] == p[1] - 1
    ensures Add(Add(p, Ordinal3dYUp(d)), Ordinal3dYUp(Opposite3dYUp(d))) == p
  {
    AddThenOpposite(p, Ordinal3dYUp(d));
  }
}

=== FILE: errors.dfy ===
/** The solver's error values (`src/err.rs`, `src/auto.rs`). */
module Errors {
  import opened Geometry

  /** `err::Error`: what a build, a propagation or a selection can fail with. */
  datatype Error =
    | Contradiction(position: IPos, neighbor: IPos, direction: nat, neighborVariants: seq<nat>, neighborSockets: set<nat>)
    | NoRule(variant: nat)
    | NoPossibilities
    | DimensionMismatch(constValue: nat, dimensionCount: nat)

  /** `auto::Error`: what rule inference can fail with. */
  datatype FindError =
    | DimensionTooLarge
    | RuleNotFound(failures: seq<(nat, nat, nat)>)
    | SocketGenerationFailure(source: nat, dir: nat, target: nat)

  /** `auto::NoSocket`: a socket provider found nothing for a pair of variants. */
  datatype NoSocket = NoSocket
}

=== FILE: finder.dfy ===
/**
  Rule inference from a sample grid (`src/prebuilt/auto.rs`, `src/auto.rs`).

  A `GenericFinder` walks a sample laid out on a grid, cell by cell in index
  order and, within a cell, direction by direction in `D::iter()` order. For
  every neighbour that lies inside the grid it asks a socket provider for the
  socket of the cell's variant toward that neighbour, threading the socket
  found so far for the same (variant, direction) back in as `current`.
  Variants and directions are ids; the provider's working socket type is `W`
  and its final socket type is `S`.
*/
module Finder {
  import opened Wrappers
  import opened Geometry
  import opened Errors
  import Rules

  /**
    `SocketProvider`: `find(current, dir, source, target)` refines the
    working socket for `source` toward `target` in direction `dir`;
    `finalize(dir, socket)` turns a working socket into a final one.
  */
  datatype Provider<!W, S> = Provider(
    find: (Option<W>, nat, nat, nat) -> Result<Option<W>, NoSocket>,
    finalize: (nat, W) -> S)

  /** The `finalize` of a provider whose working sockets are already final: the socket is kept. */
  function KeepSocket<W>(d: nat, s: W): (r: W)
    ensures r == s
  {
    s
  }

  /** `GenericFinder::new`: a provider, the sample's variants in index order, and the sample's size. */
  datatype GenericFinder<!W, S> = GenericFinder(provider: Provider<W, S>, source: seq<nat>, size: Size)

  /** An entry of the failure list: (direction, source variant, target variant). */
  type Failure = (nat, nat, nat)

  /** The sample has exactly one variant per cell of its grid. */
  predicate WellFormed<W, S>(f: GenericFinder<W, S>)
  {
    |f.source| == Len(f.size)
  }

  // ---------------------------------------------------------------------------
  // Neighbours inside the sample

  /** The step from cell `i` in direction `d` stays inside the grid. */
  predicate StepInside(size: Size, i: nat, d: nat)
    requires i < Len(size)
    requires d < 2 * |size|
  {
    PositiveLenAllAxes(size);
    Contains(size, Add(FromIndex(i, size), d))
  }

  /** Cell `j` of the grid sits one step from cell `i` in direction `d`. */
  predicate OneStep(size: Size, i: nat, d: nat, j: nat)
    requires i < Len(size)
    requires d < 2 * |size|
  {
    PositiveLenAllAxes(size);
    j < Len(size) && FromIndex(j, size) == Add(FromIndex(i, size), d)
  }

  /**
    `IPos::from_index(i) + dir`, kept only when `size.contains` it: there is
    a neighbour exactly when the step stays inside, and it is the cell one
    step away.
  */
  function Neighbor(size: Size, i: nat, d: nat): (r: Option<nat>)
    requires i < Len(size)
    requires d < 2 * |size|
    ensures r.Some? <==> StepInside(size, i, d)
    ensures r.Some? ==> OneStep(size, i, d, r.value)
  {
    PositiveLenAllAxes(size);
    var nb := Add(FromIndex(i, size), d);
    if Contains(size, nb) then
      IndexInRange(nb, size);
      FromIndexOfIndex(nb, size);
      Some(Index(nb, size) as nat)
    else None
  }

  /**
    Every cell's neighbour in every direction, computed once: one row per
    cell, one entry per direction, and an entry is present exactly when the
    step stays inside, naming the cell one step away.
  */
  function NeighborGrid(size: Size): (g: seq<seq<Option<nat>>>)
    ensures |g| == Len(size)
    ensures forall i :: 0 <= i < |g| ==> |g[i]| == 2 * |size|
    ensures forall i, d :: 0 <= i < |g| && 0 <= d < |g[i]| ==>
              (g[i][d].Some? <==> StepInside(size, i, d)) && (g[i][d].Some? ==> OneStep(size, i, d, g[i][d].value))
  {
    seq(Len(size), i requires 0 <= i < Len(size) =>
      seq(2 * |size|, d requires 0 <= d < 2 * |size| => Neighbor(size, i, d)))
  }

  /** A neighbour grid for the sample: one row per cell, one entry per direction, every neighbour a cell. */
  predicate Fits<W, S>(f: GenericFinder<W, S>, g: seq<seq<Option<nat>>>)
  {
    && |g| == |f.source|
    && (forall i :: 0 <= i < |g| ==> |g[i]| == 2 * |f.size|)
    && (forall i, d :: 0 <= i < |g| && 0 <= d < |g[i]| && g[i][d].Some? ==> g[i][d].value < |f.source|)
  }

  /** The grid of a well-formed sample fits it. */
  lemma NeighborGridFits<W, S>(f: GenericFinder<W, S>)
    requires WellFormed(f)
    ensures Fits(f, NeighborGrid(f.size))
  {
  }

  /** Cell `i` of the sample has a neighbour inside the grid in direction `d`. */
  predicate Adjacent<W, S>(f: GenericFinder<W, S>, g: seq<seq<Option<nat>>>, i: nat, d: nat)
    requires Fits(f, g) && i < |f.source|
  {
    d < |g[i]| && g[i][d].Some?
  }

  /** The variant of the neighbour of cell `i` in direction `d`. */
  function Target<W, S>(f: GenericFinder<W, S>, g: seq<seq<Option<nat>>>, i: nat, d: nat): nat
    requires Fits(f, g) && i < |f.source| && Adjacent(f, g, i, d)
  {
    f.source[g[i][d].value]
  }

  // ---------------------------------------------------------------------------
  // Reference: the provider folded over a variant's neighbours

  /**
    The variants found next to occurrences of `v` in direction `d`, over the
    first `n` cells of the sample in index order.
  */
  function Targets<W, S>(f: GenericFinder<W, S>, g: seq<seq<Option<nat>>>, v: nat, d: nat, n: nat): (r: seq<nat>)
    requires Fits(f, g) && n <= |f.source|
    ensures |r| <= n
  {
    if n == 0 then []
    else
      var prev := Targets(f, g, v, d, n - 1);
      if f.source[n - 1] == v && Adjacent(f, g, n - 1, d) then prev + [Target(f, g, n - 1, d)] else prev
  }

  /**
    The provider applied as a left fold over `targets`, starting from no
    socket; the first failure is final.
  */
  function Fold<W, S>(p: Provider<W, S>, d: nat, v: nat, targets: seq<nat>): Result<Option<W>, NoSocket>
  {
    if |targets| == 0 then Ok(None)
    else
      var prev := Fold(p, d, v, targets[..|targets| - 1]);
      if prev.Err? then prev else p.find(prev.value, d, v, targets[|targets| - 1])
  }

  lemma FoldSnoc<W, S>(p: Provider<W, S>, d: nat, v: nat, xs: seq<nat>, t: nat)
    ensures Fold(p, d, v, xs + [t]) == if Fold(p, d, v, xs).Err? then Fold(p, d, v, xs) else p.find(Fold(p, d, v, xs).value, d, v, t)
  {
    assert (xs + [t])[..|xs|] == xs;
  }

  // ---------------------------------------------------------------------------
  // The scan as written

  /**
    `GenericFinder::get_socket`: the provider's answer, with the triple
    (dir, variant, neighbour) appended to `failures` when it fails.
  */
  function GetSocket<W, S>(p: Provider<W, S>, current: Option<W>, d: nat, v: nat, t: nat, failures: seq<Failure>)
    : (r: (Result<Option<W>, NoSocket>, seq<Failure>))
    ensures r.0 == p.find(current, d, v, t)
    ensures r.0.Ok? ==> r.1 == failures
    ensures r.0.Err? ==> r.1 == failures + [(d, v, t)]
  {
    var found := p.find(current, d, v, t);
    (found, if found.Err? then failures + [(d, v, t)] else failures)
  }

  /** `rule.remove(&dir).unwrap_or(None)`: the socket found so far, `None` when there is none yet. */
  function Current<W>(rule: Rules.Rule<Option<W>>, d: nat): Option<W>
  {
    if d in rule then rule[d] else None
  }

  /** One direction of one cell: skip an outside neighbour, else ask the provider and store its socket. */
  function DirStep<W, S>(f: GenericFinder<W, S>, g: seq<seq<Option<nat>>>, i: nat, d: nat, rule: Rules.Rule<Option<W>>, failures: seq<Failure>)
    : Result<(Rules.Rule<Option<W>>, seq<Failure>), FindError>
    requires Fits(f, g) && i < |f.source| && d < 2 * |f.size|
  {
    if !Adjacent(f, g, i, d) then Ok((rule, failures))
    else
      var v, t := f.source[i], Target(f, g, i, d);
      var got := GetSocket(f.provider, Current(rule, d), d, v, t, failures);
      if got.0.Err? then Err(SocketGenerationFailure(v, d, t))
      else Ok((rule[d := got.0.value], got.1))
  }

  /** The inner loop over the first `k` directions of cell `i`. */
  function ScanDirs<W, S>(f: GenericFinder<W, S>, g: seq<seq<Option<nat>>>, i: nat, k: nat, rule: Rules.Rule<Option<W>>, failures: seq<Failure>)
    : Result<(Rules.Rule<Option<W>>, seq<Failure>), FindError>
    requires Fits(f, g) && i < |f.source| && k <= 2 * |f.size|
  {
    if k == 0 then Ok((rule, failures))
    else
      var prev := ScanDirs(f, g, i, k - 1, rule, failures);
      if prev.Err? then prev else DirStep(f, g, i, k - 1, prev.value.0, prev.value.1)
  }

  /** The outer loop over the first `n` cells; each cell's variant gets a rule, empty at first. */
  function Scan<W, S>(f: GenericFinder<W, S>, g: seq<seq<Option<nat>>>, n: nat): Result<(Rules.RuleTable<Option<W>>, seq<Failure>), FindError>
    requires Fits(f, g) && n <= |f.source|
  {
    if n == 0 then Ok((map[], []))
    else
      var prev := Scan(f, g, n - 1);
      if prev.Err? then prev
      else
        var table := prev.value.0;
        var v := f.source[n - 1];
        var rule := if v in table then table[v] else map[];
        var step := ScanDirs(f, g, n - 1, 2 * |f.size|, rule, prev.value.1);
        if step.Err? then Err(step.error)
        else Ok((table[v := step.value.0], step.value.1))
  }

  /** A working socket mapped through `finalize`; no socket stays no socket. */
  function FinalizeSocket<W, S>(p: Provider<W, S>, d: nat, s: Option<W>): (r: Option<S>)
    ensures r.Some? <==> s.Some?
    ensures s.Some? ==> r.value == p.finalize(d, s.value)
  {
    if s.Some? then Some(p.finalize(d, s.value)) else None
  }

  /** The table with every working socket finalized. */
  function Finalize<W, S>(p: Provider<W, S>, table: Rules.RuleTable<Option<W>>): (r: Rules.RuleTable<Option<S>>)
    ensures r.Keys == table.Keys
    ensures forall v :: v in r ==> r[v].Keys == table[v].Keys
    ensures forall v, d :: v in r && d in r[v] ==> r[v][d] == FinalizeSocket(p, d, table[v][d])
  {
    map v | v in table :: map d | d in table[v] :: FinalizeSocket(p, d, table[v][d])
  }

  /**
    `RuleFinder::find` for `GenericFinder`: scan the sample, then report
    `RuleNotFound` with the collected failures, or finalize every socket.
  */
  function Find<W, S>(f: GenericFinder<W, S>): Result<Rules.RuleTable<Option<S>>, FindError>
    requires WellFormed(f)
  {
    NeighborGridFits(f);
    var scan := Scan(f, NeighborGrid(f.size), |f.source|);
    if scan.Err? then Err(scan.error)
    else if |scan.value.1| == 0 then Ok(Finalize(f.provider, scan.value.0))
    else Err(RuleNotFound(scan.value.1))
  }

  /**
    What `find` computes, against the reference fold over the neighbour grid
    `g`: it fails exactly when the provider fails for some (variant,
    direction) fold, and then with `SocketGenerationFailure` naming a sample
    cell, a direction and the neighbour's variant, never with `RuleNotFound`;
    on success every variant of the sample has a rule, a direction is a key
    exactly when some occurrence has a neighbour inside the grid that way,
    and its socket is the finalized fold.
  */
  lemma FindMeetsReference<W, S>(f: GenericFinder<W, S>, g: seq<seq<Option<nat>>>)
    requires WellFormed(f) && g == NeighborGrid(f.size)
    ensures Fits(f, g)
    ensures var r := Find(f);
      r.Err? ==> r.error.SocketGenerationFailure? && FirstFailure(f, g, r.error)
    ensures Find(f).Ok? <==> forall v, d :: Fold(f.provider, d, v, Targets(f, g, v, d, |f.source|)).Ok?
    ensures var r := Find(f);
      r.Ok? ==> forall v :: v in r.value <==> v in f.source
    ensures var r := Find(f);
      r.Ok? ==> forall v, d :: v in r.value ==> (d in r.value[v] <==> |Targets(f, g, v, d, |f.source|)| > 0)
    ensures var r := Find(f);
      r.Ok? ==> forall v, d :: v in r.value && d in r.value[v] ==>
        r.value[v][d] == FinalizeSocket(f.provider, d, Fold(f.provider, d, v, Targets(f, g, v, d, |f.source|)).value)
  {
    NeighborGridFits(f);
    ScanFacts(f, g, |f.source|);
    assert f.source[..|f.source|] == f.source;
  }

  // ---------------------------------------------------------------------------
  // The scan agrees with the reference fold

  /**
    The error is the first failure in scan order: it names cell `i`, a
    direction `d` with a neighbour inside, and that neighbour's variant;
    every fold over the cells before `i` succeeds, and at cell `i` the folds
    of the directions before `d` succeed while the fold of `d` fails.
  */
  ghost predicate FirstFailure<W, S>(f: GenericFinder<W, S>, g: seq<seq<Option<nat>>>, e: FindError)
    requires Fits(f, g)
  {
    exists i: nat, d: nat :: i < |f.source| && Adjacent(f, g, i, d) && FailsFirstAt(f, g, i, d)
      && e == SocketGenerationFailure(f.source[i], d, Target(f, g, i, d))
  }

  /** Scanning reaches cell `i` with every fold intact, and direction `d` is the first of that cell to fail. */
  ghost predicate FailsFirstAt<W, S>(f: GenericFinder<W, S>, g: seq<seq<Option<nat>>>, i: nat, d: nat)
    requires Fits(f, g) && i < |f.source|
  {
    var v := f.source[i];
    && (forall u, x :: Fold(f.provider, x, u, Targets(f, g, u, x, i)).Ok?)
    && FoldsOkBefore(f, g, v, d, i + 1)
    && Fold(f.provider, d, v, Targets(f, g, v, d, i + 1)).Err?
  }

  /**
    The failure `find` reports comes first in scan order: every cell before
    it, and every earlier direction of its own cell, folds successfully.
  */
  lemma FirstFailureIsFirst<W, S>(f: GenericFinder<W, S>, g: seq<seq<Option<nat>>>, i: nat, d: nat, j: nat, e: nat)
    requires Fits(f, g) && i < |f.source| && FailsFirstAt(f, g, i, d)
    requires j < i || (j == i && e < d)
    ensures Fold(f.provider, e, f.source[j], Targets(f, g, f.source[j], e, j + 1)).Ok?
  {
    if j < i && Fold(f.provider, e, f.source[j], Targets(f, g, f.source[j], e, j + 1)).Err? {
      FoldErrLater(f, g, f.source[j], e, j + 1, i);
    }
  }

  /** A fold that fails over the first `m` cells fails over any longer prefix. */
  lemma {:induction false} FoldErrLater<W, S>(f: GenericFinder<W, S>, g: seq<seq<Option<nat>>>, v: nat, d: nat, m: nat, n: nat)
    requires Fits(f, g) && m <= n <= |f.source|
    requires Fold(f.provider, d, v, Targets(f, g, v, d, m)).Err?
    ensures Fold(f.provider, d, v, Targets(f, g, v, d, n)).Err?
    decreases n - m
  {
    if m < n {
      FoldErrLater(f, g, v, d, m, n - 1);
      TargetsStep(f, g, v, d, n - 1, n);
      if f.source[n - 1] == v && Adjacent(f, g, n - 1, d) {
        FoldErrSticks(f.provider, d, v, Targets(f, g, v, d, n - 1), Target(f, g, n - 1, d));
      }
    }
  }

  /** Over the first `n` cells, the folds of `v` toward every direction before `d` succeed. */
  ghost predicate FoldsOkBefore<W, S>(f: GenericFinder<W, S>, g: seq<seq<Option<nat>>>, v: nat, d: nat, n: nat)
    requires Fits(f, g) && n <= |f.source|
  {
    forall x: nat :: x < d ==> Fold(f.provider, x, v, Targets(f, g, v, x, n)).Ok?
  }

  /** After the first `n` cells the table holds the reference fold for every (variant, direction). */
  ghost predicate TableMatches<W, S>(f: GenericFinder<W, S>, g: seq<seq<Option<nat>>>, table: Rules.RuleTable<Option<W>>, n: nat)
    requires Fits(f, g) && n <= |f.source|
  {
    (forall v :: v in table <==> v in f.source[..n]) &&
    (forall v, d :: v in table ==> (d in table[v] <==> |Targets(f, g, v, d, n)| > 0)) &&
    (forall v, d :: v in table && d in table[v] ==> Fold(f.provider, d, v, Targets(f, g, v, d, n)) == Ok(table[v][d]))
  }

  /** The provider's answer for cell `i` toward `d`, given the rule built so far. */
  function Answer<W, S>(f: GenericFinder<W, S>, g: seq<seq<Option<nat>>>, rule: Rules.Rule<Option<W>>, i: nat, d: nat): Result<Option<W>, NoSocket>
    requires Fits(f, g) && i < |f.source| && Adjacent(f, g, i, d)
  {
    f.provider.find(Current(rule, d), d, f.source[i], Target(f, g, i, d))
  }

  /** A successful inner loop keeps the failure list and stores one answer per direction with a neighbour inside. */
  lemma {:induction false} ScanDirsRule<W, S>(f: GenericFinder<W, S>, g: seq<seq<Option<nat>>>, i: nat, k: nat, rule: Rules.Rule<Option<W>>, failures: seq<Failure>)
    requires Fits(f, g) && i < |f.source| && k <= 2 * |f.size|
    requires ScanDirs(f, g, i, k, rule, failures).Ok?
    ensures var r := ScanDirs(f, g, i, k, rule, failures).value;
      && r.1 == failures
      && (forall d: nat :: d in r.0 <==> d in rule || (d < k && Adjacent(f, g, i, d)))
      && (forall d: nat :: d in r.0 && d < k && Adjacent(f, g, i, d) ==> Answer(f, g, rule, i, d) == Ok(r.0[d]))
      && (forall d: nat :: d in r.0 && !(d < k && Adjacent(f, g, i, d)) ==> r.0[d] == rule[d])
  {
    if k > 0 {
      ScanDirsRule(f, g, i, k - 1, rule, failures);
      var prev := ScanDirs(f, g, i, k - 1, rule, failures).value;
      assert Current(prev.0, k - 1) == Current(rule, k - 1);
    }
  }

  /** The inner loop succeeds exactly when every direction with a neighbour inside gets an answer. */
  lemma {:induction false} ScanDirsOk<W, S>(f: GenericFinder<W, S>, g: seq<seq<Option<nat>>>, i: nat, k: nat, rule: Rules.Rule<Option<W>>, failures: seq<Failure>)
    requires Fits(f, g) && i < |f.source| && k <= 2 * |f.size|
    ensures ScanDirs(f, g, i, k, rule, failures).Ok? <==> forall d: nat :: d < k && Adjacent(f, g, i, d) ==> Answer(f, g, rule, i, d).Ok?
  {
    if k > 0 {
      ScanDirsOk(f, g, i, k - 1, rule, failures);
      var prev := ScanDirs(f, g, i, k - 1, rule, failures);
      if prev.Ok? {
        ScanDirsRule(f, g, i, k - 1, rule, failures);
        assert Current(prev.value.0, k - 1) == Current(rule, k - 1);
      }
    }
  }

  /** A failing inner loop names a direction with a neighbour inside and that neighbour's variant. */
  lemma {:induction false} ScanDirsErr<W, S>(f: GenericFinder<W, S>, g: seq<seq<Option<nat>>>, i: nat, k: nat, rule: Rules.Rule<Option<W>>, failures: seq<Failure>)
    requires Fits(f, g) && i < |f.source| && k <= 2 * |f.size|
    requires ScanDirs(f, g, i, k, rule, failures).Err?
    ensures exists d: nat :: (
      && d < k && Adjacent(f, g, i, d) && Answer(f, g, rule, i, d).Err?
      && (forall e: nat :: e < d && Adjacent(f, g, i, e) ==> Answer(f, g, rule, i, e).Ok?)
      && ScanDirs(f, g, i, k, rule, failures).error == SocketGenerationFailure(f.source[i], d, Target(f, g, i, d)))
  {
    ScanDirsOk(f, g, i, k - 1, rule, failures);
    var prev := ScanDirs(f, g, i, k - 1, rule, failures);
    if prev.Err? {
      ScanDirsErr(f, g, i, k - 1, rule, failures);
    } else {
      ScanDirsRule(f, g, i, k - 1, rule, failures);
      assert Current(prev.value.0, k - 1) == Current(rule, k - 1);
    }
  }

  /** Extending a fold that has failed keeps it failed. */
  lemma {:induction false} FoldErrSticks<W, S>(p: Provider<W, S>, d: nat, v: nat, xs: seq<nat>, t: nat)
    requires Fold(p, d, v, xs).Err?
    ensures Fold(p, d, v, xs + [t]).Err?
  {
    FoldSnoc(p, d, v, xs, t);
  }

  /** A variant has neighbours listed only when it occurs among the cells scanned. */
  lemma {:induction false} TargetsOccur<W, S>(f: GenericFinder<W, S>, g: seq<seq<Option<nat>>>, v: nat, d: nat, n: nat)
    requires Fits(f, g) && n <= |f.source|
    requires |Targets(f, g, v, d, n)| > 0
    ensures v in f.source[..n]
  {
    if f.source[n - 1] == v && Adjacent(f, g, n - 1, d) {
      assert f.source[n - 1] == f.source[..n][n - 1];
    } else {
      TargetsOccur(f, g, v, d, n - 1);
      assert f.source[..n - 1] <= f.source[..n];
    }
  }

  /** Cell `n - 1` adds one target for its own variant toward each direction with a neighbour inside, and nothing else. */
  lemma TargetsStep<W, S>(f: GenericFinder<W, S>, g: seq<seq<Option<nat>>>, v: nat, d: nat, m: nat, n: nat)
    requires Fits(f, g) && n == m + 1 && n <= |f.source|
    ensures f.source[m] == v && Adjacent(f, g, m, d) ==> Targets(f, g, v, d, n) == Targets(f, g, v, d, m) + [Target(f, g, m, d)]
    ensures !(f.source[m] == v && Adjacent(f, g, m, d)) ==> Targets(f, g, v, d, n) == Targets(f, g, v, d, m)
  {
  }

  /**
    One (variant, direction) pair across cell `m`, on top of a table matching
    the first `m` cells: the socket stored so far is the old fold, and the
    new fold is the old one extended by the answer when the cell is an
    occurrence with a neighbour inside.
  */
  lemma CellPair<W, S>(f: GenericFinder<W, S>, g: seq<seq<Option<nat>>>, m: nat, n: nat, table: Rules.RuleTable<Option<W>>, rule: Rules.Rule<Option<W>>, v: nat, d: nat)
    requires Fits(f, g) && n == m + 1 && n <= |f.source|
    requires TableMatches(f, g, table, m)
    requires Fold(f.provider, d, v, Targets(f, g, v, d, m)).Ok?
    requires rule == if f.source[m] in table then table[f.source[m]] else map[]
    ensures v == f.source[m] ==> Fold(f.provider, d, v, Targets(f, g, v, d, m)).value == Current(rule, d)
    ensures v == f.source[m] ==> (d in rule <==> |Targets(f, g, v, d, m)| > 0)
    ensures v == f.source[m] && Adjacent(f, g, m, d) ==> Fold(f.provider, d, v, Targets(f, g, v, d, n)) == Answer(f, g, rule, m, d)
    ensures !(v == f.source[m] && Adjacent(f, g, m, d)) ==> Fold(f.provider, d, v, Targets(f, g, v, d, n)) == Fold(f.provider, d, v, Targets(f, g, v, d, m))
  {
    TargetsStep(f, g, v, d, m, n);
    if v == f.source[m] {
      if |Targets(f, g, v, d, m)| > 0 {
        TargetsOccur(f, g, v, d, m);
      }
    }
    if v == f.source[m] && Adjacent(f, g, m, d) {
      FoldSnoc(f.provider, d, v, Targets(f, g, v, d, m), Target(f, g, m, d));
    }
  }

  /** The scan of the first `n` cells, against the reference fold. */
  lemma {:induction false} ScanFacts<W, S>(f: GenericFinder<W, S>, g: seq<seq<Option<nat>>>, n: nat)
    requires Fits(f, g) && n <= |f.source|
    ensures Scan(f, g, n).Ok? <==> forall v, d :: Fold(f.provider, d, v, Targets(f, g, v, d, n)).Ok?
    ensures Scan(f, g, n).Ok? ==> Scan(f, g, n).value.1 == [] && TableMatches(f, g, Scan(f, g, n).value.0, n)
    ensures Scan(f, g, n).Err? ==> Scan(f, g, n).error.SocketGenerationFailure? && FirstFailure(f, g, Scan(f, g, n).error)
  {
    if n > 0 {
      ScanFacts(f, g, n - 1);
      if Scan(f, g, n - 1).Err? {
        FailureSticks(f, g, n - 1, n);
      } else {
        ScanStep(f, g, n - 1, n);
      }
    }
  }

  /** A fold that has failed over the first `m` cells is still failed after one more. */
  lemma FailureSticks<W, S>(f: GenericFinder<W, S>, g: seq<seq<Option<nat>>>, m: nat, n: nat)
    requires Fits(f, g) && n == m + 1 && n <= |f.source|
    requires exists v, d :: !Fold(f.provider, d, v, Targets(f, g, v, d, m)).Ok?
    ensures exists v, d :: !Fold(f.provider, d, v, Targets(f, g, v, d, n)).Ok?
  {
    var v, d :| !Fold(f.provider, d, v, Targets(f, g, v, d, m)).Ok?;
    TargetsStep(f, g, v, d, m, n);
    if f.source[m] == v && Adjacent(f, g, m, d) {
      FoldErrSticks(f.provider, d, v, Targets(f, g, v, d, m), Target(f, g, m, d));
    }
  }

  /** One more cell on top of a successful scan that matches the reference fold. */
  lemma ScanStep<W, S>(f: GenericFinder<W, S>, g: seq<seq<Option<nat>>>, m: nat, n: nat)
    requires Fits(f, g) && n == m + 1 && n <= |f.source|
    requires Scan(f, g, m).Ok? && Scan(f, g, m).value.1 == [] && TableMatches(f, g, Scan(f, g, m).value.0, m)
    requires forall v, d :: Fold(f.provider, d, v, Targets(f, g, v, d, m)).Ok?
    ensures Scan(f, g, n).Ok? <==> forall v, d :: Fold(f.provider, d, v, Targets(f, g, v, d, n)).Ok?
    ensures Scan(f, g, n).Ok? ==> Scan(f, g, n).value.1 == [] && TableMatches(f, g, Scan(f, g, n).value.0, n)
    ensures Scan(f, g, n).Err? ==> Scan(f, g, n).error.SocketGenerationFailure? && FirstFailure(f, g, Scan(f, g, n).error)
  {
    var table := Scan(f, g, m).value.0;
    var u := f.source[m];
    var rule := if u in table then table[u] else map[];
    var step := ScanDirs(f, g, m, 2 * |f.size|, rule, []);
    ScanUnfold(f, g, m, n);
    if step.Err? {
      CellErr(f, g, m, n, table, rule);
    } else {
      CellOk(f, g, m, n, table, rule);
    }
  }

  /** The outer loop's step for cell `m`, once the failure list is empty. */
  lemma ScanUnfold<W, S>(f: GenericFinder<W, S>, g: seq<seq<Option<nat>>>, m: nat, n: nat)
    requires Fits(f, g) && n == m + 1 && n <= |f.source|
    requires Scan(f, g, m).Ok? && Scan(f, g, m).value.1 == []
    ensures var table := Scan(f, g, m).value.0;
      var rule := if f.source[m] in table then table[f.source[m]] else map[];
      var step := ScanDirs(f, g, m, 2 * |f.size|, rule, []);
      Scan(f, g, n) == if step.Err? then Err(step.error) else Ok((table[f.source[m] := step.value.0], step.value.1))
  {
    assert n - 1 == m;
    assert f.source[n - 1] == f.source[m];
  }

  /** A cell whose inner loop fails makes some fold fail, and the error names the cell. */
  lemma CellErr<W, S>(f: GenericFinder<W, S>, g: seq<seq<Option<nat>>>, m: nat, n: nat, table: Rules.RuleTable<Option<W>>, rule: Rules.Rule<Option<W>>)
    requires Fits(f, g) && n == m + 1 && n <= |f.source|
    requires TableMatches(f, g, table, m)
    requires forall v, d :: Fold(f.provider, d, v, Targets(f, g, v, d, m)).Ok?
    requires rule == if f.source[m] in table then table[f.source[m]] else map[]
    requires ScanDirs(f, g, m, 2 * |f.size|, rule, []).Err?
    ensures exists v, d :: !Fold(f.provider, d, v, Targets(f, g, v, d, n)).Ok?
    ensures FirstFailure(f, g, ScanDirs(f, g, m, 2 * |f.size|, rule, []).error)
  {
    var k := 2 * |f.size|;
    var u := f.source[m];
    ScanDirsErr(f, g, m, k, rule, []);
    var d: nat :| d < k && Adjacent(f, g, m, d) && Answer(f, g, rule, m, d).Err?
      && (forall e: nat :: e < d && Adjacent(f, g, m, e) ==> Answer(f, g, rule, m, e).Ok?)
      && ScanDirs(f, g, m, k, rule, []).error == SocketGenerationFailure(u, d, Target(f, g, m, d));
    CellPair(f, g, m, n, table, rule, u, d);
    forall x: nat | x < d ensures Fold(f.provider, x, u, Targets(f, g, u, x, n)).Ok? {
      CellPair(f, g, m, n, table, rule, u, x);
    }
    assert FailsFirstAt(f, g, m, d);
  }

  /** A cell whose inner loop succeeds keeps every fold successful and the table matching. */
  lemma CellOk<W, S>(f: GenericFinder<W, S>, g: seq<seq<Option<nat>>>, m: nat, n: nat, table: Rules.RuleTable<Option<W>>, rule: Rules.Rule<Option<W>>)
    requires Fits(f, g) && n == m + 1 && n <= |f.source|
    requires TableMatches(f, g, table, m)
    requires forall v, d :: Fold(f.provider, d, v, Targets(f, g, v, d, m)).Ok?
    requires rule == if f.source[m] in table then table[f.source[m]] else map[]
    requires ScanDirs(f, g, m, 2 * |f.size|, rule, []).Ok?
    ensures forall v, d :: Fold(f.provider, d, v, Targets(f, g, v, d, n)).Ok?
    ensures ScanDirs(f, g, m, 2 * |f.size|, rule, []).value.1 == []
    ensures TableMatches(f, g, table[f.source[m] := ScanDirs(f, g, m, 2 * |f.size|, rule, []).value.0], n)
  {
    var k := 2 * |f.size|;
    var u := f.source[m];
    ScanDirsOk(f, g, m, k, rule, []);
    ScanDirsRule(f, g, m, k, rule, []);
    var nr := ScanDirs(f, g, m, k, rule, []).value.0;
    var t := table[u := nr];
    forall v, d ensures Fold(f.provider, d, v, Targets(f, g, v, d, n)).Ok? {
      CellPair(f, g, m, n, table, rule, v, d);
    }
    assert f.source[..n] == f.source[..m] + [u];
    forall v, d | v in t
      ensures d in t[v] <==> |Targets(f, g, v, d, n)| > 0
      ensures d in t[v] ==> Fold(f.provider, d, v, Targets(f, g, v, d, n)) == Ok(t[v][d])
    {
      if v == u {
        CellOkOwn(f, g, m, n, table, rule, d);
      } else {
        CellPair(f, g, m, n, table, rule, v, d);
        TargetsStep(f, g, v, d, m, n);
      }
    }
  }

  /** The rule of the cell's own variant after the inner loop holds the extended fold in every direction. */
  lemma CellOkOwn<W, S>(f: GenericFinder<W, S>, g: seq<seq<Option<nat>>>, m: nat, n: nat, table: Rules.RuleTable<Option<W>>, rule: Rules.Rule<Option<W>>, d: nat)
    requires Fits(f, g) && n == m + 1 && n <= |f.source|
    requires TableMatches(f, g, table, m)
    requires Fold(f.provider, d, f.source[m], Targets(f, g, f.source[m], d, m)).Ok?
    requires rule == if f.source[m] in table then table[f.source[m]] else map[]
    requires ScanDirs(f, g, m, 2 * |f.size|, rule, []).Ok?
    ensures var nr := ScanDirs(f, g, m, 2 * |f.size|, rule, []).value.0;
      && (d in nr <==> |Targets(f, g, f.source[m], d, n)| > 0)
      && (d in nr ==> Fold(f.provider, d, f.source[m], Targets(f, g, f.source[m], d, n)) == Ok(nr[d]))
  {
    ScanDirsRule(f, g, m, 2 * |f.size|, rule, []);
    CellPair(f, g, m, n, table, rule, f.source[m], d);
    TargetsStep(f, g, f.source[m], d, m, n);
  }
}

=== FILE: geometry.dfy ===
/**
  Grid geometry of the solver (`src/util.rs`): sizes, signed and unsigned
  positions, flattening with the first axis fastest, modular wrapping and
  the "direction index to axis step" addition.

  Positions are sequences with one coordinate per axis; every function that
  combines a position with a size asks for equal lengths, which the source
  guarantees through its `const DIM` parameter.
*/
module Geometry {
  import opened Wrappers

  /** `Size<DIM>`: one extent per axis. */
  type Size = seq<nat>
  /** `IPos<DIM>`: a signed position. */
  type IPos = seq<int>
  /** `UPos<DIM>`: an unsigned position. */
  type UPos = seq<nat>

  datatype ConversionError = IPosToUPos(pos: IPos)

  // ---------------------------------------------------------------------------
  // Size

  /** `Size::len`: the product of the extents (1 for no axis at all). */
  function Len(size: Size): nat
  {
    if |size| == 0 then 1 else Len(size[..|size| - 1]) * size[|size| - 1]
  }

  /** `Size::is_empty`. */
  predicate IsEmpty(size: Size)
  {
    Len(size) == 0
  }

  /** `Size::contains`: every coordinate lies in `[0, extent)`. */
  predicate Contains(size: Size, p: IPos)
  {
    |p| == |size| && forall i :: 0 <= i < |p| ==> 0 <= p[i] < size[i]
  }

  /** `is_empty` holds exactly when some axis has extent 0. */
  lemma {:induction false} IsEmptyIffZeroAxis(size: Size)
    ensures IsEmpty(size) <==> exists i :: 0 <= i < |size| && size[i] == 0
  {
    if |size| > 0 {
      var init := size[..|size| - 1];
      IsEmptyIffZeroAxis(init);
      if Len(size) == 0 {
        if Len(init) == 0 {
          var i :| 0 <= i < |init| && init[i] == 0;
          assert size[i] == 0;
        } else {
          assert size[|size| - 1] == 0;
        }
      } else {
        assert Len(init) != 0 && size[|size| - 1] != 0;
        forall i | 0 <= i < |size| ensures size[i] != 0 {
          if i < |init| {
            assert init[i] == size[i];
          }
        }
      }
    }
  }

  /** A non-empty grid has only positive extents. */
  lemma {:induction false} PositiveLenAllAxes(size: Size)
    requires Len(size) > 0
    ensures forall i :: 0 <= i < |size| ==> size[i] > 0
  {
    IsEmptyIffZeroAxis(size);
  }

  /** `From<UPos> for Size`: one more than each coordinate, the tightest size holding `p`. */
  function SizeFrom(p: UPos): (r: Size)
    ensures Contains(r, p)
    ensures forall k :: 0 <= k < |p| ==> !Contains(r, p[k := p[k] + 1])
  {
    var r := seq(|p|, k requires 0 <= k < |p| => p[k] + 1);
    assert forall k :: 0 <= k < |p| ==> p[k := p[k] + 1][k] == r[k];
    r
  }

  // ---------------------------------------------------------------------------
  // Flattening

  /** Product of the extents of the axes before `axis`: the flattening stride of `axis`. */
  function Stride(size: Size, axis: nat): nat
    requires axis <= |size|
  {
    Len(size[..axis])
  }

  /**
    `IPos::index` / `UPos::index`: the sum over axes of coordinate times
    stride, the first axis running fastest.
  */
  function Index(p: IPos, size: Size): int
    requires |p| == |size|
  {
    if |p| == 0 then 0
    else Index(p[..|p| - 1], size[..|size| - 1]) + p[|p| - 1] * Len(size[..|size| - 1])
  }

  /** Every axis but possibly the last has a positive extent, so every division below is defined. */
  predicate StridesPositive(size: Size)
  {
    forall i :: 0 <= i < |size| - 1 ==> size[i] > 0
  }

  /**
    `IPos::from_index` / `UPos::from_index`: peel the last axis off first
    (quotient by its stride), continue with the remainder on the earlier
    axes. The last coordinate is not reduced modulo its extent.
  */
  function FromIndex(index: nat, size: Size): (p: UPos)
    requires StridesPositive(size)
    ensures |p| == |size|
  {
    if |size| == 0 then []
    else
      var init := size[..|size| - 1];
      LenOfPositive(init);
      var stride := Len(init);
      FromIndex(index % stride, init) + [index / stride]
  }

  lemma {:induction false} LenOfPositive(size: Size)
    requires forall i :: 0 <= i < |size| ==> size[i] > 0
    ensures Len(size) > 0
  {
    if |size| > 0 {
      LenOfPositive(size[..|size| - 1]);
    }
  }

  lemma MulAtLeast(a: int, d: int)
    requires a >= 1 && d > 0
    ensures a * d >= d
  {
    assert a * d == (a - 1) * d + d;
    assert (a - 1) * d >= 0;
  }

  /** Euclidean quotient and remainder are determined by the defining equation. */
  lemma DivModUnique(x: int, d: int, q: int, r: int)
    requires d > 0 && 0 <= r < d && x == q * d + r
    ensures x / d == q && x % d == r
  {
    var q0, r0 := x / d, x % d;
    assert x == q0 * d + r0;
    assert (q - q0) * d == r0 - r;
    if q > q0 {
      MulAtLeast(q - q0, d);
    } else if q < q0 {
      MulAtLeast(q0 - q, d);
    }
  }

  /** Multiplying by a non-negative factor keeps the order. */
  lemma MulMono(a: int, b: int, c: int)
    requires a <= b && c >= 0
    ensures a * c <= b * c
  {
    assert b * c - a * c == (b - a) * c;
  }

  /** One more step of the mixed-radix bound: `x < l` and `k < s` give `x + k * l < s * l`. */
  lemma MixedRadixBound(x: int, k: int, l: int, s: int)
    requires 0 <= x < l && 0 <= k < s
    ensures 0 <= x + k * l < l * s
  {
    MulMono(0, k, l);
    MulMono(k + 1, s, l);
    assert (k + 1) * l == k * l + l;
    assert s * l == l * s;
  }

  /** A position inside the grid flattens into `[0, len)`. */
  lemma {:induction false} IndexInRange(p: IPos, size: Size)
    requires Contains(size, p)
    ensures 0 <= Index(p, size) < Len(size)
  {
    if |p| > 0 {
      var n := |p| - 1;
      var pi, si := p[..n], size[..n];
      assert Contains(si, pi);
      IndexInRange(pi, si);
      MixedRadixBound(Index(pi, si), p[n], Len(si), size[n]);
    }
  }

  /** Round trip one way: unflattening the index of an in-bounds position gives it back. */
  lemma {:induction false} FromIndexOfIndex(p: IPos, size: Size)
    requires Contains(size, p)
    ensures StridesPositive(size)
    ensures Index(p, size) >= 0
    ensures FromIndex(Index(p, size), size) == p
  {
    IndexInRange(p, size);
    assert StridesPositive(size) by {
      forall i | 0 <= i < |size| - 1 ensures size[i] > 0 {
        assert 0 <= p[i] < size[i];
      }
    }
    if |p| > 0 {
      var n := |p| - 1;
      var pi, si := p[..n], size[..n];
      assert Contains(si, pi);
      IndexInRange(pi, si);
      FromIndexOfIndex(pi, si);
      var l := Len(si);
      var x := Index(p, size);
      DivModUnique(x, l, p[n], Index(pi, si));
      assert FromIndex(x, size) == FromIndex(Index(pi, si), si) + [p[n]];
      assert p == pi + [p[n]];
    }
  }

  /** The quotient of an index below `l * s` by `l` is below `s`. */
  lemma QuotientBound(i: int, l: int, s: int)
    requires l > 0 && 0 <= i < l * s
    ensures 0 <= i / l < s
  {
    var q, r := i / l, i % l;
    assert i == q * l + r;
    if q < 0 {
      MulMono(q, -1, l);
    }
    if q >= s {
      MulMono(s, q, l);
    }
  }

  /** Round trip the other way: every index below `len` unflattens to an in-bounds position with that index. */
  lemma {:induction false} IndexOfFromIndex(i: nat, size: Size)
    requires i < Len(size)
    ensures StridesPositive(size)
    ensures Contains(size, FromIndex(i, size))
    ensures Index(FromIndex(i, size), size) == i
  {
    PositiveLenAllAxes(size);
    if |size| > 0 {
      var si := size[..|size| - 1];
      var l, q, r := PeelLastAxis(i, size);
      IndexOfFromIndex(r, si);
      SnocInBounds(FromIndex(r, si), q, size);
    }
  }

  /** Unflattening splits off the last coordinate: quotient and remainder by the stride of the earlier axes. */
  lemma PeelLastAxis(i: nat, size: Size) returns (l: nat, q: nat, r: nat)
    requires |size| > 0 && i < Len(size) && forall k :: 0 <= k < |size| ==> size[k] > 0
    ensures l == Len(size[..|size| - 1]) && l > 0
    ensures i == r + q * l && r < l && q < size[|size| - 1]
    ensures FromIndex(i, size) == FromIndex(r, size[..|size| - 1]) + [q]
  {
    var n := |size| - 1;
    var si := size[..n];
    LenOfPositive(si);
    l := Len(si);
    q, r := i / l, i % l;
    assert i < l * size[n];
    QuotientBound(i, l, size[n]);
  }

  /** Appending an in-range last coordinate to an in-bounds position of the earlier axes. */
  lemma SnocInBounds(pi: IPos, q: int, size: Size)
    requires |size| > 0 && Contains(size[..|size| - 1], pi) && 0 <= q < size[|size| - 1]
    ensures Contains(size, pi + [q])
    ensures Index(pi + [q], size) == Index(pi, size[..|size| - 1]) + q * Len(size[..|size| - 1])
  {
    var p := pi + [q];
    assert p[..|size| - 1] == pi;
    forall k | 0 <= k < |p| ensures 0 <= p[k] < size[k] {
      if k < |size| - 1 {
        assert p[k] == pi[k];
      }
    }
  }

  /** Distinct in-bounds positions have distinct indexes. */
  lemma IndexInjective(p: IPos, q: IPos, size: Size)
    requires Contains(size, p) && Contains(size, q)
    requires Index(p, size) == Index(q, size)
    ensures p == q
  {
    FromIndexOfIndex(p, size);
    FromIndexOfIndex(q, size);
  }

  /** The documented example: `[2, 3, 4]` in a 5x5x5 grid is index 117 and back. */
  lemma IndexExample()
    ensures Index([2, 3, 4], [5, 5, 5]) == 117
    ensures FromIndex(117, [5, 5, 5]) == [2, 3, 4]
  {
    assert [5, 5, 5][..2] == [5, 5];
    assert [5, 5][..1] == [5];
    assert [2, 3, 4][..2] == [2, 3];
    assert [2, 3][..1] == [2];
  }

  // ---------------------------------------------------------------------------
  // Wrapping

  /** Rust's `%` on signed integers: the remainder takes the sign of the dividend. */
  function RemTrunc(a: int, b: int): int
    requires b > 0
  {
    if a >= 0 then a % b else -((-a) % b)
  }

  /**
    `util::wrap`: `((i % s) + s) % s` with the truncating `%`. A zero
    modulus panics in the source and is excluded here.
  */
  function Wrap(i: int, s: int): (r: int)
    requires s > 0
    ensures 0 <= r < s
    ensures r == i % s
  {
    WrapIsEuclidean(i, s);
    RemTrunc(RemTrunc(i, s) + s, s)
  }

  /** Shifting the truncating remainder by the modulus and reducing again gives the Euclidean remainder. */
  lemma WrapIsEuclidean(i: int, s: int)
    requires s > 0
    ensures 0 <= RemTrunc(i, s) + s
    ensures RemTrunc(RemTrunc(i, s) + s, s) == i % s
  {
    var t := RemTrunc(i, s);
    if i >= 0 {
      DivModUnique(t + s, s, 1, t);
      DivModUnique(i, s, i / s, t);
    } else {
      var m := (-i) % s;
      if m == 0 {
        DivModUnique(t + s, s, 1, 0);
        DivModUnique(i, s, -((-i) / s), 0);
      } else {
        DivModUnique(t + s, s, 0, s - m);
        DivModUnique(i, s, -((-i) / s) - 1, s - m);
      }
    }
  }

  /** `IPos::wrap`: wrap every coordinate by its extent; the result is in bounds and congruent. */
  function WrapPos(p: IPos, size: Size): (r: IPos)
    requires |p| == |size|
    requires forall k :: 0 <= k < |size| ==> size[k] > 0
    ensures Contains(size, r)
    ensures forall k :: 0 <= k < |p| ==> r[k] == p[k] % size[k]
  {
    seq(|p|, k requires 0 <= k < |p| => Wrap(p[k], size[k]))
  }

  /** `IPos::index_in`: the index of the wrapped position, always below `len`. */
  function IndexIn(p: IPos, size: Size): (r: int)
    requires |p| == |size|
    requires forall k :: 0 <= k < |size| ==> size[k] > 0
    ensures 0 <= r < Len(size)
  {
    var w := WrapPos(p, size);
    IndexInRange(w, size);
    Index(w, size)
  }

  /** Wrapping leaves an in-bounds position alone. */
  lemma WrapPosInBounds(p: IPos, size: Size)
    requires Contains(size, p)
    ensures WrapPos(p, size) == p
  {
    forall k | 0 <= k < |p| ensures WrapPos(p, size)[k] == p[k] {
      DivModUnique(p[k], size[k], 0, p[k]);
    }
  }

  /** The documented examples of `IPos::wrap`. */
  lemma WrapExamples()
    ensures WrapPos([-1], [4]) == [3]
    ensures WrapPos([-1, -1], [10, 10]) == [9, 9]
    ensures WrapPos([10, 10], [10, 10]) == [0, 0]
  {
  }

  // ---------------------------------------------------------------------------
  // Conversions and stepping

  /** `TryFrom<IPos> for UPos`: succeeds exactly when no coordinate is negative, keeping every value. */
  function ToUPos(p: IPos): (r: Result<UPos, ConversionError>)
    ensures r.Ok? <==> forall i :: 0 <= i < |p| ==> p[i] >= 0
    ensures r.Ok? ==> r.value == p
    ensures r.Err? ==> r.error == IPosToUPos(p)
  {
    if forall i :: 0 <= i < |p| ==> p[i] >= 0 then
      Ok(p)
    else
      Err(IPosToUPos(p))
  }

  /** The axis a direction index moves along: directions come in pairs per axis. */
  function Axis(d: nat): nat
  {
    d / 2
  }

  /** The step of a direction index: the first of each pair goes down (-1), the second up (+1). */
  function Offset(d: nat): int
  {
    if d % 2 == 0 then -1 else 1
  }

  /** The partner of a direction index in its pair, taken as `Dimension::opposite` for every enumeration. */
  function OppositeIndex(d: nat): nat
  {
    if d % 2 == 0 then d + 1 else d - 1
  }

  /**
    `Add<D> for IPos`: the position of the direction in the enumeration
    selects an axis (`index / 2`) and a sign (`index & 1`). An axis beyond
    the position panics in the source.
  */
  function Add(p: IPos, d: nat): (r: IPos)
    requires Axis(d) < |p|
    ensures |r| == |p|
    ensures forall k :: 0 <= k < |p| && k != Axis(d) ==> r[k] == p[k]
    ensures r[Axis(d)] == p[Axis(d)] + Offset(d)
  {
    p[Axis(d) := p[Axis(d)] + Offset(d)]
  }

  /** The pair partner is an involution without fixed point on the same axis with the other sign. */
  lemma OppositeIndexFacts(d: nat)
    ensures OppositeIndex(OppositeIndex(d)) == d
    ensures OppositeIndex(d) != d
    ensures Axis(OppositeIndex(d)) == Axis(d)
    ensures Offset(OppositeIndex(d)) == -Offset(d)
  {
  }

  /** Stepping in a direction and then in its opposite comes back. */
  lemma AddThenOpposite(p: IPos, d: nat)
    requires Axis(d) < |p|
    ensures Axis(OppositeIndex(d)) < |p|
    ensures Add(Add(p, d), OppositeIndex(d)) == p
  {
    OppositeIndexFacts(d);
  }

  /** A step never stays in place, so a cell is never its own neighbour. */
  lemma AddMoves(p: IPos, d: nat)
    requires Axis(d) < |p|
    ensures Add(p, d) != p
  {
    assert Add(p, d)[Axis(d)] != p[Axis(d)];
  }
}

=== FILE: maze.dfy ===
/**
  The two-dimensional maze socket provider (`src/prebuilt/e2e/maze2d.rs`).

  A maze technique names fourteen pieces; the provider holds a fixed table
  from (direction, piece) to one of four sockets and ignores the socket
  found so far and the neighbouring piece. Pieces reach the rule finder as
  variant ids, in the order the technique declares them, and directions as
  their `Dim2d::iter()` positions.
*/
module Maze {
  import opened Wrappers
  import opened Errors
  import Dims
  import Finder

  /** `maze2d::Socket`. */
  datatype Socket = Vertical | VerticalBreak | Horizontal | HorizontalBreak

  /** The fourteen constants of `Maze2dTechnique`, in declaration order. */
  datatype Piece =
    | Entrance | Exit | Empty | VerticalPath | HorizontalPath
    | CornerUL | CornerUR | CornerBL | CornerBR | FourWay
    | ThreeWayUp | ThreeWayDown | ThreeWayRight | ThreeWayLeft

  /** The four sockets a piece shows, one per direction. */
  datatype Row = Row(up: Socket, down: Socket, left: Socket, right: Socket)

  /** A table giving every piece its row: the source's map from (direction, piece) to socket, which has every such key. */
  type SocketTable = Piece -> Row

  const PieceCount: nat := 14

  /** The variant id of a piece. */
  function Id(p: Piece): (k: nat)
    ensures k < PieceCount
  {
    match p
    case Entrance => 0
    case Exit => 1
    case Empty => 2
    case VerticalPath => 3
    case HorizontalPath => 4
    case CornerUL => 5
    case CornerUR => 6
    case CornerBL => 7
    case CornerBR => 8
    case FourWay => 9
    case ThreeWayUp => 10
    case ThreeWayDown => 11
    case ThreeWayRight => 12
    case ThreeWayLeft => 13
  }

  /** The piece behind a variant id, if any: the inverse of `Id`. */
  function PieceOf(v: nat): (r: Option<Piece>)
    ensures r.Some? <==> v < PieceCount
    ensures r.Some? ==> Id(r.value) == v
  {
    match v
    case 0 => Some(Entrance)
    case 1 => Some(Exit)
    case 2 => Some(Empty)
    case 3 => Some(VerticalPath)
    case 4 => Some(HorizontalPath)
    case 5 => Some(CornerUL)
    case 6 => Some(CornerUR)
    case 7 => Some(CornerBL)
    case 8 => Some(CornerBR)
    case 9 => Some(FourWay)
    case 10 => Some(ThreeWayUp)
    case 11 => Some(ThreeWayDown)
    case 12 => Some(ThreeWayRight)
    case 13 => Some(ThreeWayLeft)
    case _ => None
  }

  /** Ids round-trip, so each piece has its own id. */
  lemma IdRoundTrip(p: Piece, q: Piece)
    ensures PieceOf(Id(p)) == Some(p)
    ensures Id(p) == Id(q) <==> p == q
  {
  }

  /** The socket a row shows toward a direction. */
  function SocketOf(row: Row, d: Dims.Dim2d): Socket
  {
    match d
    case Up => row.up
    case Down => row.down
    case Left => row.left
    case Right => row.right
  }

  // ---------------------------------------------------------------------------
  // The table

  /** `MazeRuleProvider::default`, entry for entry: (up, down, left, right) per piece. */
  function RowAsWritten(p: Piece): Row
  {
    match p
    case Entrance => Row(Vertical, Vertical, Horizontal, Horizontal)
    case Exit => Row(Vertical, Vertical, Horizontal, Horizontal)
    case Empty => Row(VerticalBreak, VerticalBreak, HorizontalBreak, HorizontalBreak)
    case VerticalPath => Row(Vertical, Vertical, VerticalBreak, VerticalBreak)
    case HorizontalPath => Row(HorizontalBreak, HorizontalBreak, Horizontal, Horizontal)
    case CornerUL => Row(VerticalBreak, Vertical, HorizontalBreak, Horizontal)
    case CornerUR => Row(VerticalBreak, Vertical, Horizontal, HorizontalBreak)
    case CornerBL => Row(Vertical, VerticalBreak, HorizontalBreak, Horizontal)
    case CornerBR => Row(Vertical, VerticalBreak, Horizontal, HorizontalBreak)
    case FourWay => Row(Vertical, Vertical, Horizontal, Horizontal)
    case ThreeWayUp => Row(Vertical, VerticalBreak, Horizontal, Horizontal)
    case ThreeWayDown => Row(VerticalBreak, Vertical, Horizontal, Horizontal)
    case ThreeWayRight => Row(Vertical, Vertical, HorizontalBreak, Horizontal)
    case ThreeWayLeft => Row(Vertical, Vertical, Horizontal, HorizontalBreak)
  }

  /**
    The table with the cross-axis entries put right: a vertical path shows a
    horizontal break sideways, and a horizontal path a vertical break up and
    down.
  */
  function RowOf(p: Piece): Row
  {
    match p
    case VerticalPath => RowAsWritten(p).(left := HorizontalBreak, right := HorizontalBreak)
    case HorizontalPath => RowAsWritten(p).(up := VerticalBreak, down := VerticalBreak)
    case _ => RowAsWritten(p)
  }

  /** Up and Down lie on the vertical axis. */
  predicate IsVertical(d: Dims.Dim2d)
  {
    d == Dims.Dim2d.Up || d == Dims.Dim2d.Down
  }

  /** The sockets that belong to a direction's axis. */
  predicate OnAxis(d: Dims.Dim2d, s: Socket)
  {
    if IsVertical(d) then s == Vertical || s == VerticalBreak else s == Horizontal || s == HorizontalBreak
  }

  /** The break socket of a direction's axis. */
  function BreakOf(d: Dims.Dim2d): (s: Socket)
    ensures OnAxis(d, s)
  {
    if IsVertical(d) then VerticalBreak else HorizontalBreak
  }

  /** Every socket of the table sits on its direction's axis. */
  ghost predicate WellShaped(t: SocketTable)
  {
    forall p, d :: OnAxis(d, SocketOf(t(p), d))
  }

  /**
    Two pieces fit side by side, `b` in direction `d` of `a`, when the
    socket `a` shows toward `b` is the one `b` shows back (the unary
    constraint the maze is solved with).
  */
  predicate Fits(t: SocketTable, a: Piece, d: Dims.Dim2d, b: Piece)
  {
    SocketOf(t(a), d) == SocketOf(t(b), Dims.Opposite2d(d))
  }

  /**
    As written, a vertical path shows a vertical-break socket sideways, off
    its axis, and so nothing but another vertical path may sit to its right;
    likewise a horizontal path shows a horizontal break up and down.
  */
  lemma TableAsWrittenCrossesAxes()
    ensures SocketOf(RowAsWritten(VerticalPath), Dims.Dim2d.Right) == VerticalBreak
    ensures SocketOf(RowAsWritten(HorizontalPath), Dims.Dim2d.Up) == HorizontalBreak
    ensures !WellShaped(RowAsWritten)
    ensures forall b :: Fits(RowAsWritten, VerticalPath, Dims.Dim2d.Right, b) <==> b == VerticalPath
  {
    assert !OnAxis(Dims.Dim2d.Right, SocketOf(RowAsWritten(VerticalPath), Dims.Dim2d.Right));
    forall b ensures Fits(RowAsWritten, VerticalPath, Dims.Dim2d.Right, b) <==> b == VerticalPath {
      match b
      case _ =>
    }
  }

  /** The corrected table puts every socket on its direction's axis, and agrees with the source everywhere else. */
  lemma TableWellShaped()
    ensures WellShaped(RowOf)
    ensures forall p :: p != VerticalPath && p != HorizontalPath ==> RowOf(p) == RowAsWritten(p)
    ensures forall d :: IsVertical(d) ==> SocketOf(RowOf(VerticalPath), d) == SocketOf(RowAsWritten(VerticalPath), d)
    ensures forall d :: !IsVertical(d) ==> SocketOf(RowOf(HorizontalPath), d) == SocketOf(RowAsWritten(HorizontalPath), d)
  {
    forall p, d ensures OnAxis(d, SocketOf(RowOf(p), d)) {
      match p
      case _ =>
    }
  }

  /** Entrance, Exit and FourWay share a row, and Empty shows a break every way. */
  lemma TableRows(t: SocketTable)
    requires t == RowAsWritten || t == RowOf
    ensures t(Entrance) == t(Exit) == t(FourWay)
    ensures forall d :: SocketOf(t(Empty), d) == BreakOf(d)
  {
  }

  /** With the corrected table a vertical path takes to its right exactly the pieces closed on their left. */
  lemma BesideVerticalPath()
    ensures forall b :: Fits(RowOf, VerticalPath, Dims.Dim2d.Right, b) <==>
      b in {Empty, VerticalPath, CornerUL, CornerBL, ThreeWayRight}
  {
    forall b ensures Fits(RowOf, VerticalPath, Dims.Dim2d.Right, b) <==> b in {Empty, VerticalPath, CornerUL, CornerBL, ThreeWayRight} {
      match b
      case _ =>
    }
  }

  // ---------------------------------------------------------------------------
  // The provider

  /**
    `MazeRuleProvider::find`: the table's socket for (direction, piece),
    `NoSocket` when the direction or the variant has no entry.
  */
  function FindSocket(t: SocketTable, current: Option<Socket>, d: nat, source: nat, target: nat): (r: Result<Option<Socket>, NoSocket>)
    ensures r.Ok? <==> d < Dims.Count2d && source < PieceCount
    ensures r.Ok? ==> r.value == Some(SocketOf(t(PieceOf(source).value), Dims.FromOrdinal2d(d)))
  {
    if d < Dims.Count2d && PieceOf(source).Some?
    then Ok(Some(SocketOf(t(PieceOf(source).value), Dims.FromOrdinal2d(d))))
    else Err(NoSocket)
  }

  /** The answer depends only on the direction and the source piece. */
  lemma FindIgnoresCurrentAndTarget(t: SocketTable, c1: Option<Socket>, c2: Option<Socket>, d: nat, source: nat, t1: nat, t2: nat)
    ensures FindSocket(t, c1, d, source, t1) == FindSocket(t, c2, d, source, t2)
  {
  }

  /** The provider handed to the generic finder; `MazeRuleProvider::finalize` keeps the socket. */
  function Provider(t: SocketTable): Finder.Provider<Socket, Socket>
  {
    Finder.Provider((c, d, v, u) => FindSocket(t, c, d, v, u), Finder.KeepSocket)
  }

  /** Folding the maze provider over any non-empty list of neighbours gives the table entry. */
  lemma {:induction false} FoldIsLookup(t: SocketTable, d: nat, v: nat, targets: seq<nat>)
    requires d < Dims.Count2d && v < PieceCount
    ensures |targets| > 0 ==> Finder.Fold(Provider(t), d, v, targets) == Ok(Some(SocketOf(t(PieceOf(v).value), Dims.FromOrdinal2d(d))))
    ensures |targets| == 0 ==> Finder.Fold(Provider(t), d, v, targets) == Ok(None)
  {
    if |targets| > 0 {
      FoldIsLookup(t, d, v, targets[..|targets| - 1]);
    }
  }

  /**
    Rules inferred from a two-dimensional sample of pieces: inference succeeds, and each rule entry is the table's socket for
    that direction and piece.
  */
  lemma FinderUsesTable(t: SocketTable, source: seq<nat>, size: seq<nat>)
    requires |size| == 2
    requires forall i :: 0 <= i < |source| ==> PieceOf(source[i]).Some?
    requires Finder.WellFormed(Finder.GenericFinder(Provider(t), source, size))
    ensures var r := Finder.Find(Finder.GenericFinder(Provider(t), source, size));
      r.Ok? && forall v, d :: v in r.value && d in r.value[v] ==>
        d < Dims.Count2d && PieceOf(v).Some? && r.value[v][d] == Some(SocketOf(t(PieceOf(v).value), Dims.FromOrdinal2d(d)))
  {
    var f := Finder.GenericFinder(Provider(t), source, size);
    var g := Finder.NeighborGrid(size);
    Finder.FindMeetsReference(f, g);
    forall v, d ensures Finder.Fold(f.provider, d, v, Finder.Targets(f, g, v, d, |source|)).Ok? {
      var ts := Finder.Targets(f, g, v, d, |source|);
      if |ts| > 0 {
        TargetsBounded(f, g, v, d, |source|);
        FoldIsLookup(t, d, v, ts);
      }
    }
    var r := Finder.Find(f);
    forall v, d | v in r.value && d in r.value[v]
      ensures d < Dims.Count2d && PieceOf(v).Some? && r.value[v][d] == Some(SocketOf(t(PieceOf(v).value), Dims.FromOrdinal2d(d)))
    {
      TargetsBounded(f, g, v, d, |source|);
      FoldIsLookup(t, d, v, Finder.Targets(f, g, v, d, |source|));
    }
  }

  /** A variant with neighbours listed is a piece of the sample, and the direction is one of the four. */
  lemma {:induction false} TargetsBounded(f: Finder.GenericFinder<Socket, Socket>, g: seq<seq<Option<nat>>>, v: nat, d: nat, n: nat)
    requires Finder.Fits(f, g) && n <= |f.source|
    requires |f.size| == 2
    requires forall i :: 0 <= i < |f.source| ==> PieceOf(f.source[i]).Some?
    requires |Finder.Targets(f, g, v, d, n)| > 0
    ensures d < Dims.Count2d && PieceOf(v).Some?
  {
    if !(f.source[n - 1] == v && Finder.Adjacent(f, g, n - 1, d)) {
      TargetsBounded(f, g, v, d, n - 1);
    }
  }
}

=== FILE: ordered.dfy ===
/**
  Ordered views of the collections the solver iterates: a `BTreeSet<usize>`
  is visited in increasing order, and an `OrderSet<usize>` is a sequence
  without repetitions.
*/
module Ordered {

  /** No element occurs twice. */
  predicate NoDup(s: seq<nat>)
  {
    forall i, j :: 0 <= i < j < |s| ==> s[i] != s[j]
  }

  /** Strictly increasing, hence free of repetitions. */
  predicate Increasing(s: seq<nat>)
  {
    forall i, j :: 0 <= i < j < |s| ==> s[i] < s[j]
  }

  /** Every non-empty set of naturals has a least element. */
  lemma MinExists(s: set<nat>)
    requires s != {}
    ensures exists m :: m in s && forall x :: x in s ==> m <= x
  {
    var y :| y in s;
    MinAtMost(s, y);
  }

  /** Descending from any member reaches a least element: a smaller member has a smaller value. */
  lemma {:induction false} MinAtMost(s: set<nat>, y: nat)
    requires y in s
    ensures exists m :: m in s && forall x :: x in s ==> m <= x
    decreases y
  {
    if exists z :: z in s && z < y {
      var z :| z in s && z < y;
      MinAtMost(s, z);
    } else {
      assert forall x :: x in s ==> y <= x;
    }
  }

  /** The least element: the first one a `BTreeSet` iterator yields. */
  function SetMin(s: set<nat>): (m: nat)
    requires s != {}
    ensures m in s
    ensures forall x :: x in s ==> m <= x
  {
    MinExists(s);
    var m :| m in s && forall x :: x in s ==> m <= x;
    m
  }

  /** Every element of `s` lies above `b`. */
  predicate Above(s: seq<nat>, b: int)
  {
    forall k :: k in s ==> b < k
  }

  /** A list of at most one element `x`, then an increasing list above `x`, is increasing and lies above `b < x`. */
  lemma LeastThenIncreasing(b: int, x: int, here: seq<nat>, rest: seq<nat>)
    requires b < x && (here == [] || here == [x])
    requires Increasing(rest) && Above(rest, x)
    ensures Increasing(here + rest)
    ensures Above(here + rest, b)
  {
    if here != [] {
      forall i, j | 0 <= i < j < |here + rest| ensures (here + rest)[i] < (here + rest)[j] {
        if i > 0 {
          assert (here + rest)[i] == rest[i - 1];
        }
        assert (here + rest)[j] == rest[j - 1];
        assert rest[j - 1] in rest;
      }
    }
  }

  /** The iteration order of a `BTreeSet<usize>`: every element once, increasing. */
  function Sorted(s: set<nat>): (r: seq<nat>)
    ensures |r| == |s|
    ensures forall x :: x in r <==> x in s
    ensures Increasing(r)
    decreases |s|
  {
    if s == {} then []
    else
      var m := SetMin(s);
      var rest := Sorted(s - {m});
      LeastThenIncreasing(m - 1, m, [m], rest);
      [m] + rest
  }

  /** Strictly increasing sequences have no repetitions. */
  lemma IncreasingNoDup(s: seq<nat>)
    requires Increasing(s)
    ensures NoDup(s)
  {
  }

  /** A strictly increasing sequence is determined by its elements. */
  lemma {:induction false} IncreasingUnique(a: seq<nat>, b: seq<nat>)
    requires Increasing(a) && Increasing(b)
    requires forall x :: x in a <==> x in b
    ensures a == b
    decreases |a|
  {
    assert |a| == 0 <==> |b| == 0 by {
      if |a| > 0 {
        assert a[0] in b;
      }
      if |b| > 0 {
        assert b[0] in a;
      }
    }
    if |a| > 0 {
      assert a[0] in b && b[0] in a;
      var i :| 0 <= i < |a| && a[i] == b[0];
      var j :| 0 <= j < |b| && b[j] == a[0];
      assert a[0] == b[0] by {
        assert a[0] <= a[i] && b[0] <= b[j];
      }
      forall x ensures x in a[1..] <==> x in b[1..] {
        if x in a[1..] {
          var k :| 1 <= k < |a| && a[k] == x;
          assert x in b && x != b[0];
        }
        if x in b[1..] {
          var k :| 1 <= k < |b| && b[k] == x;
          assert x in a && x != a[0];
        }
      }
      IncreasingUnique(a[1..], b[1..]);
      assert a == [a[0]] + a[1..] && b == [b[0]] + b[1..];
    }
  }

  /** Position of an element in a sequence (the scan `OrderSet` performs on removal). */
  function IndexOf(s: seq<nat>, x: nat): (i: nat)
    requires x in s
    ensures i < |s| && s[i] == x
    ensures forall j :: 0 <= j < i ==> s[j] != x
  {
    if s[0] == x then 0 else 1 + IndexOf(s[1..], x)
  }
}

=== FILE: rules.dfy ===
/**
  Socket tables (`src/rules.rs`). A `Rule` maps a direction, identified by
  its position in the direction enumeration, to a socket; a `RuleTable`
  maps a variant id to its rule. Rust's `HashMap` becomes a Dafny `map`:
  the table's iteration order never reaches a result.
*/
module Rules {

  type Rule<S> = map<nat, S>

  type RuleTable<S> = map<nat, Rule<S>>

  /**
    `Rule::from_fn`: walks the `count` directions of `D::iter()` in order and
    inserts `f(d)` for each, so every direction gets exactly one socket.
  */
  function FromFn<S>(count: nat, f: nat -> S): (r: Rule<S>)
    ensures forall d: nat :: d in r <==> d < count
    ensures forall d :: d in r ==> r[d] == f(d)
  {
    if count == 0 then map[] else FromFn(count - 1, f)[count - 1 := f(count - 1)]
  }

  /**
    `Rule::splat`: the same socket in every direction. `Rule::from_default`
    is this function applied to `S::default()`.
  */
  function Splat<S>(count: nat, x: S): (r: Rule<S>)
    ensures forall d: nat :: d in r <==> d < count
    ensures forall d :: d in r ==> r[d] == x
  {
    FromFn(count, _ => x)
  }

  /** Some pair of the sequence has key `d`. */
  predicate HasKey<S>(pairs: seq<(nat, S)>, d: nat)
  {
    exists i :: 0 <= i < |pairs| && pairs[i].0 == d
  }

  /** Pair `i` is the last one with its key. */
  predicate LastWithKey<S>(pairs: seq<(nat, S)>, i: nat)
    requires i < |pairs|
  {
    forall j :: i < j < |pairs| ==> pairs[j].0 != pairs[i].0
  }

  /**
    `FromIterator` for `Rule` (`HashMap::from_iter`): pairs are inserted in
    order, so a later pair for the same direction overwrites an earlier one.
  */
  function FromIter<S>(pairs: seq<(nat, S)>): (r: map<nat, S>)
    ensures forall d :: d in r <==> HasKey(pairs, d)
    ensures forall i :: 0 <= i < |pairs| && LastWithKey(pairs, i) ==> pairs[i].0 in r && r[pairs[i].0] == pairs[i].1
    decreases |pairs|
  {
    if |pairs| == 0 then map[]
    else
      var init := pairs[..|pairs| - 1];
      var last := pairs[|pairs| - 1];
      var prev := FromIter(init);
      var r := prev[last.0 := last.1];
      FromIterStep(pairs, prev, r);
      r
  }

  /** The inductive step of `FromIter`: inserting the last pair into the map built from the others. */
  lemma FromIterStep<S>(pairs: seq<(nat, S)>, prev: map<nat, S>, r: map<nat, S>)
    requires |pairs| > 0
    requires forall d :: d in prev <==> HasKey(pairs[..|pairs| - 1], d)
    requires forall i :: 0 <= i < |pairs| - 1 && LastWithKey(pairs[..|pairs| - 1], i) ==>
               pairs[i].0 in prev && prev[pairs[i].0] == pairs[i].1
    requires r == prev[pairs[|pairs| - 1].0 := pairs[|pairs| - 1].1]
    ensures forall d :: d in r <==> HasKey(pairs, d)
    ensures forall i :: 0 <= i < |pairs| && LastWithKey(pairs, i) ==> pairs[i].0 in r && r[pairs[i].0] == pairs[i].1
  {
    var n := |pairs|;
    var init := pairs[..n - 1];
    forall d ensures d in r <==> HasKey(pairs, d) {
      if HasKey(pairs, d) && d != pairs[n - 1].0 {
        var i :| 0 <= i < n && pairs[i].0 == d;
        assert init[i].0 == d;
      }
      if HasKey(init, d) {
        var i :| 0 <= i < n - 1 && init[i].0 == d;
        assert pairs[i].0 == d;
      }
    }
    forall i | 0 <= i < n && LastWithKey(pairs, i) ensures pairs[i].0 in r && r[pairs[i].0] == pairs[i].1 {
      if i < n - 1 {
        assert pairs[n - 1].0 != pairs[i].0;
        assert LastWithKey(init, i);
      }
    }
  }

  /** `Rules::sockets`: every socket value of every rule, gathered into one set. */
  function Sockets<S(==)>(rules: RuleTable<S>): (r: set<S>)
    ensures forall v :: v in rules ==> rules[v].Values <= r
    ensures forall s :: s in r ==> exists v :: v in rules && s in rules[v].Values
  {
    set v, d | v in rules && d in rules[v] :: rules[v][d]
  }

  /**
    `From<HashMap<V, IntoRule>>` for `Rules`: each entry's value goes through
    its `Into<Rule>` conversion; `Rules::new` is the case where that
    conversion is the identity.
  */
  function FromMap<A, S>(m: map<nat, A>, into: A -> Rule<S>): (r: RuleTable<S>)
    ensures r.Keys == m.Keys
    ensures forall v :: v in r ==> r[v] == into(m[v])
  {
    map v | v in m :: into(m[v])
  }

  /** A table of splatted rules offers exactly the splatted sockets. */
  lemma SocketsOfSplats<S>(count: nat, xs: map<nat, S>)
    requires count > 0
    ensures Sockets(FromMap(xs, (x: S) => Splat(count, x))) == xs.Values
  {
    var rules := FromMap(xs, (x: S) => Splat(count, x));
    forall s | s in xs.Values ensures s in Sockets(rules) {
      var v :| v in xs && xs[v] == s;
      assert rules[v][0] == s;
    }
  }
}

=== FILE: selection.dfy ===
/**
  Cell selection and adjustment (`src/prebuilt/arbiters.rs`, and the same
  algorithms under newer names in `src/prebuilt/processing.rs`): arbiters
  (observers) pick a lowest-entropy cell and collapse it, adjusters
  (modifiers) react to each chosen variant.

  The seeded ChaCha20 generator becomes a `Stream`: draw number `n` of the
  generator seeded with `seed` is `stream(seed, n)`. A generator is its seed
  and the number of draws made so far; a uniform pick from `k` items uses
  `draw % k`, and a weighted pick locates `draw % total` among the
  cumulative weights.
*/
module Selection {
  import opened Wrappers
  import opened Ordered
  import opened Errors
  import opened CellStore
  import Shapes

  /** The random source: draw `n` of the stream seeded with `seed`. */
  type Stream = (nat, nat) -> nat

  /** `ChaCha20Rng` as its seed and the number of draws it has made. */
  datatype Rng = Rng(seed: nat, drawn: nat)

  /** One draw: the next value of the stream, and the generator one step on. */
  function Draw(rng: Rng, stream: Stream): (r: (nat, Rng))
    ensures r.1.seed == rng.seed && r.1.drawn == rng.drawn + 1
  {
    (stream(rng.seed, rng.drawn), Rng(rng.seed, rng.drawn + 1))
  }

  /**
    `k` successive draws: they read the stream of the generator's seed at
    positions `drawn, drawn + 1, ..., drawn + k - 1`, in that order, and
    leave the generator `k` draws further on.
  */
  function Draws(rng: Rng, stream: Stream, k: nat): (r: (seq<nat>, Rng))
    ensures |r.0| == k && r.1 == Rng(rng.seed, rng.drawn + k)
    ensures forall j :: 0 <= j < k ==> r.0[j] == stream(rng.seed, rng.drawn + j)
    decreases k
  {
    if k == 0 then ([], rng)
    else
      var (x, next) := Draw(rng, stream);
      var (rest, last) := Draws(next, stream, k - 1);
      ([x] + rest, last)
  }

  // ---------------------------------------------------------------------------
  // Weighted choice

  /** The sum of a weight list. */
  function Sum(ws: seq<nat>): nat
  {
    if |ws| == 0 then 0 else ws[0] + Sum(ws[1..])
  }

  /**
    The item a cumulative-weight search lands on: the one whose interval
    `[Sum(ws[..k]), Sum(ws[..k]) + ws[k])` contains `target`. An item of
    weight 0 has an empty interval and is never picked.
  */
  function Pick(ws: seq<nat>, target: nat): (k: nat)
    requires target < Sum(ws)
    ensures k < |ws| && ws[k] > 0
    ensures Sum(ws[..k]) <= target < Sum(ws[..k]) + ws[k]
    decreases |ws|
  {
    if target < ws[0] then
      assert Sum(ws[..0]) == 0;
      0
    else
      var k := Pick(ws[1..], target - ws[0]);
      assert ws[..k + 1][1..] == ws[1..][..k];
      k + 1
  }

  /**
    `choose_weighted`: fails when every weight is 0 (the empty list
    included) and otherwise returns the index of a positively weighted item.
  */
  function ChooseWeighted(ws: seq<nat>, draw: nat): (r: Option<nat>)
    ensures r.None? <==> Sum(ws) == 0
    ensures r.Some? ==> r.value < |ws| && ws[r.value] > 0
  {
    if Sum(ws) == 0 then None else Some(Pick(ws, draw % Sum(ws)))
  }

  /** Extending a prefix by one item adds that item's weight. */
  lemma {:induction false} SumSnoc(ws: seq<nat>, k: nat)
    requires k < |ws|
    ensures Sum(ws[..k + 1]) == Sum(ws[..k]) + ws[k]
  {
    if k > 0 {
      SumSnoc(ws[1..], k - 1);
      assert ws[..k + 1][1..] == ws[1..][..k];
      assert ws[..k][1..] == ws[1..][..k - 1];
    }
  }

  /** Prefix sums never decrease. */
  lemma {:induction false} SumPrefixMono(ws: seq<nat>, j: nat, k: nat)
    requires j <= k <= |ws|
    ensures Sum(ws[..j]) <= Sum(ws[..k])
    decreases k - j
  {
    if j < k {
      SumSnoc(ws, j);
      SumPrefixMono(ws, j + 1, k);
    }
  }

  /**
    The intervals of the items do not overlap, so the item whose interval
    holds `target` is the one `Pick` returns.
  */
  lemma PickUnique(ws: seq<nat>, target: nat, k: nat)
    requires k < |ws| && Sum(ws[..k]) <= target < Sum(ws[..k]) + ws[k]
    ensures target < Sum(ws) && Pick(ws, target) == k
  {
    SumSnoc(ws, k);
    SumPrefixMono(ws, k + 1, |ws|);
    assert ws[..|ws|] == ws;
    var j := Pick(ws, target);
    if j < k {
      SumSnoc(ws, j);
      SumPrefixMono(ws, j + 1, k);
    } else if k < j {
      SumPrefixMono(ws, k + 1, j);
    }
  }

  // ---------------------------------------------------------------------------
  // Selectors

  /**
    Every arbiter and adjuster. `Random` and `Weighted` are `RandomArbiter`
    and `WeightArbiter` (`RandomObserver`, `WeightedObserver`); `Limit` is
    `LimitAdjuster` (`LimitMod`) with the remaining count per variant id;
    `MultiPhase` is `MultiPhaseArbitration` (`Chain`); `Pair` is the tuple
    adjuster.
  */
  datatype Selector =
    | Random(rng: Rng)
    | Weighted(rng: Rng, shape: Shapes.Shape)
    | Limit(limits: map<nat, nat>)
    | MultiPhase(arbiter: Selector, adjuster: Selector)
    | Pair(first: Selector, second: Selector)

  /** The selectors that implement `Arbiter` (`Observer`) and so can designate a cell. */
  predicate IsArbiter(s: Selector)
  {
    match s
    case Random(_) => true
    case Weighted(_, _) => true
    case MultiPhase(a, _) => IsArbiter(a)
    case _ => false
  }

  /**
    `RandomArbiter::new`: the given seed, or else `drawnSeed`, the value the
    thread-local generator would produce.
  */
  function NewRandom(seed: Option<nat>, drawnSeed: nat): (r: Selector)
    ensures r.Random? && r.rng.drawn == 0
    ensures seed.Some? ==> Seed(r) == seed.value
    ensures seed.None? ==> Seed(r) == drawnSeed
  {
    Random(Rng(if seed.Some? then seed.value else drawnSeed, 0))
  }

  /** `WeightArbiter::new`: as `NewRandom`, with a shape. */
  function NewWeighted(seed: Option<nat>, drawnSeed: nat, shape: Shapes.Shape): (r: Selector)
    ensures r.Weighted? && r.rng.drawn == 0 && r.shape == shape
    ensures seed.Some? ==> Seed(r) == seed.value
    ensures seed.None? ==> Seed(r) == drawnSeed
  {
    Weighted(Rng(if seed.Some? then seed.value else drawnSeed, 0), shape)
  }

  /** `seed()`. */
  function Seed(s: Selector): nat
    requires s.Random? || s.Weighted?
  {
    s.rng.seed
  }

  /**
    `chain`: an arbiter becomes the arbiter of a multi-phase selector, a
    multi-phase selector appends to its adjusters, and a limit or a pair
    forms a pair with the new adjuster.
  */
  function Chain(s: Selector, other: Selector): (r: Selector)
  {
    match s
    case Random(_) => MultiPhase(s, other)
    case Weighted(_, _) => MultiPhase(s, other)
    case Limit(_) => Pair(s, other)
    case MultiPhase(a, j) => MultiPhase(a, Pair(j, other))
    case Pair(_, _) => Pair(s, other)
  }

  // ---------------------------------------------------------------------------
  // designate / observe

  /** The selector after a designation, the store, and the outcome. */
  datatype Designation = Designation(selector: Selector, cells: Cells, outcome: Result<Option<nat>, Error>)

  /** `after` is `before` with cell `i` collapsed to one of its own possibilities. */
  predicate CollapsedFrom(before: Cells, after: Cells, i: nat)
  {
    i < |before.list| && 1 <= before.list[i].entropy <= |before.levels|
    && i < |after.list|
    && SelectedVariant(after.list[i]).Some?
    && SelectedVariant(after.list[i]).value in before.list[i].possibilities
    && Collapse(before, i, Ok(SelectedVariant(after.list[i]).value)) == Ok(after)
  }

  /** Selectors with the same structure and seeds. */
  predicate SameSeeds(a: Selector, b: Selector)
  {
    match a
    case Random(r) => b.Random? && b.rng.seed == r.seed
    case Weighted(r, shape) => b.Weighted? && b.rng.seed == r.seed && b.shape == shape
    case MultiPhase(x, j) => b.MultiPhase? && SameSeeds(x, b.arbiter) && b.adjuster == j
    case _ => b == a
  }

  /**
    The designation step shared by both arbiters, once the generator and the
    variant choice are fixed: the lowest level's cell at `draw` collapses to
    the variant `choose` picks from its possibilities in increasing order.
  */
  function DesignateWith(rng: Rng, c: Cells, stream: Stream, shape: Option<Shapes.Shape>): (r: (Rng, Cells, Result<Option<nat>, Error>))
    requires Valid(c)
  {
    match LowestEntropyIndexes(c)
    case None => (rng, c, Ok(None))
    case Some(level) =>
      var (d1, rng1) := Draw(rng, stream);
      var index := level[d1 % |level|];
      assert index in level;
      var options := Sorted(c.list[index].possibilities);
      match shape
      case None =>
        if |options| == 0 then (rng1, c, Err(NoPossibilities))
        else
          var (d2, rng2) := Draw(rng1, stream);
          var v := options[d2 % |options|];
          assert v in options;
          (rng2, Collapse(c, index, Ok(v)).value, Ok(Some(index)))
      case Some(sh) =>
        var ws := seq(|options|, k requires 0 <= k < |options| => Shapes.Weight(sh, options[k]));
        if Sum(ws) == 0 then (rng1, c, Err(NoPossibilities))
        else
          var (d2, rng2) := Draw(rng1, stream);
          var k := ChooseWeighted(ws, d2).value;
          assert options[k] in options;
          (rng2, Collapse(c, index, Ok(options[k])).value, Ok(Some(index)))
  }

  /**
    `designate` / `observe`. With every cell collapsed there is nothing to
    do. Otherwise the chosen index is in the lowest entropy level; on success
    that cell is collapsed to one of its own possibilities and nothing else
    changes; on failure the store is untouched and the error is
    `NoPossibilities`. A multi-phase selector delegates to its arbiter.
    Seeds never change.
  */
  function Designate(s: Selector, c: Cells, stream: Stream): (r: Designation)
    requires IsArbiter(s) && Valid(c)
    ensures IsArbiter(r.selector) && SameSeeds(s, r.selector)
    ensures LowestEntropyIndexes(c).None? ==> r.cells == c && r.outcome == Ok(None)
    ensures LowestEntropyIndexes(c).Some? ==> r.outcome != Ok(None)
    ensures r.outcome.Err? ==> r.cells == c && r.outcome.error == NoPossibilities
    ensures r.outcome.Ok? && r.outcome.value.Some? ==>
              LowestEntropyIndexes(c).Some? && r.outcome.value.value in LowestEntropyIndexes(c).value
              && CollapsedFrom(c, r.cells, r.outcome.value.value)
    decreases s
  {
    match s
    case Random(rng) =>
      var (rng', c', outcome) := DesignateWith(rng, c, stream, None);
      Designation(Random(rng'), c', outcome)
    case Weighted(rng, shape) =>
      var (rng', c', outcome) := DesignateWith(rng, c, stream, Some(shape));
      Designation(Weighted(rng', shape), c', outcome)
    case MultiPhase(a, j) =>
      var r := Designate(a, c, stream);
      Designation(MultiPhase(r.selector, j), r.cells, r.outcome)
  }

  /** Designating keeps the store consistent. */
  lemma DesignatePreservesValid(s: Selector, c: Cells, stream: Stream)
    requires IsArbiter(s) && Valid(c)
    ensures Valid(Designate(s, c, stream).cells)
  {
    var r := Designate(s, c, stream);
    if r.outcome.Ok? && r.outcome.value.Some? {
      var i := r.outcome.value.value;
      CollapsePreservesValid(c, i, SelectedVariant(r.cells.list[i]).value);
    }
  }

  /**
    A uniform arbiter never fails: every cell in the cache is uncollapsed and
    so has a possibility to pick.
  */
  lemma RandomNeverFails(rng: Rng, c: Cells, stream: Stream)
    requires Valid(c)
    ensures Designate(Random(rng), c, stream).outcome.Ok?
  {
    match LowestEntropyIndexes(c)
    case None =>
    case Some(level) =>
      var index := level[stream(rng.seed, rng.drawn) % |level|];
      assert index in level;
      LowestIsMinimal(c);
      assert CellValid(c.list[index], |c.levels|);
      assert |Sorted(c.list[index].possibilities)| > 0;
  }

  /** A weighted arbiter only ever collapses a cell to a variant of positive weight. */
  lemma WeightedPicksPositive(rng: Rng, shape: Shapes.Shape, c: Cells, stream: Stream)
    requires Valid(c)
    ensures var r := Designate(Weighted(rng, shape), c, stream);
            r.outcome.Ok? && r.outcome.value.Some? ==>
              Shapes.Weight(shape, SelectedVariant(r.cells.list[r.outcome.value.value]).value) > 0
  {
  }

  // ---------------------------------------------------------------------------
  // revise / modify

  /** What limit pruning does to one cell: a collapsed cell is left alone, an uncollapsed one loses `v`. */
  function PruneCell(cell: Cell, v: nat): Cell
  {
    if IsCollapsed(cell) then cell else RemoveVariant(cell, v)
  }

  /**
    One iteration of the pruning loop, with the cache update for a cell that
    loses its last possibility corrected: the cell leaves the cache, as every
    cell whose entropy reaches 0 does.
  */
  function PruneStep(c: Cells, v: nat, i: nat): (r: Cells)
    requires Valid(c) && i < |c.list|
    ensures Valid(r) && r.size == c.size && |r.list| == |c.list| && |r.levels| == |c.levels|
    ensures r.list[i] == PruneCell(c.list[i], v)
    ensures forall j :: 0 <= j < |c.list| && j != i ==> r.list[j] == c.list[j]
  {
    var cell := c.list[i];
    if IsCollapsed(cell) then c
    else
      assert CellValid(cell, |c.levels|);
      var pruned := RemoveVariant(cell, v);
      assert |pruned.possibilities| <= |cell.possibilities| by {
        assert pruned.possibilities <= cell.possibilities;
      }
      if pruned.entropy == 0 then
        var r := Cells(c.size, c.list[i := pruned], ClearEntry(c.levels, cell.entropy, i));
        PruneToEmptyValid(c, i, pruned, r);
        r
      else
        var r := Cells(c.size, c.list[i := pruned], CacheSet(c.levels, cell.entropy, i, pruned.entropy));
        ShrinkPreservesValid(c, i, pruned, r);
        r
  }

  /** Pruning a cell down to nothing and clearing its cache entry keeps the store consistent. */
  lemma PruneToEmptyValid(c: Cells, i: nat, pruned: Cell, r: Cells)
    requires Valid(c) && i < |c.list| && 1 <= c.list[i].entropy <= |c.levels|
    requires pruned.entropy == 0 && pruned.possibilities == {}
    requires r == Cells(c.size, c.list[i := pruned], ClearEntry(c.levels, c.list[i].entropy, i))
    ensures Valid(r)
  {
    forall j | 0 <= j < |r.list| ensures CellValid(r.list[j], |r.levels|) {
      if j != i {
        assert CellValid(c.list[j], |c.levels|);
      }
    }
    forall e: nat, x: nat | e < |r.levels| && x in r.levels[e]
      ensures x < |r.list| && r.list[x].entropy == e + 1
    {
      assert x in c.levels[e];
    }
    forall j | 0 <= j < |r.list| && 0 < r.list[j].entropy <= |r.levels|
      ensures j in r.levels[r.list[j].entropy - 1]
    {
      assert j != i;
      assert j in c.levels[c.list[j].entropy - 1];
    }
  }

  /** The pruning loop over the first `k` cells, in index order. */
  function PruneUpTo(c: Cells, v: nat, k: nat): (r: Cells)
    requires Valid(c) && k <= |c.list|
    ensures Valid(r) && r.size == c.size && |r.list| == |c.list| && |r.levels| == |c.levels|
    ensures forall j :: 0 <= j < k ==> r.list[j] == PruneCell(c.list[j], v)
    ensures forall j :: k <= j < |c.list| ==> r.list[j] == c.list[j]
  {
    if k == 0 then c
    else
      var prev := PruneUpTo(c, v, k - 1);
      var r := PruneStep(prev, v, k - 1);
      PruneOneMore(c, v, k, prev, r);
      r
  }

  /** One more iteration of the pruning loop extends the pruned prefix by cell `k - 1`. */
  lemma PruneOneMore(c: Cells, v: nat, k: nat, prev: Cells, r: Cells)
    requires 0 < k <= |c.list| && |prev.list| == |c.list|
    requires forall j :: 0 <= j < k - 1 ==> prev.list[j] == PruneCell(c.list[j], v)
    requires forall j :: k - 1 <= j < |c.list| ==> prev.list[j] == c.list[j]
    requires |r.list| == |c.list| && r.list[k - 1] == PruneCell(prev.list[k - 1], v)
    requires forall j :: 0 <= j < |c.list| && j != k - 1 ==> r.list[j] == prev.list[j]
    ensures forall j :: 0 <= j < k ==> r.list[j] == PruneCell(c.list[j], v)
    ensures forall j :: k <= j < |c.list| ==> r.list[j] == c.list[j]
  {
  }

  /**
    Limit pruning (corrected): `v` leaves every uncollapsed cell, nothing
    else leaves any cell, collapsed cells are untouched, and the store stays
    consistent.
  */
  function Prune(c: Cells, v: nat): (r: Cells)
    requires Valid(c)
    ensures Valid(r) && r.size == c.size && |r.list| == |c.list| && |r.levels| == |c.levels|
    ensures forall j :: 0 <= j < |c.list| ==> r.list[j] == PruneCell(c.list[j], v)
  {
    PruneUpTo(c, v, |c.list|)
  }

  /**
    One iteration of the pruning loop as written: `None` stands for the
    panic of `EntropyCache::set` with a new entropy of 0.
  */
  function PruneStepAsWritten(c: Cells, v: nat, i: nat): (r: Option<Cells>)
    requires Valid(c) && i < |c.list|
    ensures r.None? <==> !IsCollapsed(c.list[i]) && c.list[i].possibilities <= {v}
    ensures r.Some? ==> r.value == PruneStep(c, v, i)
  {
    var cell := c.list[i];
    if IsCollapsed(cell) then Some(c)
    else
      var pruned := RemoveVariant(cell, v);
      if pruned.entropy == 0 then None
      else
        assert CellValid(cell, |c.levels|);
        Some(Cells(c.size, c.list[i := pruned], CacheSet(c.levels, cell.entropy, i, pruned.entropy)))
  }

  /** The pruning loop as written over the first `k` cells. */
  function PruneUpToAsWritten(c: Cells, v: nat, k: nat): (r: Option<Cells>)
    requires Valid(c) && k <= |c.list|
    ensures r.None? <==> exists j :: 0 <= j < k && !IsCollapsed(c.list[j]) && c.list[j].possibilities <= {v}
    ensures r.Some? ==> r.value == PruneUpTo(c, v, k)
  {
    if k == 0 then Some(c)
    else
      match PruneUpToAsWritten(c, v, k - 1)
      case None => None
      case Some(prev) =>
        assert prev.list[k - 1] == c.list[k - 1];
        var r := PruneStepAsWritten(prev, v, k - 1);
        assert r.Some? ==> r.value == PruneUpTo(c, v, k);
        r
  }

  /**
    Limit pruning as written: it panics exactly when some uncollapsed cell
    holds nothing but `v`, and otherwise agrees with `Prune`.
  */
  function PruneAsWritten(c: Cells, v: nat): (r: Option<Cells>)
    requires Valid(c)
    ensures r.None? <==> exists j :: 0 <= j < |c.list| && !IsCollapsed(c.list[j]) && c.list[j].possibilities <= {v}
    ensures r.Some? ==> r.value == Prune(c, v)
  {
    PruneUpToAsWritten(c, v, |c.list|)
  }

  /**
    A consistent one-cell store whose only cell is uncollapsed with the single
    possibility 7: pruning 7 as written panics, the corrected pruning empties
    the cell and takes it out of the cache.
  */
  lemma PruneLastPossibility(c: Cells)
    requires c == Cells([1], [Cell({7}, 1)], [[0]])
    ensures Valid(c)
    ensures PruneAsWritten(c, 7).None?
    ensures Prune(c, 7).list[0] == Cell({}, 0) && Prune(c, 7).levels == [[]]
  {
    assert Geometry.Len([1]) == 1 by {
      assert [1][..0] == [];
    }
    assert !IsCollapsed(c.list[0]) && c.list[0].possibilities <= {7};
    var r := Prune(c, 7);
    assert r.list[0] == Cell({}, 0);
    assert 0 !in r.levels[0];
  }

  /** The limit count after one use: `saturating_sub(1)`. */
  function Decrement(n: nat): (r: nat)
    ensures r == if n == 0 then 0 else n - 1
  {
    if n == 0 then 0 else n - 1
  }

  /** The selector and the store after a revision. */
  datatype Revision = Revision(selector: Selector, cells: Cells)

  /**
    `revise` / `modify`: arbiters do nothing; a limit without an entry for
    `v` does nothing, otherwise its count drops (saturating at 0) and, once
    it is 0, `v` is pruned; a multi-phase selector revises its adjuster; a
    pair revises its first part, then its second.
  */
  function Revise(s: Selector, v: nat, c: Cells): (r: Revision)
    requires Valid(c)
    ensures Valid(r.cells) && r.cells.size == c.size && |r.cells.list| == |c.list|
    ensures forall i :: 0 <= i < |c.list| ==> r.cells.list[i].possibilities <= c.list[i].possibilities
    ensures forall i :: 0 <= i < |c.list| && IsCollapsed(c.list[i]) ==> r.cells.list[i] == c.list[i]
    ensures forall i, u :: 0 <= i < |c.list| && u in c.list[i].possibilities && u != v ==> u in r.cells.list[i].possibilities
    ensures IsArbiter(s) ==> IsArbiter(r.selector)
    ensures s.Random? || s.Weighted? ==> r == Revision(s, c)
    ensures s.MultiPhase? ==> r.selector.MultiPhase? && r.selector.arbiter == s.arbiter
    decreases s
  {
    match s
    case Random(_) => Revision(s, c)
    case Weighted(_, _) => Revision(s, c)
    case Limit(limits) =>
      if v !in limits then Revision(s, c)
      else
        var left := Decrement(limits[v]);
        if left > 0 then Revision(Limit(limits[v := left]), c)
        else Revision(Limit(limits[v := left]), Prune(c, v))
    case MultiPhase(a, j) =>
      var r := Revise(j, v, c);
      Revision(MultiPhase(a, r.selector), r.cells)
    case Pair(x, y) =>
      var r1 := Revise(x, v, c);
      var r2 := Revise(y, v, r1.cells);
      Revision(Pair(r1.selector, r2.selector), r2.cells)
  }

  /**
    The limit adjuster: an untracked variant changes nothing; a tracked one
    counts down, saturating at 0; pruning happens exactly when the count
    reaches 0, and then removes only `v`, only from uncollapsed cells.
  */
  lemma LimitRevise(limits: map<nat, nat>, v: nat, c: Cells)
    requires Valid(c)
    ensures v !in limits ==> Revise(Limit(limits), v, c) == Revision(Limit(limits), c)
    ensures v in limits ==>
              var r := Revise(Limit(limits), v, c);
              r.selector == Limit(limits[v := Decrement(limits[v])])
              && (limits[v] > 1 ==> r.cells == c)
              && (limits[v] <= 1 ==> forall i :: 0 <= i < |c.list| ==> r.cells.list[i] == PruneCell(c.list[i], v))
  {
  }

  /**
    `chain` appends: the chained selector designates as the original does,
    and revises as the original followed by the appended adjuster.
  */
  lemma {:induction false} ChainRunsInOrder(s: Selector, other: Selector, v: nat, c: Cells, stream: Stream)
    requires Valid(c)
    ensures Revise(Chain(s, other), v, c).cells == Revise(other, v, Revise(s, v, c).cells).cells
    ensures IsArbiter(s) ==> IsArbiter(Chain(s, other))
    ensures IsArbiter(s) ==>
              Designate(Chain(s, other), c, stream).cells == Designate(s, c, stream).cells
              && Designate(Chain(s, other), c, stream).outcome == Designate(s, c, stream).outcome
  {
    ChainRevises(s, other, v, c);
    if IsArbiter(s) {
      ChainDesignates(s, other, c, stream);
    }
  }

  /** The chained selector revises as the original followed by the appended adjuster. */
  lemma ChainRevises(s: Selector, other: Selector, v: nat, c: Cells)
    requires Valid(c)
    ensures Revise(Chain(s, other), v, c).cells == Revise(other, v, Revise(s, v, c).cells).cells
  {
    if s.MultiPhase? {
      ChainRevisesMultiPhase(s, other, v, c);
    } else if s.Random? || s.Weighted? {
      assert Chain(s, other) == MultiPhase(s, other);
      ReviseMultiPhaseUnfold(s, other, v, c);
    } else {
      assert Chain(s, other) == Pair(s, other);
      RevisePairUnfold(s, other, v, c);
    }
  }

  /** Chaining onto a multi-phase selector appends to its adjuster. */
  lemma ChainRevisesMultiPhase(s: Selector, other: Selector, v: nat, c: Cells)
    requires Valid(c) && s.MultiPhase?
    ensures Revise(Chain(s, other), v, c).cells == Revise(other, v, Revise(s, v, c).cells).cells
  {
    assert Chain(s, other) == MultiPhase(s.arbiter, Pair(s.adjuster, other));
    ReviseMultiPhaseUnfold(s.arbiter, Pair(s.adjuster, other), v, c);
    ReviseMultiPhaseUnfold(s.arbiter, s.adjuster, v, c);
    RevisePairUnfold(s.adjuster, other, v, c);
  }

  /** A multi-phase selector revises through its adjuster; an arbiter revises nothing. */
  lemma ReviseMultiPhaseUnfold(a: Selector, j: Selector, v: nat, c: Cells)
    requires Valid(c)
    ensures Revise(MultiPhase(a, j), v, c).cells == Revise(j, v, c).cells
    ensures a.Random? || a.Weighted? ==> Revise(a, v, c).cells == c
  {
  }

  /** A pair revises its first part, then its second on the first part's store. */
  lemma RevisePairUnfold(x: Selector, y: Selector, v: nat, c: Cells)
    requires Valid(c)
    ensures Revise(Pair(x, y), v, c).cells == Revise(y, v, Revise(x, v, c).cells).cells
  {
    var r1 := Revise(x, v, c);
    var r2 := Revise(y, v, r1.cells);
    assert Revise(Pair(x, y), v, c) == Revision(Pair(r1.selector, r2.selector), r2.cells);
  }

  /** Chaining onto an arbiter keeps an arbiter that designates as the original does. */
  lemma ChainDesignates(s: Selector, other: Selector, c: Cells, stream: Stream)
    requires Valid(c) && IsArbiter(s)
    ensures IsArbiter(Chain(s, other))
    ensures Designate(Chain(s, other), c, stream).cells == Designate(s, c, stream).cells
    ensures Designate(Chain(s, other), c, stream).outcome == Designate(s, c, stream).outcome
  {
    match s
    case Random(_) =>
    case Weighted(_, _) =>
    case MultiPhase(a, j) =>
  }
}

=== FILE: shapes.dfy ===
/**
  Weight shapes (`src/prebuilt/shapes.rs`): how much a variant weighs when a
  weighted selection picks among a cell's possibilities. Weights are
  naturals, and `W::default()` is 0.
*/
module Shapes {
  import Rules

  /**
    `WeightedShape`: a fixed weight per variant id. `MultiShape`: the sum of
    two shapes.
  */
  datatype Shape =
    | Weighted(weights: map<nat, nat>)
    | Multi(first: Shape, second: Shape)

  /**
    `WeightedShape::new`: the given (variant id, weight) pairs collected into
    a map, a later pair for the same variant replacing an earlier one.
  */
  function NewWeighted(pairs: seq<(nat, nat)>): (r: Shape)
    ensures r.Weighted?
    ensures forall v :: v in r.weights <==> Rules.HasKey(pairs, v)
    ensures forall i :: 0 <= i < |pairs| && Rules.LastWithKey(pairs, i) ==>
              pairs[i].0 in r.weights && r.weights[pairs[i].0] == pairs[i].1
  {
    Weighted(Rules.FromIter(pairs))
  }

  /**
    `Shape::weight`. The modelled shapes never look at the cell index or the
    grid, so neither is a parameter.
  */
  function Weight(shape: Shape, v: nat): (w: nat)
    ensures shape.Weighted? && v !in shape.weights ==> w == 0
  {
    match shape
    case Weighted(weights) => if v in weights then weights[v] else 0
    case Multi(first, second) => Weight(first, v) + Weight(second, v)
  }

  /**
    A weighted shape gives the listed weight, and 0 for an unlisted variant;
    a multi-shape adds its parts, so it weighs 0 exactly when both parts do.
  */
  lemma WeightLaws(weights: map<nat, nat>, a: Shape, b: Shape, v: nat)
    ensures v in weights ==> Weight(Weighted(weights), v) == weights[v]
    ensures v !in weights ==> Weight(Weighted(weights), v) == 0
    ensures Weight(Multi(a, b), v) == 0 <==> Weight(a, v) == 0 && Weight(b, v) == 0
    ensures Weight(Multi(a, b), v) == Weight(Multi(b, a), v)
  {
  }

  /** The weight of a multi-shape is at least that of each part. */
  lemma MultiDominates(a: Shape, b: Shape, v: nat)
    ensures Weight(Multi(a, b), v) >= Weight(a, v)
    ensures Weight(Multi(a, b), v) >= Weight(b, v)
  {
  }

  /** `(0..range).map(|n| (n + 1).pow(2)).sum()`. */
  function EstimatedNeighbors(range: nat): (r: nat)
    ensures range > 0 ==> r >= range
  {
    if range == 0 then 0 else EstimatedNeighbors(range - 1) + range * range
  }

  /** The estimate is the sum of the first `range` squares, range(range + 1)(2 range + 1) / 6. */
  lemma {:induction false} EstimatedNeighborsClosedForm(range: nat)
    ensures 6 * EstimatedNeighbors(range) == range * (range + 1) * (2 * range + 1)
  {
    if range > 0 {
      EstimatedNeighborsClosedForm(range - 1);
      SquareStep(range - 1);
    }
  }

  /** Going from `r` to `r + 1` adds `6 (r + 1)^2` to `r (r + 1)(2r + 1)`. */
  lemma SquareStep(r: int)
    ensures (r + 1) * (r + 2) * (2 * r + 3) == r * (r + 1) * (2 * r + 1) + 6 * ((r + 1) * (r + 1))
  {
    var a := r + 1;
    assert (r + 2) * (2 * r + 3) == r * (2 * r + 1) + 6 * a by {
      assert (r + 2) * (2 * r + 3) == 2 * (r * r) + 7 * r + 6;
      assert r * (2 * r + 1) == 2 * (r * r) + r;
    }
    assert a * ((r + 2) * (2 * r + 3)) == a * (r * (2 * r + 1)) + a * (6 * a);
  }
}

=== FILE: state.dfy ===
/**
  The solver state (`src/state.rs`): the builder, the socket cache, the
  narrowing of one cell by a neighbour, propagation, and one collapse step.

  The abstract rules are a `RuleTable<nat>`: variant id to direction id to
  socket id. The constraint is a function parameter of the shape of
  `Constraint::check`. A neighbour's direction id `d` is the direction from
  the cell being propagated to that neighbour; `OppositeIndex(d)` points back.
*/
module Solver {
  import opened Wrappers
  import opened Geometry
  import opened Ordered
  import opened Errors
  import opened CellStore
  import Rules
  import Constraints
  import Selection

  /** The abstract rules: variant id to direction id to socket id. */
  type Table = Rules.RuleTable<nat>

  /** `Constraint::check` on socket ids. */
  type Check = Constraints.Check<nat>

  // ---------------------------------------------------------------------------
  // Socket cache

  /**
    The sockets a set of variants offers toward `dir`: one per variant that
    has a rule with a socket in that direction, and none for the others.
  */
  function SocketsToward(rules: Table, variants: set<nat>, dir: nat): (r: set<nat>)
    ensures forall v :: v in variants && v in rules && dir in rules[v] ==> rules[v][dir] in r
    ensures forall s :: s in r ==> exists v :: v in variants && v in rules && dir in rules[v] && rules[v][dir] == s
  {
    set v | v in variants && v in rules && dir in rules[v] :: rules[v][dir]
  }

  /** `SocketCache`: variant set to direction to the sockets it offers that way. */
  type SocketCache = map<set<nat>, map<nat, set<nat>>>

  /** Every cached entry is the socket union it stands for. */
  predicate Coherent(cache: SocketCache, rules: Table)
  {
    forall k, d :: k in cache && d in cache[k] ==> cache[k][d] == SocketsToward(rules, k, d)
  }

  /** Every entry of `cache` is still in `after`, with the same value. */
  predicate Extends(cache: SocketCache, after: SocketCache)
  {
    forall k, d :: k in cache && d in cache[k] ==> k in after && d in after[k] && after[k][d] == cache[k][d]
  }

  /**
    `SocketCache::lookup`: nothing for an unknown variant set; otherwise the
    entry for `dir` if there is one, which in a coherent cache is the socket
    union it caches.
  */
  function Lookup(cache: SocketCache, rules: Table, variants: set<nat>, dir: nat): (r: Option<Option<set<nat>>>)
    ensures r.None? <==> variants !in cache
    ensures r.Some? ==> (r.value.Some? <==> dir in cache[variants])
    ensures Coherent(cache, rules) && r.Some? && r.value.Some? ==> r.value.value == SocketsToward(rules, variants, dir)
  {
    if variants !in cache then None
    else if dir in cache[variants] then Some(Some(cache[variants][dir]))
    else Some(None)
  }

  /** `entry(dir).or_insert_with(..)` on the direction map of one variant set. */
  function OrInsert(dirs: map<nat, set<nat>>, rules: Table, variants: set<nat>, dir: nat): (r: (set<nat>, map<nat, set<nat>>))
    ensures dir in r.1 && r.1[dir] == r.0 && r.1.Keys == dirs.Keys + {dir}
    ensures forall d :: d in dirs ==> r.1[d] == dirs[d]
    ensures dir !in dirs ==> r.0 == SocketsToward(rules, variants, dir)
  {
    if dir in dirs then (dirs[dir], dirs)
    else
      var s := SocketsToward(rules, variants, dir);
      (s, dirs[dir := s])
  }

  /**
    `SocketCache::full_create`: makes room for the variant set if it is new
    and computes its entry for `dir` unless one exists. Existing entries
    survive, and a coherent cache stays coherent.
  */
  function FullCreate(cache: SocketCache, rules: Table, variants: set<nat>, dir: nat): (r: (set<nat>, SocketCache))
    ensures r.1.Keys == cache.Keys + {variants}
    ensures variants in r.1 && dir in r.1[variants] && r.1[variants][dir] == r.0
    ensures Extends(cache, r.1)
    ensures Coherent(cache, rules) ==> Coherent(r.1, rules) && r.0 == SocketsToward(rules, variants, dir)
  {
    var dirs := if variants in cache then cache[variants] else map[];
    var (s, dirs') := OrInsert(dirs, rules, variants, dir);
    (s, cache[variants := dirs'])
  }

  /**
    `SocketCache::partial_create`: the variant set is known (the source
    unwraps its lookup); only its entry for `dir` may be added.
  */
  function PartialCreate(cache: SocketCache, rules: Table, variants: set<nat>, dir: nat): (r: (set<nat>, SocketCache))
    requires variants in cache
    ensures r.1.Keys == cache.Keys
    ensures dir in r.1[variants] && r.1[variants][dir] == r.0
    ensures Extends(cache, r.1)
    ensures Coherent(cache, rules) ==> Coherent(r.1, rules) && r.0 == SocketsToward(rules, variants, dir)
  {
    var (s, dirs') := OrInsert(cache[variants], rules, variants, dir);
    (s, cache[variants := dirs'])
  }

  /**
    The sockets the neighbour's possibilities offer, through the cache: a
    hit is used as is, a miss is computed and stored. Through a coherent
    cache the answer is always the socket union itself.
  */
  function NeighborSockets(cache: SocketCache, rules: Table, variants: set<nat>, dir: nat): (r: (set<nat>, SocketCache))
    ensures Extends(cache, r.1)
    ensures Coherent(cache, rules) ==> Coherent(r.1, rules) && r.0 == SocketsToward(rules, variants, dir)
  {
    match Lookup(cache, rules, variants, dir)
    case Some(Some(s)) => (s, cache)
    case Some(None) => PartialCreate(cache, rules, variants, dir)
    case None => FullCreate(cache, rules, variants, dir)
  }

  // ---------------------------------------------------------------------------
  // constrain

  /**
    Variant `v` may stay: it has a rule, the rule has a socket toward `dir`,
    and the constraint accepts that socket against the offered sockets.
  */
  predicate Admits(rules: Table, check: Check, v: nat, dir: nat, sockets: set<nat>)
  {
    v in rules && dir in rules[v] && check(rules[v][dir], sockets)
  }

  /**
    `State::constrain`: the cell keeps the possibilities whose socket toward
    the neighbour the constraint accepts against the sockets the neighbour's
    possibilities offer toward the cell (`dir` points from the neighbour to
    the cell). Keeping none is a contradiction that names both positions,
    the direction toward the neighbour, the neighbour's variants in
    increasing order and the offered sockets.
  */
  function Constrain(cell: Cell, position: IPos, check: Check, neighborPossibilities: set<nat>, dir: nat,
                     rules: Table, cache: SocketCache): (r: (Result<Cell, Error>, SocketCache))
    requires Axis(dir) < |position|
    ensures Extends(cache, r.1)
    ensures r.0.Err? ==> r.0.error.Contradiction?
    ensures r.0.Ok? ==> r.0.value.possibilities <= cell.possibilities && r.0.value.possibilities != {}
                        && r.0.value.entropy == |r.0.value.possibilities|
    ensures Coherent(cache, rules) ==>
              var sockets := SocketsToward(rules, neighborPossibilities, dir);
              var opposite := OppositeIndex(dir);
              Coherent(r.1, rules)
              && (r.0.Ok? <==> exists v :: v in cell.possibilities && Admits(rules, check, v, opposite, sockets))
              && (r.0.Ok? ==> forall v :: v in r.0.value.possibilities <==>
                                v in cell.possibilities && Admits(rules, check, v, opposite, sockets))
              && (r.0.Err? ==> r.0.error == Contradiction(position, Add(position, opposite), opposite,
                                                           Sorted(neighborPossibilities), sockets))
  {
    var (sockets, cache') := NeighborSockets(cache, rules, neighborPossibilities, dir);
    var opposite := OppositeIndex(dir);
    var kept := set v | v in cell.possibilities && Admits(rules, check, v, opposite, sockets);
    if kept == {} then
      (Err(Contradiction(position, Add(position, opposite), opposite, Sorted(neighborPossibilities), sockets)), cache')
    else
      (Ok(cell.(possibilities := kept, entropy := |kept|)), cache')
  }

  // ---------------------------------------------------------------------------
  // Arc consistency

  /**
    The arc from a cell with possibilities `source` to a neighbour with
    possibilities `target` in direction `dir` holds: every possibility of
    the neighbour is admitted against what the cell offers toward it.
  */
  predicate ArcOk(rules: Table, check: Check, source: set<nat>, target: set<nat>, dir: nat)
  {
    forall v :: v in target ==> Admits(rules, check, v, OppositeIndex(dir), SocketsToward(rules, source, dir))
  }

  /**
    Cell `n` cannot keep any possibility against `source`, the possibilities
    of the cell `d` points away from, and `e` is the contradiction that
    reports it: the cell's position, the position and direction back toward
    the source cell, the source's variants in increasing order and the
    sockets they offer.
  */
  predicate Blocks(rules: Table, check: Check, c: Cells, n: nat, d: nat, source: set<nat>, e: Error)
    requires |c.list| == Len(c.size) && n < |c.list| && d < 2 * |c.size|
  {
    var sockets := SocketsToward(rules, source, d);
    var position := Position(c.size, n);
    (forall v :: v in c.list[n].possibilities ==> !Admits(rules, check, v, OppositeIndex(d), sockets))
    && e == Contradiction(position, Add(position, OppositeIndex(d)), OppositeIndex(d), Sorted(source), sockets)
  }

  /** In `c`, the `k`-th neighbour of cell `u` is uncollapsed and `u` blocks it, as `e` reports. */
  predicate StuckAt(rules: Table, check: Check, c: Cells, u: nat, k: nat, e: Error)
    requires |c.list| == Len(c.size) && u < |c.list|
  {
    var ns := NeighborsOf(c.size, u);
    k < |ns| && !IsCollapsed(c.list[ns[k].index])
    && Blocks(rules, check, c, ns[k].index, ns[k].dir, c.list[u].possibilities, e)
  }

  /**
    `e` is a genuine contradiction reached from `c`: some narrowing of `c`
    has a cell that blocks an uncollapsed neighbour, and `e` reports it.
  */
  ghost predicate Refuted(rules: Table, check: Check, c: Cells, e: Error)
  {
    exists s: Cells, u: nat, k: nat ::
      Valid(s) && s.size == c.size && Narrowed(c.list, s.list) && u < |s.list| && StuckAt(rules, check, s, u, k, e)
  }

  /** A contradiction reached from a narrowing of `c` is reached from `c`. */
  lemma RefutedTrans(rules: Table, check: Check, c: Cells, d: Cells, e: Error)
    requires d.size == c.size && Narrowed(c.list, d.list) && Refuted(rules, check, d, e)
    ensures Refuted(rules, check, c, e)
  {
    var s: Cells, u: nat, k: nat :|
      Valid(s) && s.size == d.size && Narrowed(d.list, s.list) && u < |s.list| && StuckAt(rules, check, s, u, k, e);
    NarrowedTrans(c.list, d.list, s.list);
  }

  /** Every arc from cell `u` to an uncollapsed neighbour holds. */
  predicate ArcsFromOk(rules: Table, check: Check, c: Cells, u: nat)
    requires |c.list| == Len(c.size) && u < |c.list|
  {
    var ns := NeighborsOf(c.size, u);
    forall k :: 0 <= k < |ns| && !IsCollapsed(c.list[ns[k].index]) ==>
      ArcOk(rules, check, c.list[u].possibilities, c.list[ns[k].index].possibilities, ns[k].dir)
  }

  /** Every arc holds, except perhaps those leaving a cell listed in `pending`. */
  predicate ConsistentExcept(rules: Table, check: Check, c: Cells, pending: seq<nat>)
    requires |c.list| == Len(c.size)
  {
    forall u :: 0 <= u < |c.list| && u !in pending ==> ArcsFromOk(rules, check, c, u)
  }

  /** Every arc into an uncollapsed cell holds. */
  predicate Consistent(rules: Table, check: Check, c: Cells)
    requires |c.list| == Len(c.size)
  {
    ConsistentExcept(rules, check, c, [])
  }

  /** Listing more cells as pending never breaks `ConsistentExcept`. */
  lemma ConsistentExceptWeaken(rules: Table, check: Check, c: Cells, p: seq<nat>, q: seq<nat>)
    requires |c.list| == Len(c.size)
    requires ConsistentExcept(rules, check, c, p)
    requires forall x :: x in p ==> x in q
    ensures ConsistentExcept(rules, check, c, q)
  {
  }

  /**
    `b` narrows `a`: possibilities only shrink, a collapsed cell stays as it
    was, and no cell becomes collapsed.
  */
  predicate Narrowed(a: seq<Cell>, b: seq<Cell>)
  {
    |b| == |a|
    && forall i :: 0 <= i < |a| ==>
         b[i].possibilities <= a[i].possibilities
         && (IsCollapsed(a[i]) ==> b[i] == a[i])
         && (IsCollapsed(b[i]) ==> IsCollapsed(a[i]))
  }

  /** Narrowing one uncollapsed cell to an uncollapsed subset extends a narrowing. */
  lemma NarrowedOne(a: seq<Cell>, b: seq<Cell>, n: nat, x: Cell)
    requires Narrowed(a, b) && n < |b|
    requires x.possibilities <= b[n].possibilities && !IsCollapsed(x) && !IsCollapsed(b[n])
    ensures Narrowed(a, b[n := x])
  {
  }

  /**
    Narrowing some cells keeps every arc that does not leave one of them:
    arcs into a narrowed cell only lose possibilities to check, and no other
    cell changed.
  */
  lemma NarrowKeepsOtherArcs(rules: Table, check: Check, c: Cells, d: Cells, changed: seq<nat>, pending: seq<nat>)
    requires |c.list| == Len(c.size) && d.size == c.size
    requires Narrowed(c.list, d.list)
    requires forall i :: 0 <= i < |c.list| && i !in changed ==> d.list[i] == c.list[i]
    requires ConsistentExcept(rules, check, c, pending)
    ensures ConsistentExcept(rules, check, d, pending + changed)
  {
    forall u | 0 <= u < |d.list| && u !in pending + changed ensures ArcsFromOk(rules, check, d, u) {
      assert u !in pending;
      assert ArcsFromOk(rules, check, c, u);
    }
  }

  /** A subset is no larger than its superset. */
  lemma {:induction false} SubsetSize(a: set<nat>, b: set<nat>)
    requires a <= b
    ensures |a| <= |b|
    decreases b
  {
    if a != {} {
      var x :| x in a;
      SubsetSize(a - {x}, b - {x});
    }
  }

  /** A subset as large as its superset is the superset. */
  lemma SubsetSameSize(a: set<nat>, b: set<nat>)
    requires a <= b && |a| == |b|
    ensures a == b
  {
    if a != b {
      var x :| x in b && x !in a;
      SubsetSize(a, b - {x});
    }
  }

  /** The total number of possibilities left in the store: what propagation decreases. */
  function TotalPossibilities(list: seq<Cell>): nat
  {
    if |list| == 0 then 0 else |list[0].possibilities| + TotalPossibilities(list[1..])
  }

  /** Replacing one cell changes the total by the difference in its possibility count. */
  lemma {:induction false} TotalPossibilitiesUpdate(list: seq<Cell>, i: nat, x: Cell)
    requires i < |list|
    ensures TotalPossibilities(list[i := x]) + |list[i].possibilities| == TotalPossibilities(list) + |x.possibilities|
  {
    if i == 0 {
      assert list[i := x][1..] == list[1..];
    } else {
      TotalPossibilitiesUpdate(list[1..], i - 1, x);
      assert list[i := x][1..] == list[1..][i - 1 := x];
    }
  }

  // ---------------------------------------------------------------------------
  // propagate

  /** The neighbours whose cell is uncollapsed, in their original order. */
  function UncollapsedOnly(c: Cells, ns: seq<Neighbor>): (r: seq<Neighbor>)
    requires forall k :: 0 <= k < |ns| ==> ns[k].index < |c.list|
    ensures forall k :: 0 <= k < |r| ==> r[k] in ns && r[k].index < |c.list| && !IsCollapsed(c.list[r[k].index])
    ensures forall k :: 0 <= k < |ns| && !IsCollapsed(c.list[ns[k].index]) ==> ns[k] in r
  {
    if |ns| == 0 then []
    else
      var rest := UncollapsedOnly(c, ns[1..]);
      assert forall k :: 0 <= k < |rest| ==> rest[k] in ns by {
        forall k | 0 <= k < |rest| ensures rest[k] in ns {
          assert rest[k] in ns[1..];
        }
      }
      assert forall k :: 1 <= k < |ns| ==> ns[k] == ns[1..][k - 1];
      if IsCollapsed(c.list[ns[0].index]) then rest else [ns[0]] + rest
  }

  /**
    Once every uncollapsed neighbour of `u` (as seen when `u` was popped)
    has been narrowed against it, every arc leaving `u` holds.
  */
  lemma FinishPop(rules: Table, check: Check, popped: Cells, cur: Cells, u: nat, ns: seq<Neighbor>)
    requires |popped.list| == Len(popped.size) && cur.size == popped.size && u < |popped.list|
    requires Narrowed(popped.list, cur.list)
    requires ns == UncollapsedOnly(popped, NeighborsOf(popped.size, u))
    requires ArcsUpTo(rules, check, cur, u, ns, |ns|)
    ensures ArcsFromOk(rules, check, cur, u)
  {
    NarrowedArcs(rules, check, popped, cur, u, NeighborsOf(cur.size, u), ns);
  }

  /** `FinishPop` over any neighbour list: a narrowed cell that is uncollapsed now was uncollapsed when popped. */
  lemma NarrowedArcs(rules: Table, check: Check, popped: Cells, cur: Cells, u: nat, all: seq<Neighbor>, ns: seq<Neighbor>)
    requires |cur.list| == |popped.list| && u < |popped.list|
    requires forall k :: 0 <= k < |all| ==> all[k].index < |popped.list|
    requires Narrowed(popped.list, cur.list)
    requires ns == UncollapsedOnly(popped, all)
    requires ArcsUpTo(rules, check, cur, u, ns, |ns|)
    ensures forall k :: 0 <= k < |all| && !IsCollapsed(cur.list[all[k].index]) ==>
              ArcOk(rules, check, cur.list[u].possibilities, cur.list[all[k].index].possibilities, all[k].dir)
  {
    forall k | 0 <= k < |all| && !IsCollapsed(cur.list[all[k].index])
      ensures ArcOk(rules, check, cur.list[u].possibilities, cur.list[all[k].index].possibilities, all[k].dir)
    {
      assert !IsCollapsed(popped.list[all[k].index]);
      assert all[k] in ns;
      var j :| 0 <= j < |ns| && ns[j] == all[k];
    }
  }

  /** Narrowing is transitive. */
  lemma NarrowedTrans(a: seq<Cell>, b: seq<Cell>, c: seq<Cell>)
    requires Narrowed(a, b) && Narrowed(b, c)
    ensures Narrowed(a, c)
  {
  }

  /**
    One neighbour of a popped cell: cell `n` is narrowed against `source`,
    the possibilities of the cell `d` points away from. Reports whether it
    lost a possibility; if not, nothing changed. Through a coherent cache the
    arc into `n` holds afterwards.
  */
  function NarrowAt(c: Cells, n: nat, d: nat, source: set<nat>, rules: Table, check: Check, cache: SocketCache)
    : (r: (Result<(Cells, bool), Error>, SocketCache))
    requires Valid(c) && n < |c.list| && d < 2 * |c.size| && !IsCollapsed(c.list[n])
    ensures Coherent(cache, rules) ==> Coherent(r.1, rules)
    ensures r.0.Err? ==> r.0.error.Contradiction?
    ensures r.0.Ok? ==>
              var next := r.0.value.0;
              Valid(next) && next.size == c.size && Narrowed(c.list, next.list)
              && (forall i :: 0 <= i < |c.list| && i != n ==> next.list[i] == c.list[i])
              && (r.0.value.1 ==> TotalPossibilities(next.list) < TotalPossibilities(c.list))
              && (!r.0.value.1 ==> next == c)
              && (Coherent(cache, rules) ==> ArcOk(rules, check, source, next.list[n].possibilities, d))
    ensures r.0.Err? && Coherent(cache, rules) ==> Blocks(rules, check, c, n, d, source, r.0.error)
  {
    var cell := c.list[n];
    assert CellValid(cell, |c.levels|);
    var step := Constrain(cell, Position(c.size, n), check, source, d, rules, cache);
    match step.0
    case Err(e) => (Err(e), step.1)
    case Ok(narrowed) =>
      SubsetSize(narrowed.possibilities, cell.possibilities);
      if narrowed.entropy != cell.entropy then
        var next := SetEntropy(c.(list := c.list[n := narrowed]), cell.entropy, n, narrowed.entropy);
        NarrowOneCell(c, n, narrowed, next);
        (Ok((next, true)), step.1)
      else
        SubsetSameSize(narrowed.possibilities, cell.possibilities);
        (Ok((c, false)), step.1)
  }

  /**
    Replacing an uncollapsed cell by one with strictly fewer possibilities
    (and re-filing it in the entropy cache) keeps the store valid, narrows
    it, changes no other cell and lowers the total.
  */
  lemma NarrowOneCell(c: Cells, n: nat, narrowed: Cell, next: Cells)
    requires Valid(c) && n < |c.list| && !IsCollapsed(c.list[n])
    requires narrowed.possibilities <= c.list[n].possibilities && narrowed.possibilities != {}
    requires narrowed.entropy == |narrowed.possibilities| && narrowed.entropy < c.list[n].entropy <= |c.levels|
    requires next == SetEntropy(c.(list := c.list[n := narrowed]), c.list[n].entropy, n, narrowed.entropy)
    ensures Valid(next) && next.size == c.size && Narrowed(c.list, next.list)
    ensures forall i :: 0 <= i < |c.list| && i != n ==> next.list[i] == c.list[i]
    ensures next.list[n] == narrowed
    ensures TotalPossibilities(next.list) < TotalPossibilities(c.list)
  {
    var cell := c.list[n];
    assert CellValid(cell, |c.levels|);
    SubsetSize(narrowed.possibilities, cell.possibilities);
    ShrinkPreservesValid(c, n, narrowed, next);
    NarrowedRefl(c.list);
    NarrowedOne(c.list, c.list, n, narrowed);
    TotalPossibilitiesUpdate(c.list, n, narrowed);
  }

  /** A narrowing keeps a narrowing relation with any earlier store. */
  lemma NarrowedRefl(a: seq<Cell>)
    ensures Narrowed(a, a)
  {
  }

  /** An arc still holds after its target loses possibilities. */
  lemma ArcOkNarrowTarget(rules: Table, check: Check, source: set<nat>, target: set<nat>, smaller: set<nat>, dir: nat)
    requires ArcOk(rules, check, source, target, dir) && smaller <= target
    ensures ArcOk(rules, check, source, smaller, dir)
  {
  }

  /** The arcs from `u` to the first `k` listed neighbours hold. */
  predicate ArcsUpTo(rules: Table, check: Check, c: Cells, u: nat, ns: seq<Neighbor>, k: nat)
    requires u < |c.list| && k <= |ns|
    requires forall j :: 0 <= j < |ns| ==> ns[j].index < |c.list|
  {
    forall j :: 0 <= j < k ==> ArcOk(rules, check, c.list[u].possibilities, c.list[ns[j].index].possibilities, ns[j].dir)
  }

  /** Narrowing neighbour `k` against `u` extends the arcs that hold by one. */
  lemma ArcsUpToStep(rules: Table, check: Check, prev: Cells, next: Cells, u: nat, ns: seq<Neighbor>, k: nat)
    requires |prev.list| == |next.list| && u < |prev.list| && k < |ns|
    requires forall j :: 0 <= j < |ns| ==> ns[j].index < |prev.list|
    requires next.list[u] == prev.list[u]
    requires forall i :: 0 <= i < |prev.list| && i != ns[k].index ==> next.list[i] == prev.list[i]
    requires next.list[ns[k].index].possibilities <= prev.list[ns[k].index].possibilities
    requires ArcsUpTo(rules, check, prev, u, ns, k)
    requires ArcOk(rules, check, prev.list[u].possibilities, next.list[ns[k].index].possibilities, ns[k].dir)
    ensures ArcsUpTo(rules, check, next, u, ns, k + 1)
  {
    var source := prev.list[u].possibilities;
    forall j | 0 <= j < k + 1
      ensures ArcOk(rules, check, source, next.list[ns[j].index].possibilities, ns[j].dir)
    {
      if j < k {
        var m := ns[j].index;
        assert ArcOk(rules, check, source, prev.list[m].possibilities, ns[j].dir);
        if m == ns[k].index {
          ArcOkNarrowTarget(rules, check, source, prev.list[m].possibilities, next.list[m].possibilities, ns[j].dir);
        }
      }
    }
  }

  /**
    Where a pop stands after its first `k` neighbours: the store is
    consistent and narrows the popped one, the popped cell is unchanged,
    every changed cell is listed in `pushed`, each listed cell cost at least
    one possibility, and (through a coherent cache) the arcs to the first
    `k` neighbours hold.
  */
  predicate Visited(popped: Cells, u: nat, ns: seq<Neighbor>, k: nat, cur: Cells, pushed: seq<nat>,
                    rules: Table, check: Check, coherent: bool)
    requires u < |popped.list| && k <= |ns|
    requires forall j :: 0 <= j < |ns| ==> ns[j].index < |popped.list|
  {
    Valid(cur) && cur.size == popped.size && Narrowed(popped.list, cur.list)
    && cur.list[u] == popped.list[u]
    && (forall x :: 0 <= x < |pushed| ==> pushed[x] < |popped.list|)
    && (forall i :: 0 <= i < |popped.list| && i !in pushed ==> cur.list[i] == popped.list[i])
    && TotalPossibilities(cur.list) + |pushed| <= TotalPossibilities(popped.list)
    && (coherent ==> ArcsUpTo(rules, check, cur, u, ns, k))
  }

  /** The facts `NarrowAt` establishes carry `Visited` one neighbour further. */
  lemma VisitedStep(popped: Cells, u: nat, ns: seq<Neighbor>, k: nat, cur: Cells, pushed: seq<nat>,
                    next: Cells, changed: bool, rules: Table, check: Check, coherent: bool)
    requires u < |popped.list| && k < |ns|
    requires forall j :: 0 <= j < |ns| ==> ns[j].index < |popped.list|
    requires Visited(popped, u, ns, k, cur, pushed, rules, check, coherent)
    requires ns[k].index != u
    requires Valid(next) && next.size == cur.size && Narrowed(cur.list, next.list)
    requires forall i :: 0 <= i < |cur.list| && i != ns[k].index ==> next.list[i] == cur.list[i]
    requires changed ==> TotalPossibilities(next.list) < TotalPossibilities(cur.list)
    requires !changed ==> next == cur
    requires coherent ==> ArcOk(rules, check, cur.list[u].possibilities, next.list[ns[k].index].possibilities, ns[k].dir)
    ensures Visited(popped, u, ns, k + 1, next, if changed then pushed + [ns[k].index] else pushed, rules, check, coherent)
  {
    var n := ns[k].index;
    var pushed' := if changed then pushed + [n] else pushed;
    NarrowedTrans(popped.list, cur.list, next.list);
    forall i | 0 <= i < |popped.list| && i !in pushed' ensures next.list[i] == popped.list[i] {
      assert i !in pushed;
      if changed {
        assert i != n;
      }
    }
    if coherent {
      ArcsUpToStep(rules, check, cur, next, u, ns, k);
    }
  }

  /** Where a listed neighbour sits in the neighbour list. */
  lemma NeighborPlace(size: Size, u: nat, x: Neighbor) returns (j: nat)
    requires u < Len(size) && x in NeighborsOf(size, u)
    ensures j < |NeighborsOf(size, u)| && NeighborsOf(size, u)[j] == x
  {
    var all := NeighborsOf(size, u);
    j :| 0 <= j < |all| && all[j] == x;
  }

  /** One neighbour of a pop: narrow it, and list it if it lost a possibility. */
  method VisitNeighbor(popped: Cells, u: nat, ns: seq<Neighbor>, k: nat, cur: Cells, pushed: seq<nat>,
                       cache: SocketCache, rules: Table, check: Check, ghost coherent: bool)
    returns (err: Option<Error>, next: Cells, pushedOut: seq<nat>, cacheOut: SocketCache)
    requires Valid(popped) && u < |popped.list| && k < |ns|
    requires ns == UncollapsedOnly(popped, NeighborsOf(popped.size, u))
    requires Visited(popped, u, ns, k, cur, pushed, rules, check, coherent)
    requires coherent ==> Coherent(cache, rules)
    ensures coherent ==> Coherent(cacheOut, rules)
    ensures err.Some? ==> err.value.Contradiction?
    ensures err.None? ==> Visited(popped, u, ns, k + 1, next, pushedOut, rules, check, coherent)
    ensures err.Some? && coherent ==> Refuted(rules, check, popped, err.value)
  {
    var n := ns[k].index;
    var d := ns[k].dir;
    ghost var j := NeighborPlace(popped.size, u, ns[k]);
    var step := NarrowAt(cur, n, d, cur.list[u].possibilities, rules, check, cache);
    cacheOut := step.1;
    if step.0.Err? {
      if coherent {
        assert StuckAt(rules, check, cur, u, j, step.0.error);
      }
      return Some(step.0.error), cur, pushed, cacheOut;
    }
    next := step.0.value.0;
    VisitedStep(popped, u, ns, k, cur, pushed, next, step.0.value.1, rules, check, coherent);
    pushedOut := if step.0.value.1 then pushed + [n] else pushed;
    err := None;
  }

  /**
    The body of one pop: narrows each uncollapsed neighbour of `u` against
    it, and lists (in `pushed`) every neighbour that lost a possibility.
    Cells not listed are unchanged, every listed one lost at least one
    possibility, and, through a coherent cache, every arc leaving `u` holds
    afterwards.
  */
  method NarrowNeighbors(popped: Cells, u: nat, cache: SocketCache, rules: Table, check: Check)
    returns (r: Result<Cells, Error>, cacheOut: SocketCache, pushed: seq<nat>)
    requires Valid(popped) && u < |popped.list|
    ensures Coherent(cache, rules) ==> Coherent(cacheOut, rules)
    ensures r.Err? ==> r.error.Contradiction?
    ensures r.Ok? ==> Valid(r.value) && r.value.size == popped.size && Narrowed(popped.list, r.value.list)
    ensures r.Ok? ==> forall x :: 0 <= x < |pushed| ==> pushed[x] < |popped.list|
    ensures r.Ok? ==> forall i :: 0 <= i < |popped.list| && i !in pushed ==> r.value.list[i] == popped.list[i]
    ensures r.Ok? ==> TotalPossibilities(r.value.list) + |pushed| <= TotalPossibilities(popped.list)
    ensures r.Ok? && Coherent(cache, rules) ==> ArcsFromOk(rules, check, r.value, u)
    ensures r.Err? && Coherent(cache, rules) ==> Refuted(rules, check, popped, r.error)
  {
    var cur := popped;
    cacheOut := cache;
    pushed := [];
    ghost var coherent := Coherent(cache, rules);
    var ns := UncollapsedOnly(popped, NeighborsOf(popped.size, u));
    var k := 0;
    NarrowedRefl(popped.list);
    while k < |ns|
      invariant 0 <= k <= |ns|
      invariant Visited(popped, u, ns, k, cur, pushed, rules, check, coherent)
      invariant coherent ==> Coherent(cacheOut, rules)
    {
      var err;
      err, cur, pushed, cacheOut := VisitNeighbor(popped, u, ns, k, cur, pushed, cacheOut, rules, check, coherent);
      if err.Some? {
        return Err(err.value), cacheOut, pushed;
      }
      k := k + 1;
    }
    if coherent {
      FinishPop(rules, check, popped, cur, u, ns);
    }
    r := Ok(cur);
  }

  /**
    `State::propagate`: starting from cell `index`, pops a cell, narrows its
    uncollapsed neighbours against it, and pushes each neighbour that lost a
    possibility. On success the store has only been narrowed and, through a
    coherent cache, every arc leaving `index` holds, every arc that held
    before still holds, and so the store is consistent when the only arcs
    out of order left `index`. The cache stays coherent. The only failure is
    a contradiction, which through a coherent cache is a genuine one.
  */
  method Propagate(c: Cells, cache: SocketCache, rules: Table, check: Check, index: nat)
    returns (r: Result<Cells, Error>, cacheOut: SocketCache)
    requires Valid(c) && index < |c.list|
    ensures Coherent(cache, rules) ==> Coherent(cacheOut, rules)
    ensures r.Ok? ==> Valid(r.value) && r.value.size == c.size && Narrowed(c.list, r.value.list)
    ensures r.Ok? && Coherent(cache, rules) ==> ArcsFromOk(rules, check, r.value, index)
    ensures r.Ok? && Coherent(cache, rules) ==> KeepsArcs(rules, check, c, r.value)
    ensures r.Ok? && Coherent(cache, rules) && ConsistentExcept(rules, check, c, [index]) ==>
              Consistent(rules, check, r.value)
    ensures r.Err? ==> r.error.Contradiction?
    ensures r.Err? && Coherent(cache, rules) ==> Refuted(rules, check, c, r.error)
  {
    var cur := c;
    cacheOut := cache;
    var stack: seq<nat> := [index];
    ghost var coherent := Coherent(cache, rules);
    ghost var among := set u | 0 <= u < |c.list| && (u == index || ArcsFromOk(rules, check, c, u));
    NarrowedRefl(c.list);
    while |stack| > 0
      invariant Valid(cur) && cur.size == c.size && Narrowed(c.list, cur.list)
      invariant forall x :: 0 <= x < |stack| ==> stack[x] < |cur.list|
      invariant coherent ==> Coherent(cacheOut, rules) && HeldExcept(rules, check, cur, among, stack)
      decreases TotalPossibilities(cur.list) + |stack|
    {
      var next, cache', stack' := PopOnce(cur, cacheOut, rules, check, stack, among, coherent);
      cacheOut := cache';
      if next.Err? {
        if coherent {
          RefutedTrans(rules, check, c, cur, next.error);
        }
        return Err(next.error), cacheOut;
      }
      NarrowedTrans(c.list, cur.list, next.value.list);
      cur, stack := next.value, stack';
    }
    if coherent {
      HeldAll(rules, check, c, cur, among, index);
    }
    r := Ok(cur);
  }

  /**
    One round of `propagate`: pops the last cell of the stack, narrows its
    neighbours against it and pushes those that lost a possibility. The
    store only narrows, the arcs tracked in `among` stay in order but for
    the cells now on the stack, and possibilities plus stack height drop.
  */
  method PopOnce(cur: Cells, cache: SocketCache, rules: Table, check: Check, stack: seq<nat>,
                 ghost among: set<nat>, ghost coherent: bool)
    returns (r: Result<Cells, Error>, cacheOut: SocketCache, stackOut: seq<nat>)
    requires Valid(cur) && |stack| > 0 && forall x :: 0 <= x < |stack| ==> stack[x] < |cur.list|
    requires coherent ==> Coherent(cache, rules) && HeldExcept(rules, check, cur, among, stack)
    ensures coherent ==> Coherent(cacheOut, rules)
    ensures r.Ok? ==> Valid(r.value) && r.value.size == cur.size && Narrowed(cur.list, r.value.list)
    ensures r.Ok? ==> forall x :: 0 <= x < |stackOut| ==> stackOut[x] < |cur.list|
    ensures r.Ok? && coherent ==> HeldExcept(rules, check, r.value, among, stackOut)
    ensures r.Ok? ==> TotalPossibilities(r.value.list) + |stackOut| < TotalPossibilities(cur.list) + |stack|
    ensures r.Err? ==> r.error.Contradiction?
    ensures r.Err? && coherent ==> Refuted(rules, check, cur, r.error)
  {
    var u := stack[|stack| - 1];
    var rest := stack[..|stack| - 1];
    assert stack == rest + [u];
    var result, cache', pushed := NarrowNeighbors(cur, u, cache, rules, check);
    cacheOut := cache';
    if result.Err? {
      return Err(result.error), cacheOut, stack;
    }
    if coherent {
      PopKeepsHeld(rules, check, cur, result.value, among, rest, u, pushed);
    }
    r, stackOut := Ok(result.value), rest + pushed;
  }

  /** Every arc that held in `c` holds in `d`. */
  predicate KeepsArcs(rules: Table, check: Check, c: Cells, d: Cells)
    requires |c.list| == Len(c.size) && d.size == c.size && |d.list| == |c.list|
  {
    forall u :: 0 <= u < |c.list| && ArcsFromOk(rules, check, c, u) ==> ArcsFromOk(rules, check, d, u)
  }

  /** Every arc leaving a cell of `among` holds, except perhaps those leaving a cell listed in `pending`. */
  predicate HeldExcept(rules: Table, check: Check, c: Cells, among: set<nat>, pending: seq<nat>)
    requires |c.list| == Len(c.size)
  {
    forall u :: 0 <= u < |c.list| && u in among && u !in pending ==> ArcsFromOk(rules, check, c, u)
  }

  /**
    After a pop of `u` whose arcs now hold, the cells of `among` still
    pending are the rest of the stack and the neighbours pushed: the arcs
    leaving any other cell lost only possibilities to check.
  */
  lemma PopKeepsHeld(rules: Table, check: Check, popped: Cells, cur: Cells, among: set<nat>, stack: seq<nat>, u: nat,
                     pushed: seq<nat>)
    requires |popped.list| == Len(popped.size) && cur.size == popped.size && u < |popped.list|
    requires Narrowed(popped.list, cur.list)
    requires forall i :: 0 <= i < |popped.list| && i !in pushed ==> cur.list[i] == popped.list[i]
    requires HeldExcept(rules, check, popped, among, stack + [u])
    requires ArcsFromOk(rules, check, cur, u)
    ensures HeldExcept(rules, check, cur, among, stack + pushed)
  {
    forall w | 0 <= w < |cur.list| && w in among && w !in stack + pushed ensures ArcsFromOk(rules, check, cur, w) {
      if w != u {
        assert w !in stack && w !in pushed by {
          assert forall x :: x in stack ==> x in stack + pushed;
          assert forall x :: x in pushed ==> x in stack + pushed;
        }
        assert w !in stack + [u];
        assert ArcsFromOk(rules, check, popped, w);
        assert cur.list[w] == popped.list[w];
        ArcsFromNarrowed(rules, check, popped, cur, w);
      }
    }
  }

  /** The arcs leaving an unchanged cell survive a narrowing of the others. */
  lemma ArcsFromNarrowed(rules: Table, check: Check, c: Cells, d: Cells, u: nat)
    requires |c.list| == Len(c.size) && d.size == c.size && u < |c.list|
    requires Narrowed(c.list, d.list) && d.list[u] == c.list[u]
    requires ArcsFromOk(rules, check, c, u)
    ensures ArcsFromOk(rules, check, d, u)
  {
  }

  /**
    Once nothing is pending, every cell of `among` (the start cell and the
    cells whose arcs held at first) has its arcs in order; when these are
    all the cells, the store is consistent.
  */
  lemma HeldAll(rules: Table, check: Check, c: Cells, d: Cells, among: set<nat>, index: nat)
    requires |c.list| == Len(c.size) && d.size == c.size && |d.list| == |c.list| && index < |c.list|
    requires among == set u | 0 <= u < |c.list| && (u == index || ArcsFromOk(rules, check, c, u))
    requires HeldExcept(rules, check, d, among, [])
    ensures ArcsFromOk(rules, check, d, index)
    ensures KeepsArcs(rules, check, c, d)
    ensures ConsistentExcept(rules, check, c, [index]) ==> Consistent(rules, check, d)
  {
    assert index in among;
    forall u | 0 <= u < |c.list| && ArcsFromOk(rules, check, c, u) ensures ArcsFromOk(rules, check, d, u) {
      assert u in among && u !in [];
    }
    if ConsistentExcept(rules, check, c, [index]) {
      forall u | 0 <= u < |d.list| ensures ArcsFromOk(rules, check, d, u) {
        if u != index {
          assert u !in [index];
          assert ArcsFromOk(rules, check, c, u);
        }
        assert u in among && u !in [];
      }
    }
  }

  // ---------------------------------------------------------------------------
  // State::new

  /**
    `b` descends from `a` through propagation and revision: possibilities
    only shrink and a collapsed cell stays as it was.
  */
  predicate Shrunk(a: seq<Cell>, b: seq<Cell>)
  {
    |b| == |a|
    && forall i :: 0 <= i < |a| ==>
         b[i].possibilities <= a[i].possibilities && (IsCollapsed(a[i]) ==> b[i] == a[i])
  }

  /** Shrinking is transitive, and a narrowing is a shrinking. */
  lemma ShrunkLaws(a: seq<Cell>, b: seq<Cell>, c: seq<Cell>)
    ensures Shrunk(a, b) && Shrunk(b, c) ==> Shrunk(a, c)
    ensures Narrowed(a, b) ==> Shrunk(a, b)
    ensures Shrunk(a, a)
  {
  }

  /**
    The external variant beyond cell `i` in direction `dir`: the side's
    entry at the wrapped index of the neighbouring position.
  */
  function External(size: Size, dir: nat, ext: seq<nat>, i: nat): nat
    requires i < Len(size) && dir < 2 * |size| && |ext| >= Len(size)
  {
    PositiveLenAllAxes(size);
    ext[IndexIn(Add(Position(size, i), dir), size)]
  }

  /**
    Side `dir` holds in `s` for the face of `c`: every cell uncollapsed in
    `c` on the face `dir` points at keeps, in `s`, only variants whose
    socket toward the outside the constraint accepts against the external
    variant beyond it.
  */
  predicate SideHolds(rules: Table, check: Check, c: Cells, dir: nat, ext: seq<nat>, s: seq<Cell>)
    requires |c.list| == Len(c.size) && dir < 2 * |c.size| && |ext| >= Len(c.size) && |s| == |c.list|
  {
    Len(c.size) > 0 ==>
      forall i :: 0 <= i < |c.list| && OnFace(c, dir, i) ==>
        ArcOk(rules, check, {External(c.size, dir, ext, i)}, s[i].possibilities, OppositeIndex(dir))
  }

  /** The side holds in `s` for the first `j` cells of `indexes`. */
  predicate SideUpTo(rules: Table, check: Check, c: Cells, dir: nat, ext: seq<nat>, indexes: seq<nat>, s: seq<Cell>, j: nat)
    requires |c.list| == Len(c.size) && dir < 2 * |c.size| && |ext| >= Len(c.size) && |s| == |c.list|
    requires j <= |indexes| && forall m :: 0 <= m < |indexes| ==> indexes[m] < |c.list|
  {
    forall m :: 0 <= m < j ==>
      ArcOk(rules, check, {External(c.size, dir, ext, indexes[m])}, s[indexes[m]].possibilities, OppositeIndex(dir))
  }

  /** A side that holds keeps holding while the cells it constrains only shrink. */
  lemma SideUpToShrunk(rules: Table, check: Check, c: Cells, dir: nat, ext: seq<nat>, indexes: seq<nat>,
                       s: seq<Cell>, t: seq<Cell>, j: nat)
    requires |c.list| == Len(c.size) && dir < 2 * |c.size| && |ext| >= Len(c.size) && |s| == |c.list|
    requires j <= |indexes| && forall m :: 0 <= m < |indexes| ==> indexes[m] < |c.list|
    requires Shrunk(s, t) && SideUpTo(rules, check, c, dir, ext, indexes, s, j)
    ensures SideUpTo(rules, check, c, dir, ext, indexes, t, j)
  {
    forall m | 0 <= m < j
      ensures ArcOk(rules, check, {External(c.size, dir, ext, indexes[m])}, t[indexes[m]].possibilities, OppositeIndex(dir))
    {
      var i := indexes[m];
      ArcOkNarrowTarget(rules, check, {External(c.size, dir, ext, i)}, s[i].possibilities, t[i].possibilities, OppositeIndex(dir));
    }
  }

  /** The side holds for one more cell once the arc into that cell holds. */
  lemma SideUpToExtend(rules: Table, check: Check, c: Cells, dir: nat, ext: seq<nat>, indexes: seq<nat>, s: seq<Cell>, j: nat)
    requires |c.list| == Len(c.size) && dir < 2 * |c.size| && |ext| >= Len(c.size) && |s| == |c.list|
    requires j < |indexes| && forall m :: 0 <= m < |indexes| ==> indexes[m] < |c.list|
    requires SideUpTo(rules, check, c, dir, ext, indexes, s, j)
    requires ArcOk(rules, check, {External(c.size, dir, ext, indexes[j])}, s[indexes[j]].possibilities, OppositeIndex(dir))
    ensures SideUpTo(rules, check, c, dir, ext, indexes, s, j + 1)
  {
  }

  /** A side that holds for every cell of the face listing holds for the face. */
  lemma SideFromUpTo(rules: Table, check: Check, c: Cells, dir: nat, ext: seq<nat>, s: seq<Cell>)
    requires |c.list| == Len(c.size) && Len(c.size) > 0 && dir < 2 * |c.size| && |ext| >= Len(c.size) && |s| == |c.list|
    requires forall m :: 0 <= m < |UncollapsedAlongDir(c, dir)| ==> UncollapsedAlongDir(c, dir)[m] < |c.list|
    requires SideUpTo(rules, check, c, dir, ext, UncollapsedAlongDir(c, dir), s, |UncollapsedAlongDir(c, dir)|)
    ensures SideHolds(rules, check, c, dir, ext, s)
  {
    var indexes := UncollapsedAlongDir(c, dir);
    forall i | 0 <= i < |c.list| && OnFace(c, dir, i)
      ensures ArcOk(rules, check, {External(c.size, dir, ext, i)}, s[i].possibilities, OppositeIndex(dir))
    {
      assert i in indexes;
      var m :| 0 <= m < |indexes| && indexes[m] == i;
    }
  }

  /**
    One external side: every uncollapsed cell on the face `dir` points at is
    narrowed against the single external variant beyond it, then propagated
    from. Through a coherent cache the side holds afterwards.
  */
  method ApplySide(c: Cells, cache: SocketCache, rules: Table, check: Check, dir: nat, ext: seq<nat>)
    returns (r: Result<Cells, Error>, cacheOut: SocketCache)
    requires Valid(c) && dir < 2 * |c.size| && |ext| >= Len(c.size)
    ensures Coherent(cache, rules) ==> Coherent(cacheOut, rules)
    ensures r.Ok? ==> Valid(r.value) && r.value.size == c.size && Narrowed(c.list, r.value.list)
    ensures r.Ok? && Coherent(cache, rules) ==> SideHolds(rules, check, c, dir, ext, r.value.list)
    ensures r.Err? ==> r.error.Contradiction?
  {
    cacheOut := cache;
    NarrowedRefl(c.list);
    if Len(c.size) == 0 {
      return Ok(c), cacheOut;
    }
    PositiveLenAllAxes(c.size);
    var indexes := UncollapsedAlongDir(c, dir);
    assert forall m :: 0 <= m < |indexes| ==> indexes[m] < |c.list| by {
      forall m | 0 <= m < |indexes| ensures indexes[m] < |c.list| {
        assert OnFace(c, dir, indexes[m]);
      }
    }
    var cur := c;
    ghost var coherent := Coherent(cache, rules);
    var j := 0;
    while j < |indexes|
      invariant 0 <= j <= |indexes|
      invariant Valid(cur) && cur.size == c.size && Narrowed(c.list, cur.list)
      invariant coherent ==> Coherent(cacheOut, rules) && SideUpTo(rules, check, c, dir, ext, indexes, cur.list, j)
    {
      var next, cache' := FaceStep(c, cur, cacheOut, rules, check, dir, ext, indexes, j, coherent);
      cacheOut := cache';
      if next.Err? {
        return Err(next.error), cacheOut;
      }
      NarrowedTrans(c.list, cur.list, next.value.list);
      cur := next.value;
      j := j + 1;
    }
    if coherent {
      SideFromUpTo(rules, check, c, dir, ext, cur.list);
    }
    r := Ok(cur);
  }

  /**
    One cell of a side: face cell `indexes[j]` is narrowed against the
    external variant beyond it, then propagated from. The store only
    narrows, and the side now holds for one more cell.
  */
  method FaceStep(c: Cells, cur: Cells, cache: SocketCache, rules: Table, check: Check, dir: nat, ext: seq<nat>,
                  indexes: seq<nat>, j: nat, ghost coherent: bool)
    returns (r: Result<Cells, Error>, cacheOut: SocketCache)
    requires Valid(c) && Len(c.size) > 0 && dir < 2 * |c.size| && |ext| >= Len(c.size)
    requires indexes == UncollapsedAlongDir(c, dir) && j < |indexes|
    requires forall m :: 0 <= m < |indexes| ==> indexes[m] < |c.list|
    requires Valid(cur) && cur.size == c.size && Narrowed(c.list, cur.list)
    requires coherent ==> Coherent(cache, rules) && SideUpTo(rules, check, c, dir, ext, indexes, cur.list, j)
    ensures coherent ==> Coherent(cacheOut, rules)
    ensures r.Ok? ==> Valid(r.value) && r.value.size == cur.size && Narrowed(cur.list, r.value.list)
    ensures r.Ok? && coherent ==> SideUpTo(rules, check, c, dir, ext, indexes, r.value.list, j + 1)
    ensures r.Err? ==> r.error.Contradiction?
  {
    var index := indexes[j];
    assert OnFace(c, dir, index);
    var external := {External(c.size, dir, ext, index)};
    var step := NarrowAt(cur, index, OppositeIndex(dir), external, rules, check, cache);
    cacheOut := step.1;
    if step.0.Err? {
      return Err(step.0.error), cacheOut;
    }
    var narrowed := step.0.value.0;
    if coherent {
      ShrunkLaws(cur.list, narrowed.list, narrowed.list);
      SideUpToShrunk(rules, check, c, dir, ext, indexes, cur.list, narrowed.list, j);
      SideUpToExtend(rules, check, c, dir, ext, indexes, narrowed.list, j);
    }
    var propagated, cache' := Propagate(narrowed, cacheOut, rules, check, index);
    cacheOut := cache';
    if propagated.Err? {
      return Err(propagated.error), cacheOut;
    }
    NarrowedTrans(cur.list, narrowed.list, propagated.value.list);
    if coherent {
      ShrunkLaws(narrowed.list, propagated.value.list, propagated.value.list);
      SideUpToShrunk(rules, check, c, dir, ext, indexes, narrowed.list, propagated.value.list, j + 1);
    }
    r := Ok(propagated.value);
  }

  /**
    The (index, variant) pairs of the collapsed cells that have a variant,
    in increasing index order: the cells `State::new` revises and
    propagates from.
  */
  function Decided(list: seq<Cell>): (r: seq<(nat, nat)>)
    ensures DecidedIn(list, r)
  {
    if |list| == 0 then []
    else
      var prev := Decided(list[..|list| - 1]);
      DecidedExtends(list, prev);
      ExtendDecided(list, prev)
  }

  /**
    `r` lists the (index, variant) pairs of the cells of `list` that have a
    variant, every one of them, in increasing index order.
  */
  predicate DecidedIn(list: seq<Cell>, r: seq<(nat, nat)>)
  {
    && (forall k :: 0 <= k < |r| ==> r[k].0 < |list| && SelectedVariant(list[r[k].0]) == Some(r[k].1))
    && (forall i :: 0 <= i < |list| && SelectedVariant(list[i]).Some? ==> (i, SelectedVariant(list[i]).value) in r)
    && (forall k, l :: 0 <= k < l < |r| ==> r[k].0 < r[l].0)
  }

  /** The pairs of all but the last cell, followed by the last cell's pair when it has a variant. */
  function ExtendDecided(list: seq<Cell>, prev: seq<(nat, nat)>): seq<(nat, nat)>
    requires |list| > 0
  {
    match SelectedVariant(list[|list| - 1])
    case None => prev
    case Some(v) => prev + [(|list| - 1, v)]
  }

  /** Extending the pairs of all but the last cell by the last one gives the pairs of the whole list. */
  lemma DecidedExtends(list: seq<Cell>, prev: seq<(nat, nat)>)
    requires |list| > 0 && DecidedIn(list[..|list| - 1], prev)
    ensures DecidedIn(list, ExtendDecided(list, prev))
  {
    var init := list[..|list| - 1];
    var last := |list| - 1;
    var r := ExtendDecided(list, prev);
    forall k | 0 <= k < |r| ensures r[k].0 < |list| && SelectedVariant(list[r[k].0]) == Some(r[k].1) {
      if k < |prev| {
        assert r[k] == prev[k] && list[prev[k].0] == init[prev[k].0];
      }
    }
    forall i | 0 <= i < |list| && SelectedVariant(list[i]).Some? ensures (i, SelectedVariant(list[i]).value) in r {
      if i < last {
        assert list[i] == init[i];
        assert (i, SelectedVariant(init[i]).value) in prev;
      } else {
        assert r[|r| - 1] == (last, SelectedVariant(list[last]).value);
      }
    }
    forall k, l | 0 <= k < l < |r| ensures r[k].0 < r[l].0 {
      assert r[k] == prev[k];
      if l < |prev| {
        assert r[l] == prev[l];
      }
    }
  }

  /**
    The last stage of `State::new`: for each decided cell in index order,
    the selector revises with its variant and propagation starts from it.
  */
  method PropagateDecided(c: Cells, cache: SocketCache, rules: Table, check: Check, selector: Selection.Selector)
    returns (r: Result<Cells, Error>, selectorOut: Selection.Selector, cacheOut: SocketCache)
    requires Valid(c)
    ensures Coherent(cache, rules) ==> Coherent(cacheOut, rules)
    ensures Selection.IsArbiter(selector) ==> Selection.IsArbiter(selectorOut)
    ensures r.Ok? ==> Valid(r.value) && r.value.size == c.size && Shrunk(c.list, r.value.list)
    ensures r.Ok? && Coherent(cache, rules) ==>
              forall i :: 0 <= i < |c.list| && SelectedVariant(c.list[i]).Some? ==> ArcsFromOk(rules, check, r.value, i)
    ensures r.Err? ==> r.error.Contradiction?
  {
    var decided := Decided(c.list);
    var cur := c;
    selectorOut := selector;
    cacheOut := cache;
    ShrunkLaws(c.list, c.list, c.list);
    var k := 0;
    while k < |decided|
      invariant 0 <= k <= |decided|
      invariant Valid(cur) && cur.size == c.size && Shrunk(c.list, cur.list)
      invariant Coherent(cache, rules) ==> Coherent(cacheOut, rules)
      invariant Selection.IsArbiter(selector) ==> Selection.IsArbiter(selectorOut)
      invariant Coherent(cache, rules) ==> DecidedArcsUpTo(rules, check, cur, decided, k)
    {
      var (i, v) := decided[k];
      var next, selector', cache' := ReviseThenPropagate(cur, cacheOut, rules, check, selectorOut, v, i);
      selectorOut, cacheOut := selector', cache';
      if next.Err? {
        return Err(next.error), selectorOut, cacheOut;
      }
      if Coherent(cache, rules) {
        assert SelectedVariant(c.list[i]) == Some(v) && cur.list[i] == c.list[i];
        DecidedArcsStep(rules, check, cur, next.value, decided, k);
      }
      ShrunkLaws(c.list, cur.list, next.value.list);
      cur := next.value;
      k := k + 1;
    }
    if Coherent(cache, rules) {
      DecidedArcsAll(rules, check, c, cur, decided);
    }
    r := Ok(cur);
  }

  /** Once the arcs leaving every listed decided cell hold, they hold for every cell with a variant. */
  lemma DecidedArcsAll(rules: Table, check: Check, c: Cells, cur: Cells, decided: seq<(nat, nat)>)
    requires |cur.list| == Len(cur.size) && |cur.list| == |c.list|
    requires DecidedIn(c.list, decided) && DecidedArcsUpTo(rules, check, cur, decided, |decided|)
    ensures forall i :: 0 <= i < |c.list| && SelectedVariant(c.list[i]).Some? ==> ArcsFromOk(rules, check, cur, i)
  {
    forall i | 0 <= i < |c.list| && SelectedVariant(c.list[i]).Some? ensures ArcsFromOk(rules, check, cur, i) {
      var pair := (i, SelectedVariant(c.list[i]).value);
      assert pair in decided;
      var m :| 0 <= m < |decided| && decided[m] == pair;
    }
  }

  /** The first `k` decided cells are collapsed and the arcs leaving them hold. */
  predicate DecidedArcsUpTo(rules: Table, check: Check, c: Cells, decided: seq<(nat, nat)>, k: nat)
    requires |c.list| == Len(c.size) && k <= |decided|
  {
    forall m :: 0 <= m < k ==>
      decided[m].0 < |c.list| && IsCollapsed(c.list[decided[m].0]) && ArcsFromOk(rules, check, c, decided[m].0)
  }

  /**
    Revising and propagating from decided cell `k` keeps the arcs leaving
    the earlier decided cells, which are collapsed and so never change, and
    adds those leaving cell `k`.
  */
  lemma DecidedArcsStep(rules: Table, check: Check, cur: Cells, next: Cells, decided: seq<(nat, nat)>, k: nat)
    requires |cur.list| == Len(cur.size) && next.size == cur.size && |next.list| == |cur.list|
    requires k < |decided| && decided[k].0 < |cur.list| && IsCollapsed(cur.list[decided[k].0])
    requires Shrunk(cur.list, next.list)
    requires DecidedArcsUpTo(rules, check, cur, decided, k)
    requires ArcsFromOk(rules, check, next, decided[k].0)
    requires KeepsCollapsedArcs(rules, check, cur, next)
    ensures DecidedArcsUpTo(rules, check, next, decided, k + 1)
  {
    forall m | 0 <= m < k + 1
      ensures decided[m].0 < |next.list| && IsCollapsed(next.list[decided[m].0]) && ArcsFromOk(rules, check, next, decided[m].0)
    {
      var u := decided[m].0;
      assert IsCollapsed(cur.list[u]);
      assert next.list[u] == cur.list[u];
    }
  }

  /** Every arc leaving a collapsed cell of `c` that held in `c` holds in `d`. */
  predicate KeepsCollapsedArcs(rules: Table, check: Check, c: Cells, d: Cells)
    requires |c.list| == Len(c.size) && d.size == c.size && |d.list| == |c.list|
  {
    forall u :: 0 <= u < |c.list| && IsCollapsed(c.list[u]) && ArcsFromOk(rules, check, c, u) ==> ArcsFromOk(rules, check, d, u)
  }

  /** The solver: the cells, the rules, the selector, the constraint and the socket cache. */
  datatype State = State(cells: Cells, rules: Table, selector: Selection.Selector, check: Check, cache: SocketCache)

  /**
    `State::new`: a fresh store (every open slot holds every variant of the
    rules), then every external side in the given order, then the revisions
    and propagation from each decided cell. On success the store is
    consistent, every decided slot still holds exactly its variant, every
    open slot holds variants of the rules, and the cache is coherent. The
    only failure is a contradiction.
  */
  method New(size: Size, input: seq<Option<nat>>, rules: Table, selector: Selection.Selector, check: Check,
             sides: seq<(nat, seq<nat>)>)
    returns (r: Result<State, Error>)
    requires |input| == Len(size)
    requires |rules.Keys| > 0 || forall i :: 0 <= i < |input| ==> input[i].Some?
    requires forall k :: 0 <= k < |sides| ==> sides[k].0 < 2 * |size| && |sides[k].1| >= Len(size)
    ensures r.Ok? ==> Valid(r.value.cells) && r.value.cells.size == size && r.value.rules == rules
                      && Coherent(r.value.cache, rules)
    ensures r.Ok? ==> forall i :: 0 <= i < |input| && input[i].Some? ==> r.value.cells.list[i] == NewCollapsed(input[i].value)
    ensures r.Ok? ==> forall i :: 0 <= i < |input| && input[i].None? ==> r.value.cells.list[i].possibilities <= rules.Keys
    ensures r.Ok? && Selection.IsArbiter(selector) ==> Selection.IsArbiter(r.value.selector)
    ensures r.Ok? ==> SidesHold(rules, check, CellStore.New(size, input, rules.Keys), sides, |sides|, r.value.cells.list)
    ensures r.Ok? ==> forall i :: 0 <= i < |input| && input[i].Some? ==> ArcsFromOk(rules, check, r.value.cells, i)
    ensures r.Err? ==> r.error.Contradiction?
  {
    var initial := CellStore.New(size, input, rules.Keys);
    var cur := initial;
    var cache: SocketCache := map[];
    NarrowedRefl(initial.list);
    var k := 0;
    while k < |sides|
      invariant 0 <= k <= |sides|
      invariant Valid(cur) && cur.size == size && Narrowed(initial.list, cur.list)
      invariant Coherent(cache, rules)
      invariant SidesHold(rules, check, initial, sides, k, cur.list)
    {
      var side, cache' := ApplySide(cur, cache, rules, check, sides[k].0, sides[k].1);
      cache := cache';
      if side.Err? {
        return Err(side.error);
      }
      SidesStep(rules, check, initial, cur, side.value, sides, k);
      NarrowedTrans(initial.list, cur.list, side.value.list);
      cur := side.value;
      k := k + 1;
    }
    var decided, selector', cache'' := PropagateDecided(cur, cache, rules, check, selector);
    if decided.Err? {
      return Err(decided.error);
    }
    ShrunkLaws(initial.list, cur.list, decided.value.list);
    SidesHoldShrunk(rules, check, initial, sides, |sides|, cur.list, decided.value.list);
    forall i | 0 <= i < |input| && input[i].Some? ensures ArcsFromOk(rules, check, decided.value, i) {
      assert cur.list[i] == initial.list[i];
      assert SelectedVariant(cur.list[i]).Some?;
    }
    r := Ok(State(decided.value, rules, selector', check, cache''));
  }

  /** The first `k` external sides hold in `s` for the faces of `c`. */
  predicate SidesHold(rules: Table, check: Check, c: Cells, sides: seq<(nat, seq<nat>)>, k: nat, s: seq<Cell>)
    requires |c.list| == Len(c.size) && |s| == |c.list| && k <= |sides|
    requires forall m :: 0 <= m < |sides| ==> sides[m].0 < 2 * |c.size| && |sides[m].1| >= Len(c.size)
  {
    forall m :: 0 <= m < k ==> SideHolds(rules, check, c, sides[m].0, sides[m].1, s)
  }

  /** Sides that hold keep holding while the store only shrinks. */
  lemma SidesHoldShrunk(rules: Table, check: Check, c: Cells, sides: seq<(nat, seq<nat>)>, k: nat, s: seq<Cell>, t: seq<Cell>)
    requires |c.list| == Len(c.size) && |s| == |c.list| && k <= |sides|
    requires forall m :: 0 <= m < |sides| ==> sides[m].0 < 2 * |c.size| && |sides[m].1| >= Len(c.size)
    requires Shrunk(s, t) && SidesHold(rules, check, c, sides, k, s)
    ensures SidesHold(rules, check, c, sides, k, t)
  {
    forall m | 0 <= m < k ensures SideHolds(rules, check, c, sides[m].0, sides[m].1, t) {
      SideHoldsShrunk(rules, check, c, sides[m].0, sides[m].1, s, t);
    }
  }

  /** One side that holds keeps holding while the store only shrinks. */
  lemma SideHoldsShrunk(rules: Table, check: Check, c: Cells, dir: nat, ext: seq<nat>, s: seq<Cell>, t: seq<Cell>)
    requires |c.list| == Len(c.size) && dir < 2 * |c.size| && |ext| >= Len(c.size) && |s| == |c.list|
    requires Shrunk(s, t) && SideHolds(rules, check, c, dir, ext, s)
    ensures SideHolds(rules, check, c, dir, ext, t)
  {
    if Len(c.size) > 0 {
      forall i | 0 <= i < |c.list| && OnFace(c, dir, i)
        ensures ArcOk(rules, check, {External(c.size, dir, ext, i)}, t[i].possibilities, OppositeIndex(dir))
      {
        ArcOkNarrowTarget(rules, check, {External(c.size, dir, ext, i)}, s[i].possibilities, t[i].possibilities, OppositeIndex(dir));
      }
    }
  }

  /**
    Applying side `k` to a narrowing of the initial store keeps the earlier
    sides and adds side `k`: a narrowing leaves the same cells uncollapsed,
    so its faces are those of the initial store.
  */
  lemma SidesStep(rules: Table, check: Check, initial: Cells, cur: Cells, next: Cells, sides: seq<(nat, seq<nat>)>, k: nat)
    requires Valid(initial) && cur.size == initial.size && next.size == initial.size && k < |sides|
    requires forall m :: 0 <= m < |sides| ==> sides[m].0 < 2 * |initial.size| && |sides[m].1| >= Len(initial.size)
    requires Narrowed(initial.list, cur.list) && Narrowed(cur.list, next.list)
    requires SidesHold(rules, check, initial, sides, k, cur.list)
    requires SideHolds(rules, check, cur, sides[k].0, sides[k].1, next.list)
    ensures SidesHold(rules, check, initial, sides, k + 1, next.list)
  {
    ShrunkLaws(cur.list, next.list, next.list);
    SidesHoldShrunk(rules, check, initial, sides, k, cur.list, next.list);
    var dir := sides[k].0;
    if Len(initial.size) > 0 {
      forall i | 0 <= i < |initial.list| && OnFace(initial, dir, i)
        ensures ArcOk(rules, check, {External(initial.size, dir, sides[k].1, i)}, next.list[i].possibilities, OppositeIndex(dir))
      {
        assert OnFace(cur, dir, i);
      }
    }
  }

  // ---------------------------------------------------------------------------
  // StateBuilder

  /**
    `StateBuilder`: the grid size, the number of directions of the
    direction type, the selector, the constraint, the rules, one input slot
    per cell and the external sides by direction.
  */
  datatype Builder = Builder(size: Size, dimCount: nat, selector: Selection.Selector, check: Check, rules: Table,
                             input: seq<Option<nat>>, ext: map<nat, seq<nat>>)

  /** `StateBuilder::new`: every slot open, no external side. */
  function NewBuilder(size: Size, dimCount: nat, selector: Selection.Selector, check: Check, rules: Table): (b: Builder)
    ensures b.size == size && b.dimCount == dimCount && b.selector == selector && b.rules == rules
    ensures |b.input| == Len(size) && forall i :: 0 <= i < |b.input| ==> b.input[i].None?
    ensures b.ext == map[]
  {
    Builder(size, dimCount, selector, check, rules, seq(Len(size), _ => None), map[])
  }

  /** `StateBuilder::with_ext`: the side for `dir` is `source`, replacing any earlier one. */
  function WithExt(b: Builder, dir: nat, source: seq<nat>): (r: Builder)
    ensures dir in r.ext && r.ext[dir] == source
    ensures forall d :: d != dir ==> (d in r.ext <==> d in b.ext) && (d in b.ext ==> r.ext[d] == b.ext[d])
    ensures r.input == b.input && r.size == b.size && r.rules == b.rules
  {
    b.(ext := b.ext[dir := source])
  }

  /**
    `StateBuilder::insert`: the slot of `pos` is decided on `v`; every
    other slot is as it was. The source indexes the slot vector directly,
    so the position's index must be a slot.
  */
  function Insert(b: Builder, pos: UPos, v: nat): (r: Builder)
    requires |pos| == |b.size| && 0 <= Index(pos, b.size) < |b.input|
    ensures |r.input| == |b.input| && r.input[Index(pos, b.size)] == Some(v)
    ensures forall i :: 0 <= i < |b.input| && i != Index(pos, b.size) ==> r.input[i] == b.input[i]
    ensures r.size == b.size && r.ext == b.ext && r.rules == b.rules
  {
    b.(input := b.input[Index(pos, b.size) := Some(v)])
  }

  /** Inserting at one position twice keeps the later variant; inserts at distinct cells commute. */
  lemma InsertLaws(b: Builder, p: UPos, q: UPos, v: nat, w: nat)
    requires |p| == |b.size| && 0 <= Index(p, b.size) < |b.input|
    requires |q| == |b.size| && 0 <= Index(q, b.size) < |b.input|
    ensures Insert(Insert(b, p, v), p, w).input == Insert(b, p, w).input
    ensures Index(p, b.size) != Index(q, b.size) ==>
              Insert(Insert(b, p, v), q, w).input == Insert(Insert(b, q, w), p, v).input
  {
  }

  /**
    `StateBuilder::build`: a grid whose axis count is not half the number
    of directions is a dimension mismatch; otherwise the state is built,
    the external sides taken in `order` (the map's iteration order).
  */
  method Build(b: Builder, order: seq<nat>) returns (r: Result<State, Error>)
    requires |b.input| == Len(b.size)
    requires |b.rules.Keys| > 0 || forall i :: 0 <= i < |b.input| ==> b.input[i].Some?
    requires b.dimCount % 2 == 0 && forall d :: d in b.ext ==> d < b.dimCount && |b.ext[d]| >= Len(b.size)
    requires NoDup(order) && forall d :: d in order <==> d in b.ext
    ensures b.dimCount / 2 != |b.size| ==> r.Err? && r.error == DimensionMismatch(|b.size|, b.dimCount)
    ensures r.Err? && b.dimCount / 2 == |b.size| ==> r.error.Contradiction?
    ensures r.Ok? ==> b.dimCount / 2 == |b.size| && Valid(r.value.cells) && r.value.cells.size == b.size
                      && Coherent(r.value.cache, b.rules)
    ensures r.Ok? ==> forall i :: 0 <= i < |b.input| && b.input[i].Some? ==>
                        r.value.cells.list[i] == NewCollapsed(b.input[i].value)
    ensures r.Ok? ==> forall i :: 0 <= i < |b.input| && b.input[i].None? ==>
                        r.value.cells.list[i].possibilities <= b.rules.Keys
    ensures r.Ok? ==> r.value.rules == b.rules
    ensures r.Ok? && Selection.IsArbiter(b.selector) ==> Selection.IsArbiter(r.value.selector)
    ensures r.Ok? ==> forall d :: d in b.ext ==>
                        SideHolds(b.rules, b.check, CellStore.New(b.size, b.input, b.rules.Keys), d, b.ext[d], r.value.cells.list)
    ensures r.Ok? ==> forall i :: 0 <= i < |b.input| && b.input[i].Some? ==> ArcsFromOk(b.rules, b.check, r.value.cells, i)
  {
    if |b.size| != b.dimCount / 2 {
      return Err(DimensionMismatch(|b.size|, b.dimCount));
    }
    var sides := seq(|order|, k requires 0 <= k < |order| => (order[k], b.ext[order[k]]));
    r := New(b.size, b.input, b.rules, b.selector, b.check, sides);
    if r.Ok? {
      var initial := CellStore.New(b.size, b.input, b.rules.Keys);
      forall d | d in b.ext ensures SideHolds(b.rules, b.check, initial, d, b.ext[d], r.value.cells.list) {
        assert d in order;
        var k :| 0 <= k < |order| && order[k] == d;
        assert sides[k] == (d, b.ext[d]);
      }
    }
  }

  // ---------------------------------------------------------------------------
  // State::collapse

  /** `Observation`: the index just collapsed, or the news that nothing is left. */
  datatype Observation = Incomplete(index: nat) | Complete

  /** `Observation::complete`. */
  predicate IsComplete(o: Observation)
  {
    o == Complete
  }

  /** `Observation::last_observation`: the collapsed index, if any. */
  function LastObservation(o: Observation): (r: Option<nat>)
    ensures r.Some? <==> !IsComplete(o)
    ensures r.Some? ==> o == Incomplete(r.value)
  {
    match o
    case Incomplete(i) => Some(i)
    case Complete => None
  }

  /** A state `collapse` can run on. */
  predicate Ready(st: State)
  {
    Valid(st.cells) && Coherent(st.cache, st.rules) && Selection.IsArbiter(st.selector)
  }

  /**
    `State::collapse`: with every cell collapsed the result is `Complete` and
    the store is untouched. Otherwise the arbiter collapses a cell of least
    entropy to one of its own possibilities, revises with that variant and
    propagates from the cell; the cell stays collapsed on that variant, no
    cell gains a possibility, and the state stays ready. Errors are the
    arbiter's `NoPossibilities` or a contradiction.
  */
  method Collapse(st: State, stream: Selection.Stream) returns (r: Result<(State, Observation), Error>)
    requires Ready(st)
    ensures r.Ok? ==> Ready(r.value.0) && r.value.0.rules == st.rules && r.value.0.cells.size == st.cells.size
    ensures r.Ok? ==> |r.value.0.cells.list| == |st.cells.list|
                      && forall j :: 0 <= j < |st.cells.list| ==>
                           r.value.0.cells.list[j].possibilities <= st.cells.list[j].possibilities
    ensures r.Ok? && r.value.1.Complete? <==> r.Ok? && forall j :: 0 <= j < |st.cells.list| ==> IsCollapsed(st.cells.list[j])
    ensures r.Ok? && r.value.1.Complete? ==> r.value.0.cells == st.cells
    ensures r.Ok? && r.value.1.Incomplete? ==>
              var i := r.value.1.index;
              i < |st.cells.list| && !IsCollapsed(st.cells.list[i])
              && IsCollapsed(r.value.0.cells.list[i])
              && SelectedVariant(r.value.0.cells.list[i]).Some?
              && SelectedVariant(r.value.0.cells.list[i]).value in st.cells.list[i].possibilities
    ensures r.Ok? ==> forall j :: 0 <= j < |st.cells.list| && IsCollapsed(st.cells.list[j]) ==>
                        r.value.0.cells.list[j] == st.cells.list[j]
    ensures r.Ok? && (st.selector.Random? || st.selector.Weighted?) && Consistent(st.rules, st.check, st.cells) ==>
              Consistent(st.rules, st.check, r.value.0.cells)
    ensures r.Ok? && (st.selector.Random? || st.selector.Weighted?) ==>
              Selection.SameSeeds(st.selector, r.value.0.selector)
              && forall j :: 0 <= j < |st.cells.list| && st.cells.list[j].possibilities != {} ==>
                   r.value.0.cells.list[j].possibilities != {}
    ensures r.Err? ==> r.error == NoPossibilities || r.error.Contradiction?
  {
    var designation := Selection.Designate(st.selector, st.cells, stream);
    Selection.DesignatePreservesValid(st.selector, st.cells, stream);
    LowestIsMinimal(st.cells);
    match designation.outcome {
      case Err(e) =>
        return Err(e);
      case Ok(None) =>
        return Ok((st.(selector := designation.selector), Complete));
      case Ok(Some(index)) =>
        var next := CollapseAt(st, designation.selector, designation.cells, index);
        if next.Err? {
          return Err(next.error);
        }
        r := Ok((next.value, Incomplete(index)));
    }
  }

  /**
    A collapse step once the arbiter has collapsed cell `index`: the
    selector revises with the chosen variant and propagation starts from
    the cell. Measured against the store before the collapse, possibilities
    only shrink, the cell stays collapsed on one of its own possibilities,
    collapsed cells stay, and an arbiter that never revises keeps the store
    consistent and empties no cell.
  */
  method CollapseAt(st: State, selector: Selection.Selector, collapsed: Cells, index: nat) returns (r: Result<State, Error>)
    requires Ready(st) && Selection.IsArbiter(selector) && Selection.CollapsedFrom(st.cells, collapsed, index)
    ensures r.Ok? ==> Ready(r.value) && r.value.rules == st.rules && r.value.cells.size == st.cells.size
    ensures r.Ok? ==> |r.value.cells.list| == |st.cells.list|
                      && forall j :: 0 <= j < |st.cells.list| ==>
                           r.value.cells.list[j].possibilities <= st.cells.list[j].possibilities
    ensures r.Ok? ==> IsCollapsed(r.value.cells.list[index]) && SelectedVariant(r.value.cells.list[index]).Some?
                      && SelectedVariant(r.value.cells.list[index]).value in st.cells.list[index].possibilities
    ensures r.Ok? ==> forall j :: 0 <= j < |st.cells.list| && IsCollapsed(st.cells.list[j]) ==>
                        r.value.cells.list[j] == st.cells.list[j]
    ensures r.Ok? && (selector.Random? || selector.Weighted?) && Consistent(st.rules, st.check, st.cells) ==>
              Consistent(st.rules, st.check, r.value.cells)
    ensures r.Ok? && (selector.Random? || selector.Weighted?) ==>
              r.value.selector == selector
              && forall j :: 0 <= j < |st.cells.list| && st.cells.list[j].possibilities != {} ==>
                   r.value.cells.list[j].possibilities != {}
    ensures r.Err? ==> r.error.Contradiction?
  {
    var v := SelectedVariant(collapsed.list[index]).value;
    CollapsePreservesValid(st.cells, index, v);
    CollapsedKeepsNonEmpty(st.cells, collapsed, index);
    if Consistent(st.rules, st.check, st.cells) {
      CollapseKeepsOtherArcs(st.rules, st.check, st.cells, collapsed, index);
    }
    r := ReviseAndPropagate(st, selector, collapsed, index, v);
  }

  /** Collapsing a cell onto one of its possibilities empties no cell. */
  lemma CollapsedKeepsNonEmpty(before: Cells, after: Cells, i: nat)
    requires Selection.CollapsedFrom(before, after, i)
    ensures |after.list| == |before.list|
    ensures forall j :: 0 <= j < |before.list| && before.list[j].possibilities != {} ==> after.list[j].possibilities != {}
  {
    var v := SelectedVariant(after.list[i]).value;
    assert CellStore.Collapse(before, i, Ok(v)) == Ok(after);
  }

  /**
    The rest of a collapse step once cell `index` is collapsed on `v`: the
    selector revises with `v`, then propagation starts from the cell. An
    arbiter that never revises leaves a store whose only arcs to check
    leave `index` fully consistent.
  */
  method ReviseAndPropagate(st: State, selector: Selection.Selector, collapsed: Cells, index: nat, v: nat)
    returns (r: Result<State, Error>)
    requires Valid(collapsed) && index < |collapsed.list| && IsCollapsed(collapsed.list[index])
    requires Coherent(st.cache, st.rules) && Selection.IsArbiter(selector)
    ensures r.Ok? ==> Ready(r.value) && r.value.rules == st.rules && r.value.cells.size == collapsed.size
                      && Shrunk(collapsed.list, r.value.cells.list)
    ensures r.Ok? && (selector.Random? || selector.Weighted?) && ConsistentExcept(st.rules, st.check, collapsed, [index]) ==>
              Consistent(st.rules, st.check, r.value.cells)
    ensures r.Ok? && (selector.Random? || selector.Weighted?) ==>
              r.value.selector == selector
              && forall j :: 0 <= j < |collapsed.list| && collapsed.list[j].possibilities != {} ==>
                   r.value.cells.list[j].possibilities != {}
    ensures r.Err? ==> r.error.Contradiction?
  {
    var next, selector', cache' := ReviseThenPropagate(collapsed, st.cache, st.rules, st.check, selector, v, index);
    if next.Err? {
      return Err(next.error);
    }
    r := Ok(State(next.value, st.rules, selector', st.check, cache'));
  }

  /**
    The selector revises with `v`, then propagation starts from cell
    `index`. The store only shrinks; an arbiter stays an arbiter and a
    coherent cache coherent. An arbiter that never revises leaves the store
    untouched before propagation, so when only the arcs leaving `index` were
    out of order the result is consistent.
  */
  method ReviseThenPropagate(c: Cells, cache: SocketCache, rules: Table, check: Check, selector: Selection.Selector,
                             v: nat, index: nat)
    returns (r: Result<Cells, Error>, selectorOut: Selection.Selector, cacheOut: SocketCache)
    requires Valid(c) && index < |c.list|
    ensures Coherent(cache, rules) ==> Coherent(cacheOut, rules)
    ensures Selection.IsArbiter(selector) ==> Selection.IsArbiter(selectorOut)
    ensures r.Ok? ==> Valid(r.value) && r.value.size == c.size && Shrunk(c.list, r.value.list)
    ensures r.Ok? && (selector.Random? || selector.Weighted?) && Coherent(cache, rules)
                  && ConsistentExcept(rules, check, c, [index]) ==>
              Consistent(rules, check, r.value)
    ensures r.Ok? && Coherent(cache, rules) ==> ArcsFromOk(rules, check, r.value, index)
    ensures r.Ok? && Coherent(cache, rules) ==> KeepsCollapsedArcs(rules, check, c, r.value)
    ensures selector.Random? || selector.Weighted? ==> selectorOut == selector
    ensures r.Ok? && (selector.Random? || selector.Weighted?) ==>
              forall j :: 0 <= j < |c.list| && c.list[j].possibilities != {} ==> r.value.list[j].possibilities != {}
    ensures r.Err? ==> r.error.Contradiction?
  {
    var revised;
    selectorOut, revised := ReviseStore(selector, v, c);
    var propagated, cache' := Propagate(revised, cache, rules, check, index);
    cacheOut := cache';
    if propagated.Err? {
      return Err(propagated.error), selectorOut, cacheOut;
    }
    ShrunkLaws(c.list, revised.list, propagated.value.list);
    if Coherent(cache, rules) {
      ShrunkThenKeeps(rules, check, c, revised, propagated.value);
    }
    NarrowedKeepsNonEmpty(revised.list, propagated.value);
    r := Ok(propagated.value);
  }

  /**
    The selector's revision with `v` (`Selection.Revise`): the store stays
    valid and only shrinks, an arbiter stays an arbiter, and an arbiter that
    never revises changes nothing.
  */
  method ReviseStore(selector: Selection.Selector, v: nat, c: Cells) returns (selectorOut: Selection.Selector, r: Cells)
    requires Valid(c)
    ensures Valid(r) && r.size == c.size && Shrunk(c.list, r.list)
    ensures Selection.IsArbiter(selector) ==> Selection.IsArbiter(selectorOut)
    ensures selector.Random? || selector.Weighted? ==> selectorOut == selector && r == c
  {
    var revision := Selection.Revise(selector, v, c);
    ReviseShrinks(selector, v, c);
    selectorOut, r := revision.selector, revision.cells;
  }

  /** A narrowing never empties a cell: a collapsed cell stays as it was, and an uncollapsed one counts its possibilities. */
  lemma NarrowedKeepsNonEmpty(a: seq<Cell>, b: Cells)
    requires Valid(b) && Narrowed(a, b.list)
    ensures forall j :: 0 <= j < |a| && a[j].possibilities != {} ==> b.list[j].possibilities != {}
  {
    forall j | 0 <= j < |a| && a[j].possibilities != {} ensures b.list[j].possibilities != {} {
      assert CellValid(b.list[j], |b.levels|);
    }
  }

  /** A shrinking followed by a narrowing that keeps every arc keeps the arcs leaving collapsed cells. */
  lemma ShrunkThenKeeps(rules: Table, check: Check, c: Cells, d: Cells, e: Cells)
    requires |c.list| == Len(c.size) && d.size == c.size && e.size == c.size && |e.list| == |c.list|
    requires Shrunk(c.list, d.list) && KeepsArcs(rules, check, d, e)
    ensures KeepsCollapsedArcs(rules, check, c, e)
  {
    forall u | 0 <= u < |c.list| && IsCollapsed(c.list[u]) && ArcsFromOk(rules, check, c, u)
      ensures ArcsFromOk(rules, check, e, u)
    {
      ShrunkKeepsCollapsedArcs(rules, check, c, d, u);
    }
  }

  /** The arcs leaving a collapsed cell survive a shrinking: the cell stays as it was, its neighbours only lose possibilities. */
  lemma ShrunkKeepsCollapsedArcs(rules: Table, check: Check, c: Cells, d: Cells, u: nat)
    requires |c.list| == Len(c.size) && d.size == c.size && u < |c.list|
    requires Shrunk(c.list, d.list) && IsCollapsed(c.list[u]) && ArcsFromOk(rules, check, c, u)
    ensures ArcsFromOk(rules, check, d, u)
  {
    var ns := NeighborsOf(c.size, u);
    forall k | 0 <= k < |ns| && !IsCollapsed(d.list[ns[k].index])
      ensures ArcOk(rules, check, d.list[u].possibilities, d.list[ns[k].index].possibilities, ns[k].dir)
    {
      var n := ns[k].index;
      assert !IsCollapsed(c.list[n]);
      ArcOkNarrowTarget(rules, check, c.list[u].possibilities, c.list[n].possibilities, d.list[n].possibilities, ns[k].dir);
    }
  }

  /** A revision only shrinks the store. */
  lemma ReviseShrinks(s: Selection.Selector, v: nat, c: Cells)
    requires Valid(c)
    ensures Shrunk(c.list, Selection.Revise(s, v, c).cells.list)
  {
  }

  /**
    Collapsing cell `i` of a consistent store leaves only the arcs leaving
    `i` to check: arcs into `i` no longer count, and nothing else changed.
  */
  lemma CollapseKeepsOtherArcs(rules: Table, check: Check, c: Cells, d: Cells, i: nat)
    requires |c.list| == Len(c.size) && d.size == c.size && |d.list| == |c.list| && i < |c.list|
    requires IsCollapsed(d.list[i])
    requires forall j :: 0 <= j < |c.list| && j != i ==> d.list[j] == c.list[j]
    requires Consistent(rules, check, c)
    ensures ConsistentExcept(rules, check, d, [i])
  {
    forall u | 0 <= u < |d.list| && u !in [i] ensures ArcsFromOk(rules, check, d, u) {
      assert ArcsFromOk(rules, check, c, u);
    }
  }

  /** The cells still uncollapsed. */
  function Open(c: Cells): set<nat>
  {
    set j | 0 <= j < |c.list| && !IsCollapsed(c.list[j])
  }

  /**
    The crate's `collapse`: collapses until the state reports `Complete`.
    Each round collapses a cell that was open and reopens none, so the loop
    ends; on success every cell is collapsed and each decided input cell
    kept its variant. Errors are passed on.
  */
  method Run(st: State, stream: Selection.Stream) returns (r: Result<State, Error>)
    requires Ready(st)
    ensures r.Ok? ==> Ready(r.value) && r.value.cells.size == st.cells.size && |r.value.cells.list| == |st.cells.list|
    ensures r.Ok? ==> forall j :: 0 <= j < |r.value.cells.list| ==> IsCollapsed(r.value.cells.list[j])
    ensures r.Ok? ==> forall j :: 0 <= j < |r.value.cells.list| ==>
                        SelectedVariant(r.value.cells.list[j]).Some? || r.value.cells.list[j].possibilities == {}
    ensures r.Ok? && (st.selector.Random? || st.selector.Weighted?) ==>
              forall j :: 0 <= j < |st.cells.list| && st.cells.list[j].possibilities != {} ==>
                SelectedVariant(r.value.cells.list[j]).Some?
    ensures r.Ok? ==> forall j :: 0 <= j < |st.cells.list| ==>
                        r.value.cells.list[j].possibilities <= st.cells.list[j].possibilities
    ensures r.Ok? ==> forall j :: 0 <= j < |st.cells.list| && IsCollapsed(st.cells.list[j]) ==>
                        r.value.cells.list[j] == st.cells.list[j]
    ensures r.Err? ==> r.error == NoPossibilities || r.error.Contradiction?
  {
    var cur := st;
    while true
      invariant Ready(cur) && cur.cells.size == st.cells.size && |cur.cells.list| == |st.cells.list|
      invariant forall j :: 0 <= j < |st.cells.list| ==> cur.cells.list[j].possibilities <= st.cells.list[j].possibilities
      invariant forall j :: 0 <= j < |st.cells.list| && IsCollapsed(st.cells.list[j]) ==> cur.cells.list[j] == st.cells.list[j]
      invariant st.selector.Random? || st.selector.Weighted? ==>
                  Selection.SameSeeds(st.selector, cur.selector)
                  && forall j :: 0 <= j < |st.cells.list| && st.cells.list[j].possibilities != {} ==>
                       cur.cells.list[j].possibilities != {}
      decreases Open(cur.cells)
    {
      var step := Collapse(cur, stream);
      if step.Err? {
        return Err(step.error);
      }
      var (next, observation) := step.value;
      if IsComplete(observation) {
        return Ok(cur);
      }
      var i := observation.index;
      assert i in Open(cur.cells) && i !in Open(next.cells);
      assert Open(next.cells) < Open(cur.cells);
      cur := next;
    }
  }

  // ---------------------------------------------------------------------------
  // Reading the result

  /**
    `State::data_raw`: per cell, its selected variant; an uncollapsed cell,
    or a collapsed one left with nothing, gives nothing. In a consistent
    store a cell that gives a variant holds exactly that variant.
  */
  function DataRaw(c: Cells): (r: seq<Option<nat>>)
    ensures |r| == |c.list|
    ensures forall i :: 0 <= i < |r| ==> (r[i].Some? <==> IsCollapsed(c.list[i]) && c.list[i].possibilities != {})
    ensures Valid(c) ==> forall i :: 0 <= i < |r| && r[i].Some? ==> c.list[i].possibilities == {r[i].value}
  {
    var r := seq(|c.list|, i requires 0 <= i < |c.list| => SelectedVariant(c.list[i]));
    assert Valid(c) ==> forall i :: 0 <= i < |r| && r[i].Some? ==> c.list[i].possibilities == {r[i].value} by {
      if Valid(c) {
        forall i | 0 <= i < |r| && r[i].Some? ensures c.list[i].possibilities == {r[i].value} {
          assert CellValid(c.list[i], |c.levels|);
          assert {r[i].value} <= c.list[i].possibilities;
          SubsetSize({r[i].value}, c.list[i].possibilities);
          SubsetSameSize({r[i].value}, c.list[i].possibilities);
        }
      }
    }
    r
  }

  /** `State::data`: `DataRaw` with the variant type's default in place of nothing. */
  function Data(c: Cells, default: nat): (r: seq<nat>)
    ensures |r| == |c.list|
    ensures forall i :: 0 <= i < |r| ==> r[i] == match DataRaw(c)[i] case Some(v) => v case None => default
  {
    var raw := DataRaw(c);
    seq(|raw|, i requires 0 <= i < |raw| => match raw[i] case Some(v) => v case None => default)
  }

  /**
    `From<State> for Vec<Variant>`: the least possibility of every cell,
    collapsed or not; the source unwraps, so no cell may be empty.
  */
  function IntoVariants(c: Cells): (r: seq<nat>)
    requires forall i :: 0 <= i < |c.list| ==> c.list[i].possibilities != {}
    ensures |r| == |c.list|
    ensures forall i :: 0 <= i < |r| ==>
              r[i] in c.list[i].possibilities && (forall x :: x in c.list[i].possibilities ==> r[i] <= x)
  {
    seq(|c.list|, i requires 0 <= i < |c.list| => SetMin(c.list[i].possibilities))
  }

  /**
    On a finished store (every cell collapsed on a variant) all three
    readings agree, whatever the default.
  */
  lemma ReadingsAgree(c: Cells, default: nat)
    requires Valid(c)
    requires forall i :: 0 <= i < |c.list| ==> IsCollapsed(c.list[i]) && c.list[i].possibilities != {}
    ensures forall i :: 0 <= i < |c.list| ==> DataRaw(c)[i] == Some(Data(c, default)[i])
    ensures IntoVariants(c) == Data(c, default)
  {
    var raw := DataRaw(c);
    forall i | 0 <= i < |c.list| ensures IntoVariants(c)[i] == Data(c, default)[i] {
      assert raw[i].Some?;
      assert c.list[i].possibilities == {raw[i].value};
    }
  }
}

=== FILE: wrappers.dfy ===
/** Failure-compatible wrappers shared by every module of the model. */
module Wrappers {

  /** An optional value (Rust's `Option`). */
  datatype Option<+T> = None | Some(value: T)

  /** A value or an error (Rust's `Result`). */
  datatype Result<+R, +E> = Ok(value: R) | Err(error: E) {
    predicate IsFailure() {
      Err?
    }

    function PropagateFailure<U>(): Result<U, E>
      requires Err?
    {
      Err(error)
    }

    function Extract(): R
      requires Ok?
    {
      value
    }
  }
}
